=== FILE: README.md ===
# learningoo, modelled in Dafny

This project models the logic of learningoo, a course platform with an Express
and Mongoose back end and a React and Redux front end. Tutors publish courses.
Students enrol in them. Users buy licences with a credit balance. An admin
tunes a configuration singleton.

The model covers these parts:

- **Access evaluation** (`access.dfy`, `access_controller.dfy`, `admin_auth.dfy`, `http.dfy`):
  - the course, chapter and lesson checks as fail-closed chains of lookups;
  - the access and ownership middlewares;
  - the three access endpoints;
  - the admin guard.
- **Documents and the store** (`models.dfy`, `database.dfy`):
  - the user, enrollment, transaction and licence schemas with their defaults, setters and enums;
  - a `Db` class holding the collections;
  - a journal of writes, so that the order of saves can be stated.
- **Balance, role and configuration mutations**:
  - licence assignment and the licence listing (`license_controller.dfy`);
  - registration and login (`auth_controller.dfy`);
  - the admin login, configuration and user updates, and the two folds of the system overview (`admin_controller.dfy`).
- **Stateful utilities**:
  - the configuration cache (`config_cache.dfy`);
  - the per-IP rate limiter (`rate_limiter.dfy`);
  - the contact form's guard order (`contact_controller.dfy`).
- **Uploads**:
  - image validation, naming and result lists (`image_processor.dfy`);
  - bulk validation, result assembly and delete keys (`upload_service.dfy`);
  - the upload widget's checks and state (`image_upload.dfy`).
- **Front-end data logic**:
  - `slugify` (`slug.dfy`) and the course form schemas and payloads (`course_forms.dfy`);
  - the lesson block editor (`create_lesson.dfy`);
  - the registration page (`register_page.dfy`);
  - the Redux auth and ui slices over browser storage (`auth_slice.dfy`, `ui_slice.dfy`, `local_storage.dfy`);
  - course grouping (`courses_page.dfy`) and the "my courses" lists (`my_courses.dfy`).
- **Shared helpers**:
  - `wrappers.dfy` holds `Option` and `Result`;
  - `text.dfy` holds JavaScript string operations: ASCII lower-casing, whitespace trim, `indexOf`, first-occurrence replace and decimal rendering;
  - `lists.dfy` holds `filter`.

The model uses plain parameters for things outside it:

- JWT signing and verification, bcrypt, captcha verification and e-mail validation are function parameters.
- So are the `sharp` encoder, whether `sharp` can decode an input, object storage success and JSON (de)serialisation.
- The clock, uuids and today's date are passed in as values.

State that the source updates in place is modelled as classes:

- the store, the configuration cache, the rate limiter table and browser storage;
- the Redux stores and the upload widget.

Each class method is tied by its `ensures` to a pure function, and the lemmas are stated about those functions.

## Model

| member | source | states |
|---|---|---|
| `Access.CheckCourseAccess` | apps/backend/src/utils/auth.ts:48-80 | an empty user id is denied before any lookup; an admin role is granted access and ownership even for a missing course; otherwise a missing course is denied, ownership holds iff the user is the course's tutor, access iff tutor or enrolled; ownership always implies access |
| `Access.CheckChapterAccess` | apps/backend/src/utils/auth.ts:83-103 | an empty user id or a missing chapter is denied with no ids; ownership implies access |
| `Access.CheckLessonAccess` | apps/backend/src/utils/auth.ts:106-131 | an empty user id or a missing lesson is denied with no ids; a lesson whose chapter is missing is denied with that chapter's id and no course id; ownership implies access |
| `Access.ChapterDelegatesToCourse` | apps/backend/src/utils/auth.ts:92-102 | a found chapter reports its course id and exactly that course's access and ownership verdict |
| `Access.LessonDelegatesToChapter` | apps/backend/src/utils/auth.ts:120-130 | a found lesson reports its chapter id and that chapter's course id, and inherits the course's verdict |
| `Access.MissingChapterDeniesAdmin` | apps/backend/src/utils/auth.ts:92-95 | the chapter lookup precedes the role check: a missing chapter is denied even to an admin |
| `Access.AdminOwnsEveryExistingChapter` | apps/backend/src/utils/auth.ts:58-60 | an admin owns every existing chapter, whatever the course lookup would give |
| `Access.NoRoleOwnershipIsTutorship` | apps/backend/src/utils/auth.ts:218 | called without a role, the course check grants ownership exactly to the course's tutor |
| `Access.AuthenticateUser` | apps/backend/src/utils/auth.ts:23-45 | a missing or non-bearer header passes anonymously; a token that does not verify gives 401 "Invalid token"; otherwise the request user carries the payload's id and role |
| `Access.RequireCourseAccess` | apps/backend/src/utils/auth.ts:134-156 | 401 without a user id, before any lookup; otherwise next() exactly when the course check with the caller's role grants access, else 403 |
| `Access.RequireChapterAccess` | apps/backend/src/utils/auth.ts:159-181 | 401 without a user id; otherwise next() exactly when the chapter check with the role grants access, else 403 |
| `Access.RequireLessonAccess` | apps/backend/src/utils/auth.ts:184-206 | 401 without a user id; otherwise next() exactly when the lesson check with the role grants access, else 403 |
| `Access.RequireCourseOwnership` | apps/backend/src/utils/auth.ts:209-227 | 401 without a user id; next() exactly when the caller is the course's tutor (no admin bypass); otherwise 403 "Access denied. Course ownership required." |
| `Access.ParamOrBody` | apps/backend/src/utils/auth.ts:234 | the route parameter when it is a non-empty string, else the body field |
| `Access.RequireChapterOwnership` | apps/backend/src/utils/auth.ts:230-255 | 401 without a user id; 400 "Chapter ID required" when neither parameter nor body names a chapter; next() exactly when the chapter exists and the caller tutors its course |
| `Access.RequireLessonOwnership` | apps/backend/src/utils/auth.ts:258-276 | 401 without a user id; next() exactly when the lesson and its chapter exist and the caller tutors the course |
| `Access.AdminTokenWithoutIdIsAnonymous` | apps/backend/src/utils/auth.ts:53-60 | a verified admin token with no id yields a request user whose empty id is denied by the course check and answered 401 by the access middleware |
| `AccessController.CourseAccessEndpoint` | apps/backend/src/controllers/access.controller.ts:10-22 | no user id answers no access and no ownership; otherwise the course check without the caller's role |
| `AccessController.ChapterAccessEndpoint` | apps/backend/src/controllers/access.controller.ts:25-37 | no user id answers no access; otherwise the chapter check without the role |
| `AccessController.LessonAccessEndpoint` | apps/backend/src/controllers/access.controller.ts:40-52 | no user id answers no access; otherwise the lesson check without the role |
| `AccessController.EndpointsIgnoreRole` | apps/backend/src/controllers/access.controller.ts:19-20 | two callers with the same id get the same answer from all three endpoints, whatever roles their tokens carry |
| `AccessController.EndpointDiffersFromMiddlewareForAdmin` | apps/backend/src/controllers/access.controller.ts:19 | an admin who is not the tutor is reported as non-owner by the endpoint although the access middleware lets the same admin through |
| `AdminAuth.RequireAdmin` | apps/backend/src/utils/adminAuth.ts:6-23 | a missing or non-bearer header gives 401 "Missing token"; a token that does not verify gives 401 "Invalid token"; a payload whose role is not admin gives 403 "Admins only"; next() iff the verified role is admin |
| `AdminAuth.GuardIgnoresId` | apps/backend/src/utils/adminAuth.ts:16-19 | any verified admin token passes, with or without an id |
| `AdminController.AdminLogin` | apps/backend/src/controllers/admin.controller.ts:15-37 | succeeds iff the key matches `L_ADMIN_KVLR` with the password equal to `L_PASSWORD`, or the e-mail matches `L_ADMIN_EMAIL` (default "email@test.com") with that password; the token signs the role-only admin claims; otherwise 401 "Invalid admin credentials" |
| `AdminController.AdminLoginWithoutPassword` | apps/backend/src/controllers/admin.controller.ts:26-29 | with the password and e-mail variables unset, a body holding only "email@test.com" and no password is issued an admin token |
| `AdminController.AdminLoginChecked` | apps/backend/src/controllers/admin.controller.ts:22-36 | corrected login: success requires a configured password that the body presents; it agrees with the original whenever a password is configured |
| `AdminController.AdminTokenScope` | apps/backend/src/controllers/admin.controller.ts:35 | the admin token (role only, no id) passes the admin guard but is answered 401 by the course access middleware |
| `AdminController.PatchConfig` | apps/backend/src/controllers/admin.controller.ts:85-88 | each of allowRegistration, allowLogin and defaultCredits takes the body's value when present and keeps its old value otherwise |
| `AdminController.EmptyPatchChangesNothing` | apps/backend/src/controllers/admin.controller.ts:85-88 | a body with none of the three fields leaves the configuration unchanged |
| `AdminController.UpdateConfigHandler` | apps/backend/src/controllers/admin.controller.ts:78-93 | with no configuration: 500 "Config not found", nothing written, cache untouched; otherwise the patched configuration is saved (one write) and the cache is cleared; cache coherence with the store is preserved; users, licenses and transactions unchanged |
| `AdminController.UpdateUserSpec` | apps/backend/src/controllers/admin.controller.ts:180-206 | the update succeeds iff the user exists and the patch names no slug other than "student" that no license has; an unknown user gives 404 "User not found", an unknown license slug 404 "License not found"; an error saves nothing, not even the balance or isActive edits made before it |
| `AdminController.UpdateUserSaves` | apps/backend/src/controllers/admin.controller.ts:185-204 | a success saves one record: the fetched user with balance and isActive overwritten when given, "student" clearing the license and setting role student, another slug setting that license and role tutor, a truthy new password replaced by its hash, and every other field as it was; the reply is that record without its password unless a new one was hashed |
| `AdminController.UpdateUserKeepsValid` | apps/backend/src/controllers/admin.controller.ts:180-206 | the update keeps every stored user well formed and e-mails unique |
| `AdminController.UpdateUserAdmin` | apps/backend/src/controllers/admin.controller.ts:180-206 | the handler's reply, new users and write journal are those of the specification; licenses, transactions and configuration unchanged; the store stays valid |
| `Database.Db.SaveUser` | apps/backend/src/controllers/admin.controller.ts:203 | the stored user is replaced in place and the save is journaled; with id and e-mail unchanged the store stays valid; licenses, transactions and configuration unchanged |
| `AdminController.RevenueFold` | apps/backend/src/controllers/admin.controller.ts:143-150 | revenueTotal is the sum of every group's total; revenueLicenses and revenueCourses are the totals of the "license" and "course" groups, 0 when absent |
| `AdminController.AmountsSplitByCategory` | apps/backend/src/controllers/admin.controller.ts:140-142 | the amounts of all transactions are the sum of the three category totals, and an absent category totals 0 |
| `AdminController.RevenueMatchesLedger` | apps/backend/src/controllers/admin.controller.ts:140-150 | folded over the category groups of the ledger, revenueTotal equals the sum of all transaction amounts and the two named totals equal their categories' sums |
| `AdminController.RevenueInAnyOrder` | apps/backend/src/controllers/admin.controller.ts:140-150 | whatever order the `$group` rows come in (any permutation of the category rows), revenueTotal is the ledger's sum and the license and course figures are their categories' sums |
| `AdminController.LicenseCounts` | apps/backend/src/controllers/admin.controller.ts:129-137 | the counts hold exactly the five default keys plus every key a group names (a null slug counted as "unknown"); each value is the last group's count for that key, or 0 |
| `AdminController.UserLicenseSlug` | apps/backend/src/controllers/admin.controller.ts:117-125 | a student is grouped as "student"; anyone else under the slug of the license they hold, or null when they hold none that exists |
| `AdminController.LastCountOfSlug` | apps/backend/src/controllers/admin.controller.ts:127-137 | whatever order the `$group` rows come in, the last row keyed by a real slug is that slug's row, and there is none when the slug has no row |
| `AdminController.LicenseCountCountsUsers` | apps/backend/src/controllers/admin.controller.ts:117-137 | with one `$group` row for each slug some user is assigned, the overview's count for a slug is the number of users the aggregation assigns it |
| `AuthController.PublicView` | apps/backend/src/controllers/auth.controller.ts:25-34 | the user object in the response carries id, name, e-mail, role, authorName, bio, categories and balance, and has no password field |
| `AuthController.RequestedRole` | apps/backend/src/controllers/auth.controller.ts:18 | the created role is tutor iff "tutor" was requested, student otherwise |
| `AuthController.RegisterSpec` | apps/backend/src/controllers/auth.controller.ts:9-36 | the e-mail lookup runs first, and an absent e-mail matches the first stored user, so any existing user gives 409; a taken e-mail gives 409 "Email already used" and creates nothing; an absent password makes the hash throw, a 500; success iff the e-mail is free and present, the password present and the schema's required fields non-empty; on success exactly one user is appended and written, with the fresh id, the lower-cased e-mail, the trimmed name, the hash of the password, the requested role and the schema's default balance, and the response session belongs to that user |
| `AuthController.RegisterWithoutEmail` | apps/backend/src/controllers/auth.controller.ts:10-12 | a body without an e-mail never registers, and with any user stored it gets 409 |
| `Database.AppendKeepsValid` | apps/backend/src/models/user.model.ts:22 | appending a well-formed user with a fresh id and an unused e-mail keeps ids and e-mails unique |
| `AuthController.Register` | apps/backend/src/controllers/auth.controller.ts:9-36 | the handler's reply, users and write journal are those of the specification; licenses, transactions and configuration unchanged; the store stays valid |
| `Database.Db.InsertUser` | apps/backend/src/controllers/auth.controller.ts:14-19 | the created user goes after the stored ones and its creation is journaled; with a fresh id and an unused e-mail the store stays valid; licenses, transactions and configuration unchanged |
| `AuthController.Login` | apps/backend/src/controllers/auth.controller.ts:38-60 | success iff the e-mail query finds a user (an absent e-mail finds the first stored one), the password is present and it matches that user's hash; the session's token carries that user's id and role; an unknown e-mail and a wrong password give the same 401 "Invalid credentials"; an absent password makes the comparison throw, a 500 |
| `AuthController.LoginWithoutEmail` | apps/backend/src/controllers/auth.controller.ts:40-43 | without an e-mail, a password matching the first stored user's hash logs in as that user |
| `AuthController.FindUserByEmailAppended` | apps/backend/src/controllers/auth.controller.ts:40 | a newly appended user is the one an e-mail lookup finds, when no earlier user had the address |
| `AuthController.RegisterThenLogin` | apps/backend/src/controllers/auth.controller.ts:9-60 | after a successful registration, logging in with the same e-mail and password succeeds with the new user's session |
| `LicenseController.InsertByPrice` | apps/backend/src/controllers/license.controller.ts:9 | inserting into a price-sorted list keeps it sorted and adds exactly that license |
| `LicenseController.ListLicenses` | apps/backend/src/controllers/license.controller.ts:7-12 | the listing is in ascending price order and is a permutation of the stored licenses |
| `LicenseController.LicenseDebit` | apps/backend/src/controllers/license.controller.ts:30-37 | the recorded transaction is the user's debit in category license, for the price, related to the license, with no counterpart |
| `LicenseController.AssignLicenseSpec` | apps/backend/src/controllers/license.controller.ts:14-46 | an unknown slug gives 404 "License not found" before the user lookup, an unknown user 404 "User not found"; an absent slug leaves the license filter empty and takes the first stored license; a paid license the balance cannot cover gives 400 "Insufficient balance"; errors change nothing; success answers "upgraded" with the user debited by exactly the price (balance stays non-negative), role tutor and that licenseId, the debit written before the user is saved; a free license writes only the user; the reply carries the saved user without its password |
| `LicenseController.AssignWithoutSlug` | apps/backend/src/controllers/license.controller.ts:16-19 | without a licenseSlug, a user whose balance covers the first stored license is upgraded to that license |
| `LicenseController.AssignKeepsUsersValid` | apps/backend/src/controllers/license.controller.ts:40-42 | the assignment keeps every stored user well formed and e-mails unique |
| `LicenseController.AssignRecordsOneDebit` | apps/backend/src/controllers/license.controller.ts:25-37 | a paid assignment records exactly one transaction, the license debit; a free one or a refused one records none |
| `LicenseController.AssignLicense` | apps/backend/src/controllers/license.controller.ts:14-46 | the handler's reply, users, write journal and transactions are those of the specification; licenses and configuration unchanged; the store stays valid |
| `Models.ParseRole` | apps/backend/src/models/user.model.ts:24-28 | a role string is accepted iff it is one of admin, tutor and student, and is read back unchanged |
| `Models.RoleNameRoundTrip` | apps/backend/src/models/user.model.ts:24-28 | every role survives being written and parsed again |
| `Models.TrimIdempotent` | apps/backend/src/models/user.model.ts:21 | the name setter's trim is idempotent, so re-saving a user keeps its name |
| `Models.CreateUser` | apps/backend/src/models/user.model.ts:19-38 | creation succeeds iff the trimmed name, the e-mail and the password are non-empty; the stored user has the given id and password, the lower-cased e-mail, the trimmed name, the given role or student, balance 100, active, not deleted and no license |
| `Models.Sent` | apps/backend/src/models/user.model.ts:23 | the JSON of a fetched user has a password exactly when the handler assigned one, and then it is the stored hash; every other field gives back the stored record |
| `Models.SentDeterminesAllButPassword` | apps/backend/src/models/user.model.ts:23 | two users send the same JSON exactly when they differ at most in the password the JSON leaves out |
| `Models.CreateEnrollment` | apps/backend/src/models/enrollment.model.ts:14-26 | creation succeeds iff both ids are given and the pair is not already enrolled; it appends one enrollment with no completed lessons and not completed, and keeps the pairs unique |
| `Models.ParseCategory` | apps/backend/src/models/transaction.model.ts:18-22 | a category is accepted iff it is license, course or topup, and is read back unchanged |
| `Models.CreateLicense` | apps/backend/src/models/license.model.ts:12-19 | creation succeeds iff name and slug are non-empty; the slug is stored lower-cased, the price defaults to 0 and the three limits to null |
| `Database.FindUserByEmail` | apps/backend/src/models/user.model.ts:22 | an e-mail query finds the first user whose stored address equals the lower-cased query, and none exists when it answers nothing |
| `Database.FindLicenseBySlug` | apps/backend/src/models/license.model.ts:14 | a slug query finds a license whose stored slug equals the lower-cased query, and none exists when it answers nothing |
| `Http.BearerToken` | apps/backend/src/utils/adminAuth.ts:14 | `split(" ")[1]` of a bearer header is the text after the prefix up to the next space |
| `Http.BearerTokenOfHeader` | apps/backend/src/utils/auth.ts:29-34 | a header built as "Bearer " followed by a token without spaces is a bearer header whose token is that token |
| `ConfigCache.Cache.GetConfig` | apps/backend/src/utils/getConfig.ts:5-13 | a filled cache is returned without touching the store; otherwise the stored configuration is read, or one with the defaults is created and written; afterwards the cache holds the returned value; coherence with the store is preserved |
| `ConfigCache.Cache.Invalidate` | apps/backend/src/utils/getConfig.ts:15-17 | the cache is empty afterwards, so the next read goes to the store |
| `RateLimiter.Decide` | apps/backend/src/utils/rateLimiter.ts:3-11 | allowed iff at least 10000 ms have passed since the last submission; a refusal carries wait = 10000 - elapsed, which lies in (0, 10000] when the clock has not gone backwards |
| `RateLimiter.Limiter.CanSubmit` | apps/backend/src/utils/rateLimiter.ts:3-11 | the verdict is the window decision for the IP's last submission (0 when unseen); an allowed call records now for that IP only; a refused call leaves the table unchanged |
| `RateLimiter.UnknownIpAllowedAfterWindow` | apps/backend/src/utils/rateLimiter.ts:5 | an IP never seen is allowed iff now is at least 10000 |
| `RateLimiter.AcceptedCallOpensWindow` | apps/backend/src/utils/rateLimiter.ts:5-9 | after an allowed call at t, a call at t' is allowed iff t' - t >= 10000, and every other IP's entry is unchanged |
| `ContactController.ContactErrors` | apps/backend/src/controllers/contact.controller.ts:12-19 | no message iff name, message and token are non-empty, the e-mail is valid, the answer is numeric and gdpr is "true"; an empty name is reported first, then a bad e-mail |
| `ContactController.NaturalIsNumeric` | apps/backend/src/controllers/contact.controller.ts:16 | an answer written as a natural number passes `isNumeric` |
| `ContactController.PhoneLine` | apps/backend/src/controllers/contact.controller.ts:47 | with a non-empty prefix the phone line is prefix, space, phone (the text "undefined" when absent); otherwise the phone as given |
| `ContactController.PostContactSpec` | apps/backend/src/controllers/contact.controller.ts:21-54 | honeypot 400 first, then 422 with the first validation message, then 429 with the wait, then 400 captcha failure, then 500 or `{ ok }`; the rate limiter is consulted iff the first two guards pass, and mail is attempted only after the captcha |
| `ContactController.PostContact` | apps/backend/src/controllers/contact.controller.ts:21-54 | the reply is the specified one, and the limiter's table changes (recording now for the client) iff the request reached the limiter and was allowed |
| `ContactController.FailedCaptchaConsumesSlot` | apps/backend/src/controllers/contact.controller.ts:32-41 | a request that fails the captcha still takes the slot: a corrected request within 10 seconds gets 429 |
| `ImageProcessor.ValidateImage` | apps/backend/src/utils/imageProcessor.ts:164-187 | valid iff the type is one of the four allowed and the size is at most 10 MiB; the type error wins over the size error; valid iff no error |
| `ImageProcessor.SizeBoundary` | apps/backend/src/utils/imageProcessor.ts:178-184 | exactly 10 MiB passes; one byte more fails with the size message |
| `ImageProcessor.SelectResize` | apps/backend/src/utils/imageProcessor.ts:82-94 | cover crop iff width and height are both truthy, inside-without-enlargement iff only the width is, no resize when the width is 0 |
| `ImageProcessor.ResizeOfEachType` | apps/backend/src/config/storage.ts:20-66 | every upload type is cover-cropped except lesson images, which are fitted inside 1200 wide |
| `ImageProcessor.ImageFile` | apps/backend/src/utils/imageProcessor.ts:118-126 | the file name is the file id, then the suffix, then a dot and the format; the mime type is image/format; the size is the buffer's length |
| `ImageProcessor.ProcessedImages` | apps/backend/src/utils/imageProcessor.ts:35-66 | the main image first, then one cover-cropped image per configured thumbnail in order, all with the configured format and their own sizes |
| `ImageProcessor.ProcessImage` | apps/backend/src/utils/imageProcessor.ts:35-66 | the loop pushing the main image and the thumbnails returns exactly the specified list |
| `ImageProcessor.ThumbnailImages` | apps/backend/src/utils/imageProcessor.ts:53-62 | one thumbnail per configured entry, each cover-cropped to that entry's size, in configuration order |
| `ImageProcessor.FilenamesDistinct` | apps/backend/src/utils/imageProcessor.ts:119-151 | no two images of one call share a file name |
| `ImageProcessor.SuffixDetermines` | apps/backend/src/utils/imageProcessor.ts:151 | with the same id and format, equal names mean equal suffixes |
| `ImageProcessor.GenerateFilePath` | apps/backend/src/utils/imageProcessor.ts:192-199 | the path is the type's folder, a slash, the date, a slash and the file name |
| `ImageProcessor.FilePathInjective` | apps/backend/src/utils/imageProcessor.ts:198 | within one folder and day the path determines the file name |
| `UploadService.ValidateFiles` | apps/backend/src/utils/uploadService.ts:160-182 | the errors are each failing file's "File i: message" in file order, then the 50 MiB total message; valid iff there is no error |
| `UploadService.FileErrorsEmptyIff` | apps/backend/src/utils/uploadService.ts:163-168 | no per-file errors iff every file passes `validateImage` |
| `UploadService.FileErrorsAtMostOnePerFile` | apps/backend/src/utils/uploadService.ts:163-168 | at most one line per file, and a failing file's line is the last one so far |
| `UploadService.BatchValidIff` | apps/backend/src/utils/uploadService.ts:160-182 | a batch is valid iff every file passes and the total size is at most 50 MiB |
| `UploadService.FirstFailed` | apps/backend/src/utils/uploadService.ts:40 | when some upload failed, a failed one is found |
| `UploadService.CountFailed` | apps/backend/src/utils/uploadService.ts:40-43 | the failure count is zero iff every upload succeeded |
| `UploadService.UploadsOf` | apps/backend/src/utils/uploadService.ts:33-117 | one result per image, in order: its public URL when stored, an empty URL otherwise |
| `UploadService.ThumbnailUrls` | apps/backend/src/utils/uploadService.ts:50-57 | only profile photos with more than one upload get thumbnails; the i-th upload after the main one is keyed "64", "128", "200" in turn, and no other key appears |
| `UploadService.StoreAndAssemble` | apps/backend/src/utils/uploadService.ts:33-75 | success iff every image is stored; a failure carries the failed count in its message and no urls; a success has the main URL, the main size, and thumbnails exactly for profile photos with all three keys |
| `UploadService.UploadImage` | apps/backend/src/utils/uploadService.ts:22-76 | an input sharp cannot decode gives the caught failure with sharp's message; otherwise the same as StoreAndAssemble, for the images `processImage` produces |
| `UploadService.DeleteKeyOfPublicUrl` | apps/backend/src/utils/uploadService.ts:122-133 | deleting by a URL an upload returned removes the key that upload stored |
| `UploadService.DeleteKeyOfForeignUrl` | apps/backend/src/utils/uploadService.ts:125 | a URL that does not contain the base is used whole as the key |
| `ImageUploadWidget.FileProblem` | apps/frontend/src/components/ImageUpload.tsx:68-84 | no complaint iff the type is one of the four allowed and the size is at most 10 MiB; the type complaint, naming the file, comes first |
| `ImageUploadWidget.FirstProblemIndex` | apps/frontend/src/components/ImageUpload.tsx:71-85 | the loop stops at the first file with a complaint: every earlier file passes, and there is none iff every file passes |
| `ImageUploadWidget.FirstProblemAt` | apps/frontend/src/components/ImageUpload.tsx:71-85 | a failing file after only passing ones is the one reported |
| `ImageUploadWidget.FormFields` | apps/frontend/src/components/ImageUpload.tsx:103-109 | with `multiple` every file is appended as "images" in order; otherwise only the first, as "image" |
| `ImageUploadWidget.Decide` | apps/frontend/src/components/ImageUpload.tsx:56-112 | nothing happens iff there are no files; too many files is rejected with the count message; a single course cover opens the crop editor on the first file's object URL; a request to "/upload/" + type is sent iff the count and every file pass and it is not a single course cover |
| `ImageUploadWidget.CropOnlyForSingleCover` | apps/frontend/src/components/ImageUpload.tsx:88-96 | the crop editor opens only for a single course cover whose files all passed the checks |
| `ImageUploadWidget.NormaliseUrls` | apps/frontend/src/components/ImageUpload.tsx:131-133 | the server's url list when it sent one, otherwise the single url |
| `ImageUploadWidget.FailureMessage` | apps/frontend/src/components/ImageUpload.tsx:137-141 | the server's error, else the exception's message, else "Upload failed"; never empty |
| `ImageUploadWidget.Widget.constructor` | apps/frontend/src/components/ImageUpload.tsx:45-53 | not uploading, progress 0, no error, crop editor closed with no temporary URL |
| `ImageUploadWidget.Widget.Fail` | apps/frontend/src/components/ImageUpload.tsx:62-63 | progress reset with the error, and the error reported once to `onUploadError` |
| `ImageUploadWidget.Widget.HandleFiles` | apps/frontend/src/components/ImageUpload.tsx:56-145 | the state change follows the decision: an ignored selection changes nothing, a rejection reports its error once, a crop opens the editor without touching the progress, and a send marks the upload in flight |
| `ImageUploadWidget.Widget.HandleDrop` | apps/frontend/src/components/ImageUpload.tsx:147-155 | a drop while uploading changes nothing; otherwise the drop is handled like a selection: sent iff the decision is to send, with the same state changes for each decision |
| `ImageUploadWidget.Widget.Settle` | apps/frontend/src/components/ImageUpload.tsx:128-144 | a successful answer delivers the normalised urls and thumbnails with progress 100; anything else reports the failure message with progress 0 |
| `ImageUploadWidget.Widget.CropSave` | apps/frontend/src/components/ImageUpload.tsx:181-225 | the cropped blob is sent alone as "image"; afterwards `uploading` is false; on success progress is 100, no error, the urls are delivered and nothing is reported; on failure progress is 0, the error is set and reported once, and nothing is delivered; the temporary URL is revoked and the editor closed whatever happened |
| `ImageUploadWidget.Widget.CropCancel` | apps/frontend/src/components/ImageUpload.tsx:227-232 | the temporary URL is revoked if there was one and the editor closes; the upload state is untouched |
| `LessonEditor.AddBlock` | apps/frontend/src/pages/CreateLesson.tsx:68-77 | one block appended with the new id, the chosen type and that type's default data; the earlier blocks are unchanged |
| `LessonEditor.UpdateBlock` | apps/frontend/src/pages/CreateLesson.tsx:79-83 | same length, ids and types; exactly the blocks with the id get the new data |
| `LessonEditor.DeleteBlock` | apps/frontend/src/pages/CreateLesson.tsx:213 | no block with the id survives and the list does not grow |
| `LessonEditor.DeleteIsFilter` | apps/frontend/src/pages/CreateLesson.tsx:213 | delete is the `filter` that keeps the blocks without the id, in their order |
| `LessonEditor.DeleteRemovesExactly` | apps/frontend/src/pages/CreateLesson.tsx:213 | every block without the id keeps its multiplicity; those with it are gone |
| `LessonEditor.DeleteAbsentId` | apps/frontend/src/pages/CreateLesson.tsx:213 | deleting an id no block has changes nothing |
| `LessonEditor.DeleteAppend` | apps/frontend/src/pages/CreateLesson.tsx:213 | deleting distributes over concatenation |
| `LessonEditor.AddThenDelete` | apps/frontend/src/pages/CreateLesson.tsx:68-213 | deleting a just-added block with a fresh id restores the list |
| `LessonEditor.UpdateThenDelete` | apps/frontend/src/pages/CreateLesson.tsx:79-213 | updating is idempotent, and deleting after updating is deleting |
| `LessonEditor.SpliceStart` | apps/frontend/src/pages/CreateLesson.tsx:89 | `splice` clamps its start into the list, counting a negative start from the end; an in-range start is kept |
| `LessonEditor.Remove` | apps/frontend/src/pages/CreateLesson.tsx:88 | removing one element shifts the later ones down by one |
| `LessonEditor.Insert` | apps/frontend/src/pages/CreateLesson.tsx:89 | inserting puts the element at the position and shifts the later ones up by one |
| `LessonEditor.MovePermutes` | apps/frontend/src/pages/CreateLesson.tsx:85-92 | a move keeps the length and the multiset of blocks |
| `LessonEditor.MovePlaces` | apps/frontend/src/pages/CreateLesson.tsx:85-92 | the moved block lands at the splice position and removing it there gives the list without it, so the other blocks keep their order |
| `LessonEditor.MoveBlock` | apps/frontend/src/pages/CreateLesson.tsx:85-92 | the in-place shifting of the two splices yields exactly the specified moved list |
| `LessonEditor.CloseGap` | apps/frontend/src/pages/CreateLesson.tsx:88 | the blocks after the removed one each move one slot left; those before it are unchanged |
| `LessonEditor.OpenGap` | apps/frontend/src/pages/CreateLesson.tsx:89 | the blocks from the insertion point on each move one slot right; those before it are unchanged |
| `LessonEditor.DropTargetsAgree` | apps/frontend/src/pages/CreateLesson.tsx:117-126 | the as-written and corrected drop targets differ only when a block is dropped on its own lower half |
| `LessonEditor.DropLandsNextToTarget` | apps/frontend/src/pages/CreateLesson.tsx:117-131 | dropping on another block puts the dragged one right above it (upper half) or right below it (lower half) |
| `LessonEditor.DropOnOwnUpperHalf` | apps/frontend/src/pages/CreateLesson.tsx:125 | dropping a block on its own upper half leaves the list unchanged |
| `LessonEditor.DropOnOwnLowerHalfMoves` | apps/frontend/src/pages/CreateLesson.tsx:122-123 | as written, dropping a block on its own lower half swaps it with the next block |
| `LessonEditor.DropOnItselfCorrected` | apps/frontend/src/pages/CreateLesson.tsx:117-126 | with the corrected target, dropping a block on itself never changes the list |
| `LessonEditor.NextOrder` | apps/frontend/src/pages/CreateLesson.tsx:60 | one more than the number of the chapter's lessons, and 1 when the chapter or its lessons are not loaded |
| `LessonEditor.HandleSave` | apps/frontend/src/pages/CreateLesson.tsx:141-152 | the alert iff the title is all whitespace; otherwise the untrimmed title, the chapter id, the blocks and the next order are posted |
| `Slug.DropRun` | apps/frontend/src/pages/CreateCourse.tsx:86 | drops exactly the leading characters outside `[a-z0-9]` |
| `Slug.CollapseRuns` | apps/frontend/src/pages/CreateCourse.tsx:86 | the output is over `[a-z0-9-]` with no two hyphens in a row, empty iff the input is, and keeps a leading slug character |
| `Slug.StripLeading` | apps/frontend/src/pages/CreateCourse.tsx:87 | a suffix of the input not starting with a hyphen |
| `Slug.StripTrailing` | apps/frontend/src/pages/CreateCourse.tsx:87 | a prefix of the input not ending with a hyphen |
| `Slug.SlugifyIsSlug` | apps/frontend/src/pages/CreateCourse.tsx:82-87 | every output is a slug: `[a-z0-9-]`, no hyphen at either end, none doubled |
| `Slug.SlugifyOfSlug` | apps/frontend/src/pages/CreateCourse.tsx:82-87 | a slug is its own slug |
| `Slug.SlugifyIdempotent` | apps/frontend/src/pages/EditCourse.tsx:113-118 | slugifying twice is slugifying once, so re-saving an edited course keeps its slug |
| `CourseForms.ChapterIssues` | apps/frontend/src/pages/CreateCourse.tsx:19-26 | no chapter issue iff every chapter has a title of at least 2 characters and a valid cover URL |
| `CourseForms.IssuesEmptyIff` | apps/frontend/src/pages/CreateCourse.tsx:11-27 | the schema reports nothing iff every rule holds: title 3+, cover URL, category chosen, description at the minimum, a photo, body 10+, price 0+, enough chapters, valid chapters |
| `CourseForms.EditAcceptsCreated` | apps/frontend/src/pages/EditCourse.tsx:12-29 | a form the creation schema accepts, with a description of 40+ characters, is accepted by the edit schema |
| `CourseForms.ChaptersOptionalOnlyWhenEditing` | apps/frontend/src/pages/CreateCourse.tsx:26 | the creation schema refuses a course without chapters |
| `CourseForms.CreatePayload` | apps/frontend/src/pages/CreateCourse.tsx:89-98 | the form, the current user as tutor, a well-formed slug of the title and the welcome subject naming the title |
| `CourseForms.EditPayload` | apps/frontend/src/pages/EditCourse.tsx:120-128 | the same derived fields with no tutor |
| `CourseForms.PayloadsDifferOnlyInTutor` | apps/frontend/src/pages/EditCourse.tsx:120-128 | the two pages send the same body apart from the tutor |
| `CourseForms.ResetValues` | apps/frontend/src/pages/EditCourse.tsx:75-95 | title, cover image, description and welcome e-mail body take the course's value or ""; the category id is the course's or ""; photos default to [] and price to 0; chapters map one to one keeping their ids, or one blank chapter when there are none |
| `CourseForms.ResetKeepsChapterIds` | apps/frontend/src/pages/EditCourse.tsx:90 | every fetched chapter keeps its id in the form |
| `CourseForms.ResetOfCompleteCourse` | apps/frontend/src/pages/EditCourse.tsx:77-84 | a course with every scalar field and its photos present fills the form with its own title, cover image, category, description, photos, welcome e-mail body and price |
| `CourseForms.AddPhotos` | apps/frontend/src/pages/EditCourse.tsx:290-291 | uploaded urls go after the existing photos |
| `CourseForms.RemovePhoto` | apps/frontend/src/pages/EditCourse.tsx:308-311 | exactly the photo at the index goes and the others keep their order; an index out of range changes nothing |
| `CourseForms.AddThenRemoveLast` | apps/frontend/src/pages/EditCourse.tsx:290-311 | removing the photo just uploaded restores the list |
| `RegisterPage.IssuesEmptyIff` | apps/frontend/src/pages/Register.tsx:9-20 | the schema reports nothing iff the name has 2+ characters, the e-mail is valid, the password has 6+ and the confirmation equals it |
| `RegisterPage.MismatchReportedOnConfirm` | apps/frontend/src/pages/Register.tsx:17-20 | a mismatched confirmation is reported last, on `confirmPassword`, with "Passwords do not match", whatever else fails |
| `RegisterPage.RoleOf` | apps/frontend/src/pages/Register.tsx:33 | tutor iff the publish box is ticked; an untouched box means student |
| `RegisterPage.Submission` | apps/frontend/src/pages/Register.tsx:32-41 | a request is sent iff the schema reports nothing; it carries the form's name, e-mail and password and the tutor role iff the box is ticked |
| `RegisterPage.Render` | apps/frontend/src/pages/Register.tsx:44 | a template literal never renders a number or `undefined` as the empty string |
| `RegisterPage.AfterRegister` | apps/frontend/src/pages/Register.tsx:42-52 | a success alerts the credits and navigates by role; a rejection never navigates and alerts the "disabled" message iff its message contains "503" |
| `RegisterPage.DisabledAlertIff` | apps/frontend/src/pages/Register.tsx:48-51 | the "disabled" alert appears iff "503" occurs somewhere in the message |
| `RegisterPage.OtherRejectionsAreSilent` | apps/frontend/src/pages/Register.tsx:48-52 | any other rejection neither alerts nor navigates |
| `RegisterPage.RoleDecidesDestination` | apps/frontend/src/pages/Register.tsx:46-47 | an accepted form lands on /pricing iff the box was ticked, else on /my-courses |
| `LocalStorage.Storage.GetItem` | apps/frontend/src/store/uiSlice.ts:9 | `getItem` answers the stored value, or null iff the key is absent |
| `LocalStorage.Storage.SetItem` | apps/frontend/src/store/uiSlice.ts:24 | `setItem` overwrites one key and leaves the others |
| `LocalStorage.Storage.RemoveItem` | apps/frontend/src/store/authSlice.ts:108-109 | `removeItem` deletes one key and leaves the others |
| `UiSlice.InitialTheme` | apps/frontend/src/store/uiSlice.ts:7-16 | a non-empty stored value wins as stored; otherwise dark iff the system prefers dark, else light |
| `UiSlice.Toggled` | apps/frontend/src/store/uiSlice.ts:27 | always a theme, and dark iff the old value was light |
| `UiSlice.ToggleTwice` | apps/frontend/src/store/uiSlice.ts:26-29 | toggling a theme twice gives it back |
| `UiSlice.ToggleOfStrayValue` | apps/frontend/src/store/uiSlice.ts:9-27 | a stray stored value toggles to light, and a second toggle does not bring it back |
| `UiSlice.ReloadKeepsTheme` | apps/frontend/src/store/uiSlice.ts:9-24 | a persisted theme is the initial theme after a reload, whatever the system prefers |
| `UiSlice.UiStore.constructor` | apps/frontend/src/store/uiSlice.ts:7-16 | the initial theme is computed from the storage's "theme" entry and the system preference |
| `UiSlice.UiStore.SetTheme` | apps/frontend/src/store/uiSlice.ts:22-25 | the theme becomes the payload and is written under "theme"; nothing else in storage changes |
| `UiSlice.UiStore.ToggleTheme` | apps/frontend/src/store/uiSlice.ts:26-29 | the theme flips and the new one is written under "theme" |
| `AuthSlice.Initial` | apps/frontend/src/store/authSlice.ts:30-37 | idle with no error; the stored token as is; the parsed stored user, none when the entry is absent or empty |
| `AuthSlice.NeverLoading` | apps/frontend/src/store/authSlice.ts:26-149 | the slice starts idle and no handled action ever sets "loading" |
| `AuthSlice.SessionTransitions` | apps/frontend/src/store/authSlice.ts:118-141 | login and register success have the same effect; a rejection sets the error status and message and keeps user and token |
| `AuthSlice.LogoutSurvivesReload` | apps/frontend/src/store/authSlice.ts:105-110 | after a logout a reload starts signed out |
| `AuthSlice.LoginSurvivesReload` | apps/frontend/src/store/authSlice.ts:118-125 | after a login a reload restores the same state, given a faithful JSON round trip |
| `AuthSlice.AuthorUpdateLostOnReload` | apps/frontend/src/store/authSlice.ts:146-148 | an author update changes the user in memory only, so a reload brings back the earlier user |
| `AuthSlice.ClearedUserComesBack` | apps/frontend/src/store/authSlice.ts:111-115 | `setUser(null)` clears the user in memory only; a reload restores it |
| `AuthSlice.AuthStore.constructor` | apps/frontend/src/store/authSlice.ts:30-37 | the store starts in the state read from storage |
| `AuthSlice.AuthStore.Dispatch` | apps/frontend/src/store/authSlice.ts:104-149 | the new state is the reducer's and the storage is written as the case handler writes it |
| `Lists.Filter` | apps/frontend/src/pages/MyCourses.tsx:40 | `filter` never lengthens a list |
| `Lists.FilterContains` | apps/frontend/src/pages/MyCourses.tsx:40 | an element is kept iff it is in the list and passes the test |
| `Lists.FilterAppend` | apps/frontend/src/pages/Courses.tsx:54 | filtering distributes over concatenation, so order is kept |
| `Lists.FilterAgrees` | apps/frontend/src/pages/MyCourses.tsx:50-56 | two tests that agree on every element keep the same elements |
| `CoursesPage.CategoryOf` | apps/frontend/src/pages/Courses.tsx:19 | the course's category name when non-empty, else "Uncategorized"; never empty |
| `CoursesPage.GroupKeys` | apps/frontend/src/pages/Courses.tsx:16-23 | the section keys are distinct, cover every course's category and are no more than the courses |
| `CoursesPage.Group` | apps/frontend/src/pages/Courses.tsx:16-23 | the loop's record has exactly the keys in first-appearance order, and each key's list is the courses of that category in fetch order |
| `CoursesPage.GroupStep` | apps/frontend/src/pages/Courses.tsx:19-21 | one more course adds its category at the end if new, and appends the course to that category only |
| `CoursesPage.KeysComeFromCourses` | apps/frontend/src/pages/Courses.tsx:20 | every key is some course's category |
| `CoursesPage.NoCoursesIff` | apps/frontend/src/pages/Courses.tsx:50-52 | "No courses yet." is shown iff there is no course |
| `CoursesPage.MemberIff` | apps/frontend/src/pages/Courses.tsx:21 | a course is in a section iff it was fetched and that section is its category |
| `CoursesPage.GroupedCountAppend` | apps/frontend/src/pages/Courses.tsx:53-55 | counting one more section adds that section's size |
| `CoursesPage.GroupedCountStep` | apps/frontend/src/pages/Courses.tsx:21 | one more course adds one to the count iff its category is among the keys |
| `CoursesPage.MembersOfAbsentKey` | apps/frontend/src/pages/Courses.tsx:20 | a category that is not a key has no courses |
| `CoursesPage.GroupsPartition` | apps/frontend/src/pages/Courses.tsx:16-23 | the sections together hold every course exactly as many times as it was fetched |
| `CoursesPage.AllShowsEverything` | apps/frontend/src/pages/Courses.tsx:54 | "All" shows every section in order |
| `CoursesPage.SelectedShowsOne` | apps/frontend/src/pages/Courses.tsx:54 | another selection shows that one section if it exists, and nothing otherwise |
| `MyCourses.CourseIds` | apps/frontend/src/pages/MyCourses.tsx:35-39 | the ids of the enrollments' courses, one per enrollment in order |
| `MyCourses.Render` | apps/frontend/src/pages/MyCourses.tsx:16-147 | blank iff there is no user; a tutor sees authored and enrolled lists; anyone else the student list as written |
| `MyCourses.EnrolledIff` | apps/frontend/src/pages/MyCourses.tsx:48-63 | a course is in the tutor's enrolled list iff it was fetched and one of the user's own enrollments names it |
| `MyCourses.AuthoredIff` | apps/frontend/src/pages/MyCourses.tsx:47 | a course is in the tutor's products iff it was fetched and the user is its tutor |
| `MyCourses.StudentSeesOthersCourses` | apps/frontend/src/pages/MyCourses.tsx:33-41 | as written, a student with no enrollment of their own is shown another student's course |
| `MyCourses.RenderCorrected` | apps/frontend/src/pages/MyCourses.tsx:122-147 | the same page with the student list filtered by the user |
| `MyCourses.StudentSeesOwnCoursesCorrected` | apps/frontend/src/pages/MyCourses.tsx:33-41 | with the correction a student sees exactly the fetched courses they are enrolled in |
| `MyCourses.ListsAgreeOnOwnEnrollments` | apps/frontend/src/pages/MyCourses.tsx:33-63 | the two student lists agree whenever every fetched enrollment is the user's own |
| `MyCourses.OwnFilterIsIdentity` | apps/frontend/src/pages/MyCourses.tsx:50-56 | the student filter keeps every enrollment when all are the user's |
| `MyCourses.ListsKeepFetchOrder` | apps/frontend/src/pages/MyCourses.tsx:47-62 | both tutor lists keep the order in which courses were fetched |

## Left out

- Network, database and storage I/O are not modelled: Mongoose queries, S3/R2 `send`, the mailer, axios and `generatePresignedUrl`. The store is the `Db` class. Lookups are functions over its collections. An upload's or an e-mail's success is a parameter.
- LicenseController.LicenseOf, Database.EmailQuery: a `findOne` whose filter field is absent has an empty filter, and Mongo may return any document. The model takes the first stored one, which is the natural order of a collection that was never reordered.
- JWT, bcrypt, `captcha.ts` (random questions signed into a token) and validator's `isEmail` and zod's `url()` are opaque function parameters. Their own properties are not modelled.
- The `sharp` pipeline (rotate, normalise, encode) is one opaque function, and whether it can decode an input is another. Only a decoding failure of the input is modelled as an exception from it. The crop editor's canvas geometry and upload progress percentages are not modelled.
- Concurrency is not modelled: `Promise.all` fan-outs become sequential maps, and the concurrent double-purchase race is out of reach of a sequential model. Idle-logout and toast timers are left out too.
- Handlers whose bodies are not part of this model are left out rather than invented. These are `enrollCourse`, `getCourseSummaries`, `getCourseBySlug`, `updateLicense`, `updateCategory` and `deleteCategory`. The plain CRUD controllers and the overview's pass-through queries (`getSummary`, user and transaction listings) are left out as well.
- Configuration flags: `register` and `login` as written read neither `allowRegistration`, `allowLogin` nor `defaultCredits`. The model follows the code, so a new user's balance is the schema default of 100.
- `JSON.parse` throwing on a malformed stored user is left out. `parse` returns an optional user instead.
- Routing, server start-up, `asyncHandler`, route guards, rendering-only pages and the unrouted `Tutorials.tsx` are left out.
- Strings are sequences of characters. Lower-casing covers ASCII only, and Unicode case mapping is not modelled.
- `Object.keys` order is modelled as first-insertion order. JavaScript lists integer-like keys first, and that ordering is not modelled.
- Category names that collide with `Object.prototype` members (such as "constructor") are treated like any other name.
- Ties in Mongo's sort by price are not modelled. `ListLicenses` promises some price-sorted permutation, not a particular one. The order of the `$group` rows is a parameter of the license-count lemmas and of `RevenueInAnyOrder`.
- zod's and express-validator's built-in messages are `None` or the library's literal default text. The register schema's refinement is modelled as running even when a field rule fails, as zod 3 does for non-fatal issues.
- `topEarner` and the other overview statistics beyond the revenue and licence-count folds are left out.
- AuthSlice.Initial: the stored user is whatever `parse` returns. The model does not check that the stored JSON has a `User`'s shape, because the source only casts it.
- LicenseController.ListLicenses: states sortedness and permutation only, because the database's order among equal prices is unspecified.
- Database.FindUserById, LicenseController.UserOf and the Access checks (CheckCourseAccess, CheckChapterAccess, CheckLessonAccess): an id that is not a well-formed ObjectId makes Mongoose's `findById` throw a CastError, so the request fails with a server error instead of a 404 or a denial. The model treats such an id as one that no document has.
- ContactController.ContactErrors: the token rule's default message is written as "Invalid value", which is express-validator's default; the message itself is not checked against the library.

## Findings

| source | as written | input that shows it | evidently intended | confidence | as-written member | corrected member |
|---|---|---|---|---|---|---|
| apps/backend/src/controllers/admin.controller.ts:26-29 | with `L_PASSWORD` unset, `password === process.env.L_PASSWORD` compares `undefined` with `undefined` | no admin variables set, body `{ email: "email@test.com" }` with no password: an admin token is issued | a login succeeds only when a password is configured and presented | not executed | `AdminController.AdminLoginWithoutPassword` | `AdminController.AdminLoginChecked` |
| apps/frontend/src/pages/CreateLesson.tsx:122-123 | dropping a block on the lower half of itself gives `to = index + 1` | three blocks a, b, c: drag a and drop it on a's own lower half; the list becomes b, a, c | dropping a block on itself leaves the list unchanged | not executed | `LessonEditor.DropOnOwnLowerHalfMoves` | `LessonEditor.DropOnItselfCorrected` |
| apps/frontend/src/pages/MyCourses.tsx:33-41 | the student list keeps every course that appears in any fetched enrollment, without checking the student; `getEnrollments` returns every enrollment | student s1 with no enrollment, enrollment (s2, c1): s1's page lists course c1 | a student sees only the courses they are enrolled in, as the tutor's list already filters | not executed | `MyCourses.StudentSeesOthersCourses` | `MyCourses.StudentSeesOwnCoursesCorrected` |

=== FILE: access.dfy ===
/**
 * Access evaluation of the backend (apps/backend/src/utils/auth.ts): the
 * course, chapter and lesson checks, which are fail-closed chains of early
 * returns over store lookups, the middleware that reads the bearer token, and
 * the access and ownership middlewares built on the checks.
 */
module Access {
  import opened Wrappers
  import opened Text
  import opened Models
  import opened Http

  /**
   * The lookups the checks make: each course's tutor, each chapter's course,
   * each lesson's chapter, and the (student, course) enrollment pairs.
   */
  datatype Store = Store(
    courseTutor: map<Id, Id>,
    chapterCourse: map<Id, Id>,
    lessonChapter: map<Id, Id>,
    enrollments: set<(Id, Id)>)

  /** `{ hasAccess, isOwner, courseId?, chapterId? }`. */
  datatype AccessResult = AccessResult(hasAccess: bool, isOwner: bool, courseId: Option<Id>, chapterId: Option<Id>)

  const Denied: AccessResult := AccessResult(false, false, None, None)

  predicate IsTutorOf(st: Store, userId: string, courseId: Id) {
    courseId in st.courseTutor && st.courseTutor[courseId] == userId
  }

  /** `checkCourseAccess(userId, courseId, userRole?)`. */
  function CheckCourseAccess(st: Store, userId: string, courseId: Id, role: Option<string>): (r: AccessResult)
    ensures r.isOwner ==> r.hasAccess
    ensures r.courseId.None? && r.chapterId.None?
    ensures userId == "" ==> r == Denied
    ensures userId != "" && role == Some("admin") ==> r.hasAccess && r.isOwner
    ensures courseId !in st.courseTutor && role != Some("admin") ==> r == Denied
    ensures userId != "" && role != Some("admin") ==>
      && (r.isOwner <==> IsTutorOf(st, userId, courseId))
      && (r.hasAccess <==> IsTutorOf(st, userId, courseId) || (courseId in st.courseTutor && (userId, courseId) in st.enrollments))
  {
    if userId == "" then Denied
    else if role == Some("admin") then AccessResult(true, true, None, None)
    else if courseId !in st.courseTutor then Denied
    else if st.courseTutor[courseId] == userId then AccessResult(true, true, None, None)
    else AccessResult((userId, courseId) in st.enrollments, false, None, None)
  }

  /** `checkChapterAccess`: the chapter lookup precedes the delegation (and so the role check). */
  function CheckChapterAccess(st: Store, userId: string, chapterId: Id, role: Option<string>): (r: AccessResult)
    ensures r.isOwner ==> r.hasAccess
    ensures r.chapterId.None?
    ensures userId == "" || chapterId !in st.chapterCourse ==> r == Denied
  {
    if userId == "" then Denied
    else if chapterId !in st.chapterCourse then Denied
    else
      var courseId := st.chapterCourse[chapterId];
      CheckCourseAccess(st, userId, courseId, role).(courseId := Some(courseId))
  }

  /** `checkLessonAccess`: the lesson lookup precedes the delegation to the chapter check. */
  function CheckLessonAccess(st: Store, userId: string, lessonId: Id, role: Option<string>): (r: AccessResult)
    ensures r.isOwner ==> r.hasAccess
    ensures userId == "" || lessonId !in st.lessonChapter ==> r == Denied
    ensures userId != "" && lessonId in st.lessonChapter && st.lessonChapter[lessonId] !in st.chapterCourse ==>
      r == Denied.(chapterId := Some(st.lessonChapter[lessonId]))
  {
    if userId == "" then Denied
    else if lessonId !in st.lessonChapter then Denied
    else
      var chapterId := st.lessonChapter[lessonId];
      CheckChapterAccess(st, userId, chapterId, role).(chapterId := Some(chapterId))
  }

  /** A found chapter hands its course to the course check and reports that course's id. */
  lemma ChapterDelegatesToCourse(st: Store, userId: string, chapterId: Id, role: Option<string>)
    requires userId != "" && chapterId in st.chapterCourse
    ensures var c := st.chapterCourse[chapterId];
      var r := CheckChapterAccess(st, userId, chapterId, role);
      && r.courseId == Some(c)
      && r.hasAccess == CheckCourseAccess(st, userId, c, role).hasAccess
      && r.isOwner == CheckCourseAccess(st, userId, c, role).isOwner
  {
  }

  /** A found lesson reports its chapter and that chapter's course, and inherits the course's verdict. */
  lemma LessonDelegatesToChapter(st: Store, userId: string, lessonId: Id, role: Option<string>)
    requires userId != "" && lessonId in st.lessonChapter
    requires st.lessonChapter[lessonId] in st.chapterCourse
    ensures var ch := st.lessonChapter[lessonId];
      var c := st.chapterCourse[ch];
      var r := CheckLessonAccess(st, userId, lessonId, role);
      && r.chapterId == Some(ch)
      && r.courseId == Some(c)
      && r.hasAccess == CheckCourseAccess(st, userId, c, role).hasAccess
      && r.isOwner == CheckCourseAccess(st, userId, c, role).isOwner
  {
    ChapterDelegatesToCourse(st, userId, st.lessonChapter[lessonId], role);
  }

  /**
   * Even an admin gets no access to a chapter that does not exist, and no ids:
   * the lookup runs before the role is looked at.
   */
  lemma MissingChapterDeniesAdmin(st: Store, userId: string, chapterId: Id)
    requires chapterId !in st.chapterCourse
    ensures CheckChapterAccess(st, userId, chapterId, Some("admin")) == Denied
  {
  }

  /** With a chapter present, an admin is granted ownership whatever the course lookup gives. */
  lemma AdminOwnsEveryExistingChapter(st: Store, userId: string, chapterId: Id)
    requires userId != "" && chapterId in st.chapterCourse
    ensures CheckChapterAccess(st, userId, chapterId, Some("admin")).isOwner
  {
  }

  /**
   * Without a role the checks grant ownership only to the course's tutor: an
   * admin asking without its role is treated like anybody else.
   */
  lemma NoRoleOwnershipIsTutorship(st: Store, userId: string, courseId: Id)
    requires userId != ""
    ensures CheckCourseAccess(st, userId, courseId, None).isOwner <==> IsTutorOf(st, userId, courseId)
  {
  }

  // ------------------------------------------------------- authenticateUser

  /** How `authenticateUser` ends: anonymous `next()`, `next()` with `req.user` set, or 401. */
  datatype AuthOutcome = Anonymous | Authenticated(user: Claims) | InvalidToken

  /**
   * `authenticateUser`: a missing or non-bearer header passes anonymously; a
   * bearer token that does not verify is answered with 401 "Invalid token";
   * otherwise `req.user` carries the payload's id and role.
   */
  function AuthenticateUser(header: Option<string>, verify: Verifier): (r: AuthOutcome)
    ensures !IsBearer(header) ==> r == Anonymous
    ensures IsBearer(header) ==>
      match verify(BearerToken(header.value))
      case None => r == InvalidToken
      case Some(p) => r == Authenticated(Claims(p.id, p.role))
  {
    if !IsBearer(header) then Anonymous
    else
      match verify(BearerToken(header.value))
      case None => InvalidToken
      case Some(p) => Authenticated(Claims(p.id, p.role))
  }

  /** `req.user` after `authenticateUser` passed the request on. */
  function RequestUser(o: AuthOutcome): Option<Claims> {
    if o.Authenticated? then Some(o.user) else None
  }

  // ------------------------------------------------------------ middlewares

  const AuthRequired: Decision := Reject(401, "Authentication required")
  const EnrollmentRequired: Decision := Reject(403, "Access denied. Course enrollment required.")

  /** `requireCourseAccess`: 401 without a user id, before any lookup; 403 without access. */
  function RequireCourseAccess(st: Store, user: Option<Claims>, courseId: Id): (d: Decision)
    ensures UserIdOf(user) == "" ==> d == AuthRequired
    ensures UserIdOf(user) != "" ==>
      (d == Next <==> CheckCourseAccess(st, UserIdOf(user), courseId, RoleOf(user)).hasAccess)
    ensures d == Next || d == AuthRequired || d == EnrollmentRequired
  {
    var userId := UserIdOf(user);
    if userId == "" then AuthRequired
    else if !CheckCourseAccess(st, userId, courseId, RoleOf(user)).hasAccess then EnrollmentRequired
    else Next
  }

  /** `requireChapterAccess`. */
  function RequireChapterAccess(st: Store, user: Option<Claims>, chapterId: Id): (d: Decision)
    ensures UserIdOf(user) == "" ==> d == AuthRequired
    ensures UserIdOf(user) != "" ==>
      (d == Next <==> CheckChapterAccess(st, UserIdOf(user), chapterId, RoleOf(user)).hasAccess)
    ensures d == Next || d == AuthRequired || d == EnrollmentRequired
  {
    var userId := UserIdOf(user);
    if userId == "" then AuthRequired
    else if !CheckChapterAccess(st, userId, chapterId, RoleOf(user)).hasAccess then EnrollmentRequired
    else Next
  }

  /** `requireLessonAccess`. */
  function RequireLessonAccess(st: Store, user: Option<Claims>, lessonId: Id): (d: Decision)
    ensures UserIdOf(user) == "" ==> d == AuthRequired
    ensures UserIdOf(user) != "" ==>
      (d == Next <==> CheckLessonAccess(st, UserIdOf(user), lessonId, RoleOf(user)).hasAccess)
    ensures d == Next || d == AuthRequired || d == EnrollmentRequired
  {
    var userId := UserIdOf(user);
    if userId == "" then AuthRequired
    else if !CheckLessonAccess(st, userId, lessonId, RoleOf(user)).hasAccess then EnrollmentRequired
    else Next
  }

  /** `requireCourseOwnership`: the check runs without the role, so only the tutor passes. */
  function RequireCourseOwnership(st: Store, user: Option<Claims>, courseId: Id): (d: Decision)
    ensures UserIdOf(user) == "" ==> d == AuthRequired
    ensures d == Next <==> UserIdOf(user) != "" && IsTutorOf(st, UserIdOf(user), courseId)
    ensures d != Next && UserIdOf(user) != "" ==> d == Reject(403, "Access denied. Course ownership required.")
  {
    var userId := UserIdOf(user);
    if userId == "" then AuthRequired
    else if !CheckCourseAccess(st, userId, courseId, None).isOwner then
      Reject(403, "Access denied. Course ownership required.")
    else Next
  }

  /** `req.params[name] || req.body[name]`: the first of the two that is a non-empty string. */
  function ParamOrBody(param: Option<string>, body: Option<string>): (r: string)
    ensures param.Some? && param.value != "" ==> r == param.value
    ensures (param.None? || param.value == "") ==> r == body.GetOr("")
  {
    if param.Some? && param.value != "" then param.value else body.GetOr("")
  }

  /**
   * `requireChapterOwnership`: the user is checked before the chapter id
   * (401 before 400), and ownership is the tutor's alone.
   */
  function RequireChapterOwnership(st: Store, user: Option<Claims>, param: Option<string>, body: Option<string>): (d: Decision)
    ensures UserIdOf(user) == "" ==> d == AuthRequired
    ensures UserIdOf(user) != "" && ParamOrBody(param, body) == "" ==> d == Reject(400, "Chapter ID required")
    ensures d == Next <==>
      && UserIdOf(user) != ""
      && var chapterId := ParamOrBody(param, body);
         chapterId != "" && chapterId in st.chapterCourse && IsTutorOf(st, UserIdOf(user), st.chapterCourse[chapterId])
  {
    var userId := UserIdOf(user);
    var chapterId := ParamOrBody(param, body);
    if userId == "" then AuthRequired
    else if chapterId == "" then Reject(400, "Chapter ID required")
    else if !CheckChapterAccess(st, userId, chapterId, None).isOwner then
      Reject(403, "Access denied. Course ownership required to create/edit lessons.")
    else Next
  }

  /** `requireLessonOwnership`. */
  function RequireLessonOwnership(st: Store, user: Option<Claims>, lessonId: Id): (d: Decision)
    ensures UserIdOf(user) == "" ==> d == AuthRequired
    ensures d == Next <==>
      && UserIdOf(user) != ""
      && lessonId in st.lessonChapter
      && st.lessonChapter[lessonId] in st.chapterCourse
      && IsTutorOf(st, UserIdOf(user), st.chapterCourse[st.lessonChapter[lessonId]])
  {
    var userId := UserIdOf(user);
    if userId == "" then AuthRequired
    else if !CheckLessonAccess(st, userId, lessonId, None).isOwner then
      Reject(403, "Access denied. Course ownership required to edit lessons.")
    else Next
  }

  /**
   * The admin token carries a role but no id, so after `authenticateUser` the
   * access checks treat its bearer as anonymous: 401 from every middleware,
   * whichever course is asked for.
   */
  lemma AdminTokenWithoutIdIsAnonymous(st: Store, header: Option<string>, verify: Verifier, courseId: Id)
    requires IsBearer(header)
    requires verify(BearerToken(header.value)) == Some(Claims(None, Some("admin")))
    ensures var user := RequestUser(AuthenticateUser(header, verify));
      && user.Some? && RoleOf(user) == Some("admin")
      && CheckCourseAccess(st, UserIdOf(user), courseId, RoleOf(user)) == Denied
      && RequireCourseAccess(st, user, courseId) == AuthRequired
  {
  }
}

=== FILE: access_controller.dfy ===
/**
 * The three access-check endpoints (apps/backend/src/controllers/access.controller.ts):
 * an anonymous caller gets `{hasAccess: false, isOwner: false}` at once; anybody
 * else gets the check's result computed WITHOUT their role, so an admin has
 * no bypass here.
 */
module AccessController {
  import opened Wrappers
  import opened Models
  import opened Http
  import opened Access

  function CourseAccessEndpoint(st: Store, user: Option<Claims>, courseId: Id): (r: AccessResult)
    ensures UserIdOf(user) == "" ==> r == Denied
    ensures UserIdOf(user) != "" ==> r == CheckCourseAccess(st, UserIdOf(user), courseId, None)
  {
    if UserIdOf(user) == "" then Denied else CheckCourseAccess(st, UserIdOf(user), courseId, None)
  }

  function ChapterAccessEndpoint(st: Store, user: Option<Claims>, chapterId: Id): (r: AccessResult)
    ensures UserIdOf(user) == "" ==> r == Denied
    ensures UserIdOf(user) != "" ==> r == CheckChapterAccess(st, UserIdOf(user), chapterId, None)
  {
    if UserIdOf(user) == "" then Denied else CheckChapterAccess(st, UserIdOf(user), chapterId, None)
  }

  function LessonAccessEndpoint(st: Store, user: Option<Claims>, lessonId: Id): (r: AccessResult)
    ensures UserIdOf(user) == "" ==> r == Denied
    ensures UserIdOf(user) != "" ==> r == CheckLessonAccess(st, UserIdOf(user), lessonId, None)
  {
    if UserIdOf(user) == "" then Denied else CheckLessonAccess(st, UserIdOf(user), lessonId, None)
  }

  /**
   * The endpoints ignore the caller's role: two callers with the same id get
   * the same answer, whatever roles their tokens carry.
   */
  lemma EndpointsIgnoreRole(st: Store, id: Option<string>, role1: Option<string>, role2: Option<string>, target: Id)
    ensures CourseAccessEndpoint(st, Some(Claims(id, role1)), target) == CourseAccessEndpoint(st, Some(Claims(id, role2)), target)
    ensures ChapterAccessEndpoint(st, Some(Claims(id, role1)), target) == ChapterAccessEndpoint(st, Some(Claims(id, role2)), target)
    ensures LessonAccessEndpoint(st, Some(Claims(id, role1)), target) == LessonAccessEndpoint(st, Some(Claims(id, role2)), target)
  {
  }

  /**
   * An admin who is not the course's tutor is reported as having no ownership
   * by the endpoint, although the access middleware lets the same admin through.
   */
  lemma EndpointDiffersFromMiddlewareForAdmin(st: Store, adminId: string, courseId: Id)
    requires adminId != "" && !IsTutorOf(st, adminId, courseId)
    ensures !CourseAccessEndpoint(st, Some(Claims(Some(adminId), Some("admin"))), courseId).isOwner
    ensures RequireCourseAccess(st, Some(Claims(Some(adminId), Some("admin"))), courseId) == Next
  {
  }
}

=== FILE: admin_auth.dfy ===
/**
 * The admin guard (apps/backend/src/utils/adminAuth.ts): a missing or non-bearer
 * header, a token that fails verification, and a payload whose role is not
 * "admin" are each refused with their own status; only the last case passes.
 */
module AdminAuth {
  import opened Wrappers
  import opened Http

  const MissingToken: Decision := Reject(401, "Missing token")
  const AdminsOnly: Decision := Reject(403, "Admins only")
  const BadToken: Decision := Reject(401, "Invalid token")

  /** The payload of the bearer token in `header`, when there is one and it verifies. */
  function Payload(header: Option<string>, verify: Verifier): Option<Claims> {
    if IsBearer(header) then verify(BearerToken(header.value)) else None
  }

  /** `requireAdmin`. */
  function RequireAdmin(header: Option<string>, verify: Verifier): (d: Decision)
    ensures !IsBearer(header) ==> d == MissingToken
    ensures IsBearer(header) && Payload(header, verify).None? ==> d == BadToken
    ensures Payload(header, verify).Some? && Payload(header, verify).value.role != Some("admin") ==> d == AdminsOnly
    ensures d == Next <==> Payload(header, verify).Some? && Payload(header, verify).value.role == Some("admin")
  {
    if !IsBearer(header) then MissingToken
    else
      match verify(BearerToken(header.value))
      case None => BadToken
      case Some(payload) => if payload.role != Some("admin") then AdminsOnly else Next
  }

  /**
   * The guard looks at the role claim only: a token signed with no `id` (as the
   * admin login issues) passes it, and so does one with any id at all.
   */
  lemma GuardIgnoresId(token: string, verify: Verifier, id: Option<string>)
    requires ' ' !in token
    requires verify(token) == Some(Claims(id, Some("admin")))
    ensures RequireAdmin(Some(BearerPrefix + token), verify) == Next
  {
    BearerTokenOfHeader(token);
  }
}

=== FILE: admin_controller.dfy ===
/**
 * The admin endpoints (apps/backend/src/controllers/admin.controller.ts): the
 * admin login, the partial update of the configuration singleton, the partial
 * update of a user, and the two folds of the system overview (revenue per
 * transaction category, user count per license slug).
 */
module AdminController {
  import opened Wrappers
  import opened Text
  import opened Models
  import opened Http
  import opened Database
  import opened ConfigCache
  import opened Access
  import opened AdminAuth

  // ------------------------------------------------------------- adminLogin

  /** The environment variables `L_ADMIN_KVLR`, `L_ADMIN_EMAIL` and `L_PASSWORD`; `None` when unset. */
  datatype AdminEnv = AdminEnv(adminKey: Option<string>, adminEmail: Option<string>, password: Option<string>)

  /** The login body `{ key?, email?, password? }`. */
  datatype AdminCredentials = AdminCredentials(key: Option<string>, email: Option<string>, password: Option<string>)

  /** JavaScript truthiness of an optional string. */
  predicate Truthy(s: Option<string>) {
    s.Some? && s.value != ""
  }

  /** `process.env.L_ADMIN_EMAIL || "email@test.com"`. */
  function AdminEmail(env: AdminEnv): string {
    if Truthy(env.adminEmail) then env.adminEmail.value else "email@test.com"
  }

  predicate ValidByKey(env: AdminEnv, body: AdminCredentials) {
    Truthy(body.key) && body.key == env.adminKey && body.password == env.password
  }

  predicate ValidByEmail(env: AdminEnv, body: AdminCredentials) {
    Truthy(body.email) && body.email == Some(AdminEmail(env)) && body.password == env.password
  }

  /** The admin token's payload: a role and no id. */
  const AdminClaims: Claims := Claims(None, Some("admin"))

  /** `adminLogin`, as written: `password === process.env.L_PASSWORD` also holds when both are undefined. */
  function AdminLogin(env: AdminEnv, body: AdminCredentials, sign: Claims -> string): (r: Reply<string>)
    ensures r.Ok? <==> ValidByKey(env, body) || ValidByEmail(env, body)
    ensures r.Ok? ==> r.body == sign(AdminClaims)
    ensures r.Error? ==> r == Error(401, "Invalid admin credentials")
  {
    if !ValidByKey(env, body) && !ValidByEmail(env, body) then Error(401, "Invalid admin credentials")
    else Ok(sign(AdminClaims))
  }

  /**
   * With `L_PASSWORD` and `L_ADMIN_EMAIL` unset, a body holding only the default
   * address and no password is issued an admin token.
   */
  lemma AdminLoginWithoutPassword(sign: Claims -> string)
    ensures AdminLogin(AdminEnv(None, None, None), AdminCredentials(None, Some("email@test.com"), None), sign)
         == Ok(sign(AdminClaims))
  {
  }

  /** `adminLogin` with the evident intent: a password must be configured and presented. */
  function AdminLoginChecked(env: AdminEnv, body: AdminCredentials, sign: Claims -> string): (r: Reply<string>)
    ensures r.Ok? ==> Truthy(env.password) && body.password == env.password
    ensures r.Ok? <==> Truthy(env.password) && (ValidByKey(env, body) || ValidByEmail(env, body))
    ensures r.Ok? ==> r.body == sign(AdminClaims)
    ensures r.Error? ==> r == Error(401, "Invalid admin credentials")
    ensures Truthy(env.password) ==> r == AdminLogin(env, body, sign)
  {
    if !Truthy(env.password) then Error(401, "Invalid admin credentials")
    else AdminLogin(env, body, sign)
  }

  /**
   * The admin token passes the admin guard, but carrying no id it is anonymous
   * to the course access middleware.
   */
  lemma AdminTokenScope(st: Store, token: string, verify: Verifier, courseId: Id)
    requires ' ' !in token && verify(token) == Some(AdminClaims)
    ensures RequireAdmin(Some(BearerPrefix + token), verify) == Next
    ensures RequireCourseAccess(st, RequestUser(AuthenticateUser(Some(BearerPrefix + token), verify)), courseId) == AuthRequired
  {
    GuardIgnoresId(token, verify, None);
    BearerTokenOfHeader(token);
    AdminTokenWithoutIdIsAnonymous(st, Some(BearerPrefix + token), verify, courseId);
  }

  // ---------------------------------------------------- updateConfigHandler

  /** The body `{ allowRegistration?, allowLogin?, defaultCredits? }`; `None` is `undefined`. */
  datatype ConfigPatch = ConfigPatch(allowRegistration: Option<bool>, allowLogin: Option<bool>, defaultCredits: Option<int>)

  /** Only the fields present in the body change. */
  function PatchConfig(c: Config, p: ConfigPatch): (r: Config)
    ensures r.allowRegistration == (if p.allowRegistration.Some? then p.allowRegistration.value else c.allowRegistration)
    ensures r.allowLogin == (if p.allowLogin.Some? then p.allowLogin.value else c.allowLogin)
    ensures r.defaultCredits == (if p.defaultCredits.Some? then p.defaultCredits.value else c.defaultCredits)
  {
    Config(p.allowRegistration.GetOr(c.allowRegistration), p.allowLogin.GetOr(c.allowLogin), p.defaultCredits.GetOr(c.defaultCredits))
  }

  lemma EmptyPatchChangesNothing(c: Config)
    ensures PatchConfig(c, ConfigPatch(None, None, None)) == c
  {
  }

  /**
   * `updateConfigHandler`: 500 when no configuration is stored; otherwise the
   * patched configuration is saved and the cache emptied, so the next read
   * sees the new values.
   */
  method UpdateConfigHandler(db: Db, cache: Cache, p: ConfigPatch) returns (r: Reply<Config>)
    modifies db, cache
    ensures old(db.config).None? ==>
      r == Error(500, "Config not found") && db.config == None && db.writes == old(db.writes) && cache.cached == old(cache.cached)
    ensures old(db.config).Some? ==>
      && r == Ok(PatchConfig(old(db.config).value, p))
      && db.config == Some(r.body)
      && db.writes == old(db.writes) + [ConfigSaved(r.body)]
      && cache.cached == None
    ensures old(cache.CoherentWith(db)) ==> cache.CoherentWith(db)
    ensures db.users == old(db.users) && db.licenses == old(db.licenses) && db.transactions == old(db.transactions)
  {
    var cfg := db.config;
    if cfg.None? {
      return Error(500, "Config not found");
    }
    var updated := PatchConfig(cfg.value, p);
    db.config := Some(updated);
    db.writes := db.writes + [ConfigSaved(updated)];
    cache.Invalidate();
    r := Ok(updated);
  }

  // -------------------------------------------------------- updateUserAdmin

  /** The body `{ balance?, isActive?, licenseSlug?, newPassword? }`; `None` is `undefined`. */
  datatype UserPatch = UserPatch(balance: Option<int>, isActive: Option<bool>, licenseSlug: Option<string>, newPassword: Option<string>)

  /** The patch names a license to look up (any slug but "student"). */
  predicate NamesLicense(p: UserPatch) {
    p.licenseSlug.Some? && p.licenseSlug.value != "student"
  }

  /**
   * `updateUserAdmin` on the collections before the call; `hash` is bcrypt.
   * The reply is the fetched document, which carries a password only when a
   * new one was hashed into it.
   */
  function UpdateUserSpec(users: seq<User>, licenses: seq<License>, id: Id, p: UserPatch, hash: string -> Digest): (o: Outcome<UserJson>)
    ensures o.reply.Ok? <==>
      FindUserById(users, id).Some? && !(NamesLicense(p) && FindLicenseBySlug(licenses, p.licenseSlug.value).None?)
    ensures o.reply.Error? ==> o.users == users && o.writes == []
    ensures FindUserById(users, id).None? ==> o.reply == Error(404, "User not found")
    ensures FindUserById(users, id).Some? && NamesLicense(p) && FindLicenseBySlug(licenses, p.licenseSlug.value).None? ==>
      o.reply == Error(404, "License not found")
  {
    var ui := FindUserById(users, id);
    if ui.None? then Outcome(Error(404, "User not found"), users, [])
    else
      var u := users[ui.value];
      var u := u.(balance := p.balance.GetOr(u.balance));
      var u := u.(isActive := p.isActive.GetOr(u.isActive));
      var li := if p.licenseSlug.Some? && p.licenseSlug.value != "student" then FindLicenseBySlug(licenses, p.licenseSlug.value) else None;
      if p.licenseSlug.Some? && p.licenseSlug.value != "student" && li.None? then
        Outcome(Error(404, "License not found"), users, [])
      else
        var u :=
          if p.licenseSlug.None? then u
          else if p.licenseSlug.value == "student" then u.(licenseId := None, role := Student)
          else u.(licenseId := Some(licenses[li.value].id), role := Tutor);
        var u := if Truthy(p.newPassword) then u.(password := hash(p.newPassword.value)) else u;
        Outcome(Ok(Sent(u, Truthy(p.newPassword))), users[ui.value := u], [UserSaved(u)])
  }

  /**
   * A successful update saves, and answers with, the fetched user with every
   * field the patch names overwritten and every other field as it was.
   */
  lemma UpdateUserSaves(users: seq<User>, licenses: seq<License>, id: Id, p: UserPatch, hash: string -> Digest)
    ensures var o := UpdateUserSpec(users, licenses, id, p, hash);
      o.reply.Ok? ==>
        var i := FindUserById(users, id).value;
        var before := users[i];
        var u := before.(
          balance := p.balance.GetOr(before.balance),
          isActive := p.isActive.GetOr(before.isActive),
          role := if p.licenseSlug.None? then before.role else if p.licenseSlug.value == "student" then Student else Tutor,
          licenseId :=
            if p.licenseSlug.None? then before.licenseId
            else if p.licenseSlug.value == "student" then None
            else Some(licenses[FindLicenseBySlug(licenses, p.licenseSlug.value).value].id),
          password := if Truthy(p.newPassword) then hash(p.newPassword.value) else before.password);
        && o.users == users[i := u]
        && o.writes == [UserSaved(u)]
        && o.reply.body == Sent(u, Truthy(p.newPassword))
  {
  }

  /** The update keeps every stored user well formed and the unique indexes intact. */
  lemma UpdateUserKeepsValid(users: seq<User>, licenses: seq<License>, id: Id, p: UserPatch, hash: string -> Digest)
    requires ValidUsers(users)
    ensures ValidUsers(UpdateUserSpec(users, licenses, id, p, hash).users)
  {
    var o := UpdateUserSpec(users, licenses, id, p, hash);
    if o.reply.Ok? {
      var i := FindUserById(users, id).value;
      UpdateUserSaves(users, licenses, id, p, hash);
      assert WellFormedUser(users[i]);
      SaveKeepsValid(users, i, o.users[i]);
    }
  }

  /** The specification's success case, in the order the handler assigns the fields. */
  lemma UpdateUserSteps(users: seq<User>, licenses: seq<License>, id: Id, p: UserPatch, hash: string -> Digest,
                        i: nat, edited: User, licensed: User, u: User)
    requires FindUserById(users, id) == Some(i)
    requires !(NamesLicense(p) && FindLicenseBySlug(licenses, p.licenseSlug.value).None?)
    requires edited == users[i].(balance := p.balance.GetOr(users[i].balance), isActive := p.isActive.GetOr(users[i].isActive))
    requires p.licenseSlug.None? ==> licensed == edited
    requires p.licenseSlug == Some("student") ==> licensed == edited.(licenseId := None, role := Student)
    requires NamesLicense(p) ==>
      licensed == edited.(licenseId := Some(licenses[FindLicenseBySlug(licenses, p.licenseSlug.value).value].id), role := Tutor)
    requires u == if Truthy(p.newPassword) then licensed.(password := hash(p.newPassword.value)) else licensed
    ensures UpdateUserSpec(users, licenses, id, p, hash) == Outcome(Ok(Sent(u, Truthy(p.newPassword))), users[i := u], [UserSaved(u)])
    ensures u.id == users[i].id && u.email == users[i].email
    ensures WellFormedUser(users[i]) ==> WellFormedUser(u)
  {
  }

  /**
   * `updateUserAdmin`: the fields are assigned one after another on the fetched
   * user, and only a complete update is saved; a failed license lookup drops
   * the balance and isActive edits made before it.
   */
  method UpdateUserAdmin(db: Db, id: Id, p: UserPatch, hash: string -> Digest) returns (r: Reply<UserJson>)
    requires db.Valid()
    modifies db
    ensures ValidUsers(db.users) && UniqueSlugs(db.licenses)
    ensures db.Valid()
    ensures var o := UpdateUserSpec(old(db.users), old(db.licenses), id, p, hash);
      r == o.reply && db.users == o.users && db.writes == old(db.writes) + o.writes
    ensures db.licenses == old(db.licenses) && db.transactions == old(db.transactions) && db.config == old(db.config)
  {
    var ui := FindUserById(db.users, id);
    if ui.None? {
      return Error(404, "User not found");
    }
    var user := db.users[ui.value];
    user := user.(balance := p.balance.GetOr(user.balance));
    user := user.(isActive := p.isActive.GetOr(user.isActive));
    ghost var edited := user;
    if p.licenseSlug.Some? {
      if p.licenseSlug.value == "student" {
        user := user.(licenseId := None, role := Student);
      } else {
        var li := FindLicenseBySlug(db.licenses, p.licenseSlug.value);
        if li.None? {
          return Error(404, "License not found");
        }
        user := user.(licenseId := Some(db.licenses[li.value].id), role := Tutor);
      }
    }
    ghost var licensed := user;
    assert p.licenseSlug.None? ==> licensed == edited;
    assert p.licenseSlug == Some("student") ==> licensed == edited.(licenseId := None, role := Student);
    assert NamesLicense(p) ==>
      licensed == edited.(licenseId := Some(db.licenses[FindLicenseBySlug(db.licenses, p.licenseSlug.value).value].id), role := Tutor);
    var passwordAssigned := false;
    if Truthy(p.newPassword) {
      user := user.(password := hash(p.newPassword.value));
      passwordAssigned := true;
    }
    assert user == if Truthy(p.newPassword) then licensed.(password := hash(p.newPassword.value)) else licensed;
    assert passwordAssigned == Truthy(p.newPassword);
    assert WellFormedUser(db.users[ui.value]);
    UpdateUserSteps(db.users, db.licenses, id, p, hash, ui.value, edited, licensed, user);
    db.SaveUser(ui.value, user);
    r := Ok(Sent(user, passwordAssigned));
  }

  // ------------------------------------------------ overview: revenue fold

  /** One row of the revenue aggregation: a category and the sum of its amounts. */
  datatype RevenueGroup = RevenueGroup(category: string, total: int)

  function SumTotals(gs: seq<RevenueGroup>): int {
    if gs == [] then 0 else SumTotals(gs[..|gs| - 1]) + gs[|gs| - 1].total
  }

  /** The total of the last row with that category, or 0 when there is none. */
  function TotalFor(gs: seq<RevenueGroup>, category: string): int {
    if gs == [] then 0
    else if gs[|gs| - 1].category == category then gs[|gs| - 1].total
    else TotalFor(gs[..|gs| - 1], category)
  }

  /** The revenue loop of `getSystemOverview`. */
  method RevenueFold(gs: seq<RevenueGroup>) returns (revenueTotal: int, revenueLicenses: int, revenueCourses: int)
    ensures revenueTotal == SumTotals(gs)
    ensures revenueLicenses == TotalFor(gs, "license")
    ensures revenueCourses == TotalFor(gs, "course")
  {
    revenueTotal, revenueLicenses, revenueCourses := 0, 0, 0;
    for i := 0 to |gs|
      invariant revenueTotal == SumTotals(gs[..i])
      invariant revenueLicenses == TotalFor(gs[..i], "license")
      invariant revenueCourses == TotalFor(gs[..i], "course")
    {
      assert gs[..i + 1][..i] == gs[..i];
      revenueTotal := revenueTotal + gs[i].total;
      if gs[i].category == "license" {
        revenueLicenses := gs[i].total;
      }
      if gs[i].category == "course" {
        revenueCourses := gs[i].total;
      }
    }
    assert gs[..|gs|] == gs;
  }

  function SumAmounts(txs: seq<Transaction>): int {
    if txs == [] then 0 else SumAmounts(txs[..|txs| - 1]) + txs[|txs| - 1].amount
  }

  /** `$sum` of the amounts of one category. */
  function CategoryTotal(txs: seq<Transaction>, c: TxCategory): int {
    if txs == [] then 0
    else CategoryTotal(txs[..|txs| - 1], c) + (if txs[|txs| - 1].category == c then txs[|txs| - 1].amount else 0)
  }

  predicate HasCategory(txs: seq<Transaction>, c: TxCategory) {
    exists i :: 0 <= i < |txs| && txs[i].category == c
  }

  function GroupIfPresent(txs: seq<Transaction>, c: TxCategory): seq<RevenueGroup> {
    if HasCategory(txs, c) then [RevenueGroup(CategoryName(c), CategoryTotal(txs, c))] else []
  }

  /** The rows `{ $group: { _id: "$category", total: { $sum: "$amount" } } }` yields (one per category present). */
  function RevenueGroups(txs: seq<Transaction>): seq<RevenueGroup> {
    GroupIfPresent(txs, LicenseTx) + GroupIfPresent(txs, CourseTx) + GroupIfPresent(txs, Topup)
  }

  lemma {:induction false} AmountsSplitByCategory(txs: seq<Transaction>)
    ensures SumAmounts(txs) == CategoryTotal(txs, LicenseTx) + CategoryTotal(txs, CourseTx) + CategoryTotal(txs, Topup)
    ensures !HasCategory(txs, LicenseTx) ==> CategoryTotal(txs, LicenseTx) == 0
    ensures !HasCategory(txs, CourseTx) ==> CategoryTotal(txs, CourseTx) == 0
    ensures !HasCategory(txs, Topup) ==> CategoryTotal(txs, Topup) == 0
  {
    if txs != [] {
      var init := txs[..|txs| - 1];
      AmountsSplitByCategory(init);
      forall c | HasCategory(init, c)
        ensures HasCategory(txs, c)
      {
        var i :| 0 <= i < |init| && init[i].category == c;
        assert txs[i] == init[i];
      }
      assert !HasCategory(txs, LicenseTx) ==> txs[|txs| - 1].category != LicenseTx;
      assert !HasCategory(txs, CourseTx) ==> txs[|txs| - 1].category != CourseTx;
      assert !HasCategory(txs, Topup) ==> txs[|txs| - 1].category != Topup;
    }
  }

  lemma SumOfThree(a: seq<RevenueGroup>, b: seq<RevenueGroup>, c: seq<RevenueGroup>)
    requires |a| <= 1 && |b| <= 1 && |c| <= 1
    ensures SumTotals(a + b + c) == SumTotals(a) + SumTotals(b) + SumTotals(c)
  {
    var ab := a + b;
    assert SumTotals(ab) == SumTotals(a) + SumTotals(b) by {
      if b != [] { assert ab[..|ab| - 1] == a; }
      else { assert ab == a; }
    }
    if c != [] { assert (ab + c)[..|ab + c| - 1] == ab; }
    else { assert ab + c == ab; }
  }

  /** Appending at most one row changes a category's figure only when the row has that category. */
  lemma TotalForAppend(a: seq<RevenueGroup>, b: seq<RevenueGroup>, k: string)
    requires |b| <= 1
    ensures TotalFor(a + b, k) == if b != [] && b[0].category == k then b[0].total else TotalFor(a, k)
  {
    var ab := a + b;
    if b != [] {
      assert ab[..|ab| - 1] == a && ab[|ab| - 1] == b[0];
    } else {
      assert ab == a;
    }
  }

  /** The figures of a license row, a course row and a top-up row, each of them possibly absent. */
  lemma FiguresOfRows(l: seq<RevenueGroup>, c: seq<RevenueGroup>, t: seq<RevenueGroup>, tl: int, tc: int, tt: int)
    requires l == [] || l == [RevenueGroup("license", tl)]
    requires c == [] || c == [RevenueGroup("course", tc)]
    requires t == [] || t == [RevenueGroup("topup", tt)]
    ensures SumTotals(l + c + t) == (if l != [] then tl else 0) + (if c != [] then tc else 0) + (if t != [] then tt else 0)
    ensures TotalFor(l + c + t, "license") == if l != [] then tl else 0
    ensures TotalFor(l + c + t, "course") == if c != [] then tc else 0
  {
    SumOfThree(l, c, t);
    assert SumTotals(l) == if l != [] then tl else 0 by {
      if l != [] { assert l[..0] == []; }
    }
    assert SumTotals(c) == if c != [] then tc else 0 by {
      if c != [] { assert c[..0] == []; }
    }
    assert SumTotals(t) == if t != [] then tt else 0 by {
      if t != [] { assert t[..0] == []; }
    }
    assert |"license"| == 7 && |"course"| == 6 && |"topup"| == 5;
    var e: seq<RevenueGroup> := [];
    assert e + l == l;
    TotalForAppend(e, l, "license");
    TotalForAppend(e, l, "course");
    TotalForAppend(l, c, "license");
    TotalForAppend(l, c, "course");
    TotalForAppend(l + c, t, "license");
    TotalForAppend(l + c, t, "course");
  }

  /**
   * On the rows the aggregation yields, the overview's revenue figures are the
   * ledger's: the total is the sum of every transaction amount, and the
   * license and course figures are the sums of those categories.
   */
  lemma RevenueMatchesLedger(txs: seq<Transaction>)
    ensures SumTotals(RevenueGroups(txs)) == SumAmounts(txs)
    ensures TotalFor(RevenueGroups(txs), "license") == CategoryTotal(txs, LicenseTx)
    ensures TotalFor(RevenueGroups(txs), "course") == CategoryTotal(txs, CourseTx)
  {
    AmountsSplitByCategory(txs);
    FiguresOfRows(GroupIfPresent(txs, LicenseTx), GroupIfPresent(txs, CourseTx), GroupIfPresent(txs, Topup),
                  CategoryTotal(txs, LicenseTx), CategoryTotal(txs, CourseTx), CategoryTotal(txs, Topup));
  }

  /** Removing one row takes exactly its total off the sum. */
  lemma {:induction false} SumTotalsRemove(gs: seq<RevenueGroup>, i: nat)
    requires i < |gs|
    ensures SumTotals(gs) == SumTotals(gs[..i] + gs[i + 1..]) + gs[i].total
  {
    var init := gs[..|gs| - 1];
    if i == |gs| - 1 {
      assert gs[..i] + gs[i + 1..] == init;
    } else {
      SumTotalsRemove(init, i);
      var rest := gs[..i] + gs[i + 1..];
      assert rest[..|rest| - 1] == init[..i] + init[i + 1..];
      assert rest[|rest| - 1] == gs[|gs| - 1];
    }
  }

  /** The sum of the totals does not depend on the order of the rows. */
  lemma {:induction false} SumTotalsPermutation(a: seq<RevenueGroup>, b: seq<RevenueGroup>)
    requires multiset(a) == multiset(b)
    ensures SumTotals(a) == SumTotals(b)
  {
    if a == [] {
      assert |multiset(b)| == 0;
    } else {
      var x := a[|a| - 1];
      var init := a[..|a| - 1];
      assert a == init + [x];
      assert x in multiset(b);
      var i :| 0 <= i < |b| && b[i] == x;
      var rest := b[..i] + b[i + 1..];
      assert b == b[..i] + [x] + b[i + 1..];
      assert multiset(b) == multiset(b[..i]) + multiset{x} + multiset(b[i + 1..]);
      assert multiset(rest) == multiset(b[..i]) + multiset(b[i + 1..]);
      assert multiset(a) == multiset(init) + multiset{x};
      assert multiset(init) == multiset(a) - multiset{x};
      assert multiset(rest) == multiset(b) - multiset{x};
      SumTotalsPermutation(init, rest);
      SumTotalsRemove(b, i);
    }
  }

  /** When every row with that category carries the same total, that total is the category's figure. */
  lemma {:induction false} TotalForAgreeing(gs: seq<RevenueGroup>, category: string, v: int)
    requires forall i :: 0 <= i < |gs| && gs[i].category == category ==> gs[i].total == v
    ensures (exists i :: 0 <= i < |gs| && gs[i].category == category) ==> TotalFor(gs, category) == v
    ensures (forall i :: 0 <= i < |gs| ==> gs[i].category != category) ==> TotalFor(gs, category) == 0
  {
    if gs != [] && gs[|gs| - 1].category != category {
      var init := gs[..|gs| - 1];
      TotalForAgreeing(init, category, v);
      if exists i :: 0 <= i < |gs| && gs[i].category == category {
        var i :| 0 <= i < |gs| && gs[i].category == category;
        assert init[i] == gs[i];
      }
      if forall i :: 0 <= i < |gs| ==> gs[i].category != category {
        assert forall i :: 0 <= i < |init| ==> init[i] == gs[i];
      }
    }
  }

  /** Every aggregation row of a category carries that category's sum. */
  lemma GroupsOfCategory(txs: seq<Transaction>, c: TxCategory)
    ensures forall g :: g in RevenueGroups(txs) && g.category == CategoryName(c) ==> g.total == CategoryTotal(txs, c)
  {
    assert |"license"| == 7 && |"course"| == 6 && |"topup"| == 5;
  }

  /** Reordering rows whose totals agree within a category does not change that category's figure. */
  lemma TotalForPermutation(a: seq<RevenueGroup>, b: seq<RevenueGroup>, category: string, v: int)
    requires multiset(a) == multiset(b)
    requires forall g :: g in a && g.category == category ==> g.total == v
    ensures TotalFor(a, category) == TotalFor(b, category)
  {
    forall i | 0 <= i < |b| && b[i].category == category
      ensures b[i].total == v
    {
      assert b[i] in multiset(a);
    }
    TotalForAgreeing(a, category, v);
    TotalForAgreeing(b, category, v);
    if exists i :: 0 <= i < |a| && a[i].category == category {
      var i :| 0 <= i < |a| && a[i].category == category;
      assert a[i] in multiset(b);
      var j :| 0 <= j < |b| && b[j] == a[i];
    } else {
      forall j | 0 <= j < |b|
        ensures b[j].category != category
      {
        assert b[j] in multiset(a);
      }
    }
  }

  /**
   * `$group` yields its rows in no particular order: whatever the order, the
   * folded figures are the ledger's.
   */
  lemma RevenueInAnyOrder(txs: seq<Transaction>, rows: seq<RevenueGroup>)
    requires multiset(rows) == multiset(RevenueGroups(txs))
    ensures SumTotals(rows) == SumAmounts(txs)
    ensures TotalFor(rows, "license") == CategoryTotal(txs, LicenseTx)
    ensures TotalFor(rows, "course") == CategoryTotal(txs, CourseTx)
  {
    var gs := RevenueGroups(txs);
    RevenueMatchesLedger(txs);
    SumTotalsPermutation(rows, gs);
    GroupsOfCategory(txs, LicenseTx);
    GroupsOfCategory(txs, CourseTx);
    TotalForPermutation(gs, rows, "license", CategoryTotal(txs, LicenseTx));
    TotalForPermutation(gs, rows, "course", CategoryTotal(txs, CourseTx));
  }

  // ------------------------------------------- overview: license-count fold

  /** One row of the license aggregation: a slug (null for none) and its user count. */
  datatype CountGroup = CountGroup(slug: Option<string>, count: int)

  /** `lc._id || "unknown"`. */
  function CountKey(slug: Option<string>): string {
    if slug.Some? && slug.value != "" then slug.value else "unknown"
  }

  const DefaultCountKeys: set<string> := {"student", "free", "startup", "advanced", "pro"}

  function DefaultCounts(): map<string, int> {
    map["student" := 0, "free" := 0, "startup" := 0, "advanced" := 0, "pro" := 0]
  }

  /** The count of the last row whose key is `k`, if any. */
  function LastCount(gs: seq<CountGroup>, k: string): Option<int> {
    if gs == [] then None
    else if CountKey(gs[|gs| - 1].slug) == k then Some(gs[|gs| - 1].count)
    else LastCount(gs[..|gs| - 1], k)
  }

  /** The license-count loop of `getSystemOverview`. */
  method LicenseCounts(gs: seq<CountGroup>) returns (counts: map<string, int>)
    ensures forall k :: k in counts <==> k in DefaultCountKeys || LastCount(gs, k).Some?
    ensures forall k :: k in counts ==> counts[k] == LastCount(gs, k).GetOr(0)
  {
    counts := DefaultCounts();
    for i := 0 to |gs|
      invariant forall k :: k in counts <==> k in DefaultCountKeys || LastCount(gs[..i], k).Some?
      invariant forall k :: k in counts ==> counts[k] == LastCount(gs[..i], k).GetOr(0)
    {
      assert gs[..i + 1][..i] == gs[..i];
      counts := counts[CountKey(gs[i].slug) := gs[i].count];
    }
    assert gs[..|gs|] == gs;
  }

  /**
   * The `licenseSlug` the aggregation assigns a user: "student" for students,
   * otherwise the slug of the license the user holds, or null.
   */
  function UserLicenseSlug(u: User, licenses: seq<License>): (r: Option<string>)
    ensures u.role == Student ==> r == Some("student")
    ensures u.role != Student && r.Some? ==>
      && u.licenseId.Some? && FindLicenseById(licenses, u.licenseId.value).Some?
      && r.value == licenses[FindLicenseById(licenses, u.licenseId.value).value].slug
    ensures u.role != Student && r.None? ==> u.licenseId.None? || FindLicenseById(licenses, u.licenseId.value).None?
  {
    if u.role == Student then Some("student")
    else if u.licenseId.None? then None
    else
      var li := FindLicenseById(licenses, u.licenseId.value);
      if li.None? then None else Some(licenses[li.value].slug)
  }

  /** How many users the aggregation assigns the `licenseSlug` `s`. */
  function SlugCount(users: seq<User>, licenses: seq<License>, s: Option<string>): nat {
    if users == [] then 0
    else SlugCount(users[..|users| - 1], licenses, s) + (if UserLicenseSlug(users[|users| - 1], licenses) == s then 1 else 0)
  }

  /** The rows `{ $group: { _id: "$licenseSlug", count: { $sum: 1 } } }` emits, one per slug in `order`. */
  function SlugGroups(users: seq<User>, licenses: seq<License>, order: seq<Option<string>>): (gs: seq<CountGroup>)
    ensures |gs| == |order|
  {
    if order == [] then []
    else SlugGroups(users, licenses, order[..|order| - 1]) + [CountGroup(order[|order| - 1], SlugCount(users, licenses, order[|order| - 1]))]
  }

  /** A slug some user is counted under belongs to one of them. */
  lemma {:induction false} SlugCountWitness(users: seq<User>, licenses: seq<License>, s: Option<string>)
    requires SlugCount(users, licenses, s) > 0
    ensures exists i :: 0 <= i < |users| && UserLicenseSlug(users[i], licenses) == s
  {
    var init := users[..|users| - 1];
    if UserLicenseSlug(users[|users| - 1], licenses) != s {
      SlugCountWitness(init, licenses, s);
      var i :| 0 <= i < |init| && UserLicenseSlug(init[i], licenses) == s;
      assert users[i] == init[i];
    }
  }

  /** The last row keyed `k` is the row of the slug `k`, whichever order the rows come in. */
  lemma {:induction false} LastCountOfSlug(users: seq<User>, licenses: seq<License>, order: seq<Option<string>>, k: string)
    requires k != "" && k != "unknown"
    ensures LastCount(SlugGroups(users, licenses, order), k) ==
      if Some(k) in order then Some(SlugCount(users, licenses, Some(k))) else None
    decreases |order|
  {
    if order != [] {
      var init := order[..|order| - 1];
      var gs := SlugGroups(users, licenses, order);
      assert gs[..|gs| - 1] == SlugGroups(users, licenses, init);
      assert order == init + [order[|order| - 1]];
      LastCountOfSlug(users, licenses, init, k);
    }
  }

  /**
   * With the rows `$group` emits for the users, the overview's count of a
   * license slug is the number of users the aggregation assigns that slug
   * (`LicenseCounts` stores `LastCount(gs, k)`, or 0 when it is `None`).
   */
  lemma LicenseCountCountsUsers(users: seq<User>, licenses: seq<License>, order: seq<Option<string>>, k: string)
    requires forall i :: 0 <= i < |users| ==> UserLicenseSlug(users[i], licenses) in order
    requires forall j :: 0 <= j < |order| ==> SlugCount(users, licenses, order[j]) > 0
    requires k != "" && k != "unknown"
    ensures LastCount(SlugGroups(users, licenses, order), k).GetOr(0) == SlugCount(users, licenses, Some(k))
  {
    LastCountOfSlug(users, licenses, order, k);
    if SlugCount(users, licenses, Some(k)) > 0 {
      SlugCountWitness(users, licenses, Some(k));
    }
  }
}

=== FILE: auth_controller.dfy ===
/**
 * Registration and login (apps/backend/src/controllers/auth.controller.ts).
 * Registration refuses an address already in use, stores the bcrypt hash of
 * the password, makes the user a tutor only on an explicit request and
 * answers with a token and the user's public fields; login answers the same
 * 401 for an unknown address and for a wrong password. Hashing, comparison
 * and token signing are parameters.
 */
module AuthController {
  import opened Wrappers
  import opened Text
  import opened Models
  import opened Http
  import opened Database

  /**
   * The request body `{ name, email, password, role? }`, read without
   * validation: `None` is an absent field. An absent name is the empty string,
   * which the schema's `required` refuses in the same way.
   */
  datatype RegisterBody = RegisterBody(name: string, email: Option<string>, password: Option<string>, role: Option<string>)

  /** What bcrypt throws for an undefined password, which the async handler turns into a 500. */
  const HashRefused: string := "Illegal arguments: undefined, number"
  const CompareRefused: string := "Illegal arguments: undefined, string"

  /** The user object of the response: the stored user without its password. */
  datatype PublicUser = PublicUser(
    id: Id, name: string, email: string, role: Role,
    authorName: Option<string>, bio: Option<string>, categories: seq<Id>, balance: int)

  /** The response `{ token, user }`. */
  datatype Session = Session(token: string, user: PublicUser)

  function PublicView(u: User): (v: PublicUser)
    ensures v.id == u.id && v.name == u.name && v.email == u.email && v.role == u.role
    ensures v.authorName == u.authorName && v.bio == u.bio && v.categories == u.categories && v.balance == u.balance
  {
    PublicUser(u.id, u.name, u.email, u.role, u.authorName, u.bio, u.categories, u.balance)
  }

  /** The token payload `{ id, role }` of a user. */
  function UserClaims(u: User): Claims {
    Claims(Some(u.id), Some(RoleName(u.role)))
  }

  function SessionFor(u: User, sign: Claims -> string): Session {
    Session(sign(UserClaims(u)), PublicView(u))
  }

  /** `requestedRole === "tutor" ? "tutor" : "student"`. */
  function RequestedRole(requested: Option<string>): (r: Role)
    ensures r == Tutor <==> requested == Some("tutor")
    ensures r == Student <==> requested != Some("tutor")
  {
    if requested == Some("tutor") then Tutor else Student
  }

  /**
   * `register` on the users before the call. The new document's id is
   * `newId`; hashing an absent password throws, and a document the schema
   * refuses makes `create` throw; both end in a 500.
   */
  function RegisterSpec(users: seq<User>, body: RegisterBody, newId: Id, hash: string -> Digest, sign: Claims -> string): (o: Outcome<Session>)
    ensures o.reply.Error? ==> o.users == users && o.writes == []
    ensures EmailQuery(users, body.email).Some? ==> o.reply == Error(409, "Email already used")
    ensures EmailQuery(users, body.email).None? && body.password.None? ==> o.reply == Error(500, HashRefused)
    ensures o.reply.Ok? <==>
      && EmailQuery(users, body.email).None? && body.password.Some?
      && Trim(body.name) != [] && body.email.Some? && body.email.value != []
    ensures o.reply.Ok? ==> |o.users| == |users| + 1
    ensures o.reply.Ok? ==>
      var u := o.users[|users|];
      && o.users == users + [u]
      && o.writes == [UserCreated(u)]
      && u.id == newId
      && u.email == Lower(body.email.value) && u.name == Trim(body.name)
      && u.password == hash(body.password.value)
      && u.role == RequestedRole(body.role)
      && u.balance == DefaultBalance
      && o.reply.body == SessionFor(u, sign)
  {
    if EmailQuery(users, body.email).Some? then Outcome(Error(409, "Email already used"), users, [])
    else if body.password.None? then Outcome(Error(500, HashRefused), users, [])
    else
      var hashed := hash(body.password.value);
      match CreateUser(newId, body.name, body.email.GetOr(""), hashed, Some(RequestedRole(body.role)))
      case Failure(e) => Outcome(Error(500, e), users, [])
      case Success(u) => Outcome(Ok(SessionFor(u, sign)), users + [u], [UserCreated(u)])
  }

  /** With no e-mail in the body, any stored user makes the address count as taken. */
  lemma RegisterWithoutEmail(users: seq<User>, body: RegisterBody, newId: Id, hash: string -> Digest, sign: Claims -> string)
    requires body.email.None?
    ensures RegisterSpec(users, body, newId, hash, sign).reply.Error?
    ensures users != [] ==> RegisterSpec(users, body, newId, hash, sign).reply == Error(409, "Email already used")
  {
  }

  /** `register`. */
  method Register(db: Db, body: RegisterBody, newId: Id, hash: string -> Digest, sign: Claims -> string) returns (r: Reply<Session>)
    requires db.Valid() && FindUserById(db.users, newId).None?
    modifies db
    ensures ValidUsers(db.users) && UniqueSlugs(db.licenses)
    ensures db.Valid()
    ensures var o := RegisterSpec(old(db.users), body, newId, hash, sign);
      r == o.reply && db.users == o.users && db.writes == old(db.writes) + o.writes
    ensures db.licenses == old(db.licenses) && db.transactions == old(db.transactions) && db.config == old(db.config)
  {
    var existing := EmailQuery(db.users, body.email);
    if existing.Some? {
      RegisterTaken(db.users, body, newId, hash, sign);
      return Error(409, "Email already used");
    }
    if body.password.None? {
      return Error(500, HashRefused);
    }
    var hashed := hash(body.password.value);
    var created := CreateUser(newId, body.name, body.email.GetOr(""), hashed, Some(RequestedRole(body.role)));
    RegisterCreates(db.users, body, newId, hash, sign);
    if created.Failure? {
      return Error(500, created.error);
    }
    var user := created.value;
    db.InsertUser(user);
    r := Ok(SessionFor(user, sign));
  }

  /** A taken address ends `register` before anything is created. */
  lemma RegisterTaken(users: seq<User>, body: RegisterBody, newId: Id, hash: string -> Digest, sign: Claims -> string)
    requires EmailQuery(users, body.email).Some?
    ensures RegisterSpec(users, body, newId, hash, sign) == Outcome(Error(409, "Email already used"), users, [])
  {
  }

  /** Past the address check and the hashing, `register` answers with whatever `create` gives. */
  lemma RegisterCreates(users: seq<User>, body: RegisterBody, newId: Id, hash: string -> Digest, sign: Claims -> string)
    requires EmailQuery(users, body.email).None? && body.password.Some?
    ensures var c := CreateUser(newId, body.name, body.email.GetOr(""), hash(body.password.value), Some(RequestedRole(body.role)));
      RegisterSpec(users, body, newId, hash, sign)
        == if c.Failure? then Outcome(Error(500, c.error), users, [])
           else Outcome(Ok(SessionFor(c.value, sign)), users + [c.value], [UserCreated(c.value)])
  {
  }

  /**
   * `login`: `compare` is `bcrypt.compare(password, stored hash)`, which
   * throws (a 500) for an absent password. An absent e-mail matches the first
   * stored user.
   */
  function Login(users: seq<User>, email: Option<string>, password: Option<string>, compare: (string, string) -> bool, sign: Claims -> string): (r: Reply<Session>)
    ensures EmailQuery(users, email).None? ==> r == Error(401, "Invalid credentials")
    ensures EmailQuery(users, email).Some? && password.None? ==> r == Error(500, CompareRefused)
    ensures r.Error? && password.Some? ==> r == Error(401, "Invalid credentials")
    ensures r.Ok? <==>
      && EmailQuery(users, email).Some? && password.Some?
      && compare(password.value, users[EmailQuery(users, email).value].password)
    ensures r.Ok? ==> r.body == SessionFor(users[EmailQuery(users, email).value], sign)
  {
    var found := EmailQuery(users, email);
    if found.None? then Error(401, "Invalid credentials")
    else if password.None? then Error(500, CompareRefused)
    else if !compare(password.value, users[found.value].password) then Error(401, "Invalid credentials")
    else Ok(SessionFor(users[found.value], sign))
  }

  /** With no e-mail in the body, the password is checked against the first stored user, who gets the session. */
  lemma LoginWithoutEmail(users: seq<User>, password: string, compare: (string, string) -> bool, sign: Claims -> string)
    requires users != [] && compare(password, users[0].password)
    ensures Login(users, None, Some(password), compare, sign) == Ok(SessionFor(users[0], sign))
  {
  }

  lemma {:induction false} FindUserByEmailAppended(users: seq<User>, u: User, email: string)
    requires FindUserByEmail(users, email).None? && u.email == Lower(email)
    ensures FindUserByEmail(users + [u], email) == Some(|users|)
  {
    if users != [] {
      assert (users + [u])[1..] == users[1..] + [u];
      assert users[0].email != Lower(email);
      FindUserByEmailAppended(users[1..], u, email);
    }
  }

  /**
   * A user who has just registered can log in with the same address and
   * password, and receives the same session as the registration did.
   */
  lemma RegisterThenLogin(users: seq<User>, body: RegisterBody, newId: Id, hash: string -> Digest, sign: Claims -> string, compare: (string, string) -> bool)
    requires body.password.Some? && compare(body.password.value, hash(body.password.value))
    requires RegisterSpec(users, body, newId, hash, sign).reply.Ok?
    ensures Login(RegisterSpec(users, body, newId, hash, sign).users, body.email, body.password, compare, sign)
         == RegisterSpec(users, body, newId, hash, sign).reply
  {
    var o := RegisterSpec(users, body, newId, hash, sign);
    FindUserByEmailAppended(users, o.users[|users|], body.email.value);
  }
}

=== FILE: auth_slice.dfy ===
/**
 * The authentication slice (apps/frontend/src/store/authSlice.ts): the signed-in
 * user and token, kept in `localStorage` across reloads. `JSON.stringify` and
 * `JSON.parse` of a user are the parameters `stringify` and `parse`; a `parse`
 * that answers `None` reads the JSON text `null`.
 */
module AuthSlice {
  import opened Wrappers
  import opened LocalStorage

  /** The user the server returns; the optional fields are `None` when absent. */
  datatype User = User(
    id: string, name: string, email: string, role: string,
    licenseId: Option<string>, balance: Option<int>, authorName: Option<string>, bio: Option<string>)

  /** The slice declares `"loading"`, but no reducer ever sets it. */
  datatype Status = Idle | Loading | Error

  /** The slice's state. */
  datatype AuthState = AuthState(user: Option<User>, token: Option<string>, status: Status, error: Option<string>)

  /** The actions the slice handles: its two reducers and the settled thunks. */
  datatype Action =
    | Logout
    | SetUser(payload: Option<User>)
    | LoginFulfilled(token: string, loggedIn: User)
    | LoginRejected(message: Option<string>)
    | RegisterFulfilled(token: string, registered: User)
    | RegisterRejected(message: Option<string>)
    | AssignLicenseFulfilled(licensed: User)
    | UpdateAuthorFulfilled(updated: User)

  const TokenKey := "token"
  const UserKey := "user"

  /** The state at start-up: the stored token, and the stored user when the stored text is non-empty. */
  function Initial(items: map<string, string>, parse: string -> Option<User>): (s: AuthState)
    ensures s.status == Idle && s.error == None
    ensures s.token == (if TokenKey in items then Some(items[TokenKey]) else None)
    ensures UserKey !in items || items[UserKey] == "" ==> s.user == None
    ensures UserKey in items && items[UserKey] != "" ==> s.user == parse(items[UserKey])
  {
    AuthState(
      if UserKey in items && items[UserKey] != "" then parse(items[UserKey]) else None,
      if TokenKey in items then Some(items[TokenKey]) else None,
      Idle, None)
  }

  /** The new state after `a`. */
  function Reduce(s: AuthState, a: Action): AuthState {
    match a
    case Logout => s.(token := None, user := None)
    case SetUser(payload) => s.(user := payload)
    case LoginFulfilled(token, u) => AuthState(Some(u), Some(token), Idle, None)
    case RegisterFulfilled(token, u) => AuthState(Some(u), Some(token), Idle, None)
    case LoginRejected(message) => s.(status := Error, error := message)
    case RegisterRejected(message) => s.(status := Error, error := message)
    case AssignLicenseFulfilled(u) => s.(user := Some(u))
    case UpdateAuthorFulfilled(u) => s.(user := Some(u))
  }

  /** The stored items after `a`. */
  function Persist(items: map<string, string>, a: Action, stringify: User -> string): map<string, string> {
    match a
    case Logout => items - {TokenKey} - {UserKey}
    case SetUser(payload) => if payload.Some? then items[UserKey := stringify(payload.value)] else items
    case LoginFulfilled(token, u) => items[TokenKey := token][UserKey := stringify(u)]
    case RegisterFulfilled(token, u) => items[TokenKey := token][UserKey := stringify(u)]
    case LoginRejected(_) => items
    case RegisterRejected(_) => items
    case AssignLicenseFulfilled(u) => items[UserKey := stringify(u)]
    case UpdateAuthorFulfilled(_) => items
  }

  /** The slice starts idle and no action leads to `"loading"`. */
  lemma NeverLoading(items: map<string, string>, parse: string -> Option<User>, s: AuthState, a: Action)
    ensures Initial(items, parse).status != Loading
    ensures s.status != Loading ==> Reduce(s, a).status != Loading
  {
  }

  /** A fulfilled login or registration signs in and clears the error; a rejected one keeps the session. */
  lemma SessionTransitions(s: AuthState, token: string, u: User, message: Option<string>)
    ensures Reduce(s, LoginFulfilled(token, u)) == Reduce(s, RegisterFulfilled(token, u))
      == AuthState(Some(u), Some(token), Idle, None)
    ensures Reduce(s, LoginRejected(message)).user == s.user && Reduce(s, LoginRejected(message)).token == s.token
    ensures Reduce(s, LoginRejected(message)).status == Error && Reduce(s, LoginRejected(message)).error == message
  {
  }

  /** After logging out, a reload starts signed out whatever else is stored. */
  lemma LogoutSurvivesReload(items: map<string, string>, stringify: User -> string, parse: string -> Option<User>)
    ensures Initial(Persist(items, Logout, stringify), parse) == AuthState(None, None, Idle, None)
  {
  }

  /** After a login, a reload restores the same user and token, provided the JSON round trip is faithful. */
  lemma LoginSurvivesReload(items: map<string, string>, token: string, u: User,
                            stringify: User -> string, parse: string -> Option<User>)
    requires stringify(u) != "" && parse(stringify(u)) == Some(u)
    ensures Initial(Persist(items, LoginFulfilled(token, u), stringify), parse)
      == Reduce(Initial(items, parse), LoginFulfilled(token, u))
  {
    var after := Persist(items, LoginFulfilled(token, u), stringify);
    assert after[UserKey] == stringify(u);
    assert after[TokenKey] == token;
  }

  /** A licence assignment is stored; an author update is not, so a reload brings back the earlier user. */
  lemma AuthorUpdateLostOnReload(items: map<string, string>, s: AuthState, u: User,
                                 stringify: User -> string, parse: string -> Option<User>)
    requires Initial(items, parse) == s && s.user != Some(u)
    ensures Reduce(s, UpdateAuthorFulfilled(u)).user == Some(u)
    ensures Initial(Persist(items, UpdateAuthorFulfilled(u), stringify), parse).user != Some(u)
  {
  }

  /** `setUser(null)` clears the user in memory only: a reload brings the stored user back. */
  lemma ClearedUserComesBack(items: map<string, string>, stringify: User -> string, parse: string -> Option<User>)
    ensures Reduce(Initial(items, parse), SetUser(None)).user == None
    ensures Initial(Persist(items, SetUser(None), stringify), parse) == Initial(items, parse)
  {
  }

  /** The store: the slice's state in fields, and the browser storage it writes through. */
  class AuthStore {
    const storage: Storage
    var user: Option<User>
    var token: Option<string>
    var status: Status
    var error: Option<string>

    function State(): AuthState
      reads this
    {
      AuthState(user, token, status, error)
    }

    constructor (storage: Storage, parse: string -> Option<User>)
      ensures this.storage == storage
      ensures State() == Initial(storage.items, parse)
    {
      this.storage := storage;
      var savedToken := storage.GetItem(TokenKey);
      var savedUser := storage.GetItem(UserKey);
      user := if savedUser.Some? && savedUser.value != "" then parse(savedUser.value) else None;
      token := savedToken;
      status := Idle;
      error := None;
    }

    /** The slice's reducer for `a`, with its `localStorage` writes. */
    method Dispatch(a: Action, stringify: User -> string)
      modifies this, storage
      ensures State() == Reduce(old(State()), a)
      ensures storage.items == Persist(old(storage.items), a, stringify)
    {
      match a {
        case Logout =>
          token := None;
          user := None;
          storage.RemoveItem(TokenKey);
          storage.RemoveItem(UserKey);
        case SetUser(payload) =>
          user := payload;
          if payload.Some? {
            storage.SetItem(UserKey, stringify(payload.value));
          }
        case LoginFulfilled(t, u) =>
          token := Some(t);
          user := Some(u);
          status := Idle;
          error := None;
          storage.SetItem(TokenKey, t);
          storage.SetItem(UserKey, stringify(u));
        case LoginRejected(message) =>
          status := Error;
          error := message;
        case RegisterFulfilled(t, u) =>
          token := Some(t);
          user := Some(u);
          status := Idle;
          error := None;
          storage.SetItem(TokenKey, t);
          storage.SetItem(UserKey, stringify(u));
        case RegisterRejected(message) =>
          status := Error;
          error := message;
        case AssignLicenseFulfilled(u) =>
          user := Some(u);
          storage.SetItem(UserKey, stringify(u));
        case UpdateAuthorFulfilled(u) =>
          user := Some(u);
      }
    }
  }
}

=== FILE: config_cache.dfy ===
/**
 * The configuration cache (apps/backend/src/utils/getConfig.ts): one cell
 * holding the configuration read last. A read answers from the cell when it
 * is full; otherwise it reads the stored singleton, creating it with the
 * schema defaults when there is none, and fills the cell. Invalidation
 * empties the cell.
 */
module ConfigCache {
  import opened Wrappers
  import opened Models
  import opened Database

  class Cache {
    var cached: Option<Config>

    constructor ()
      ensures cached == None
    {
      cached := None;
    }

    /** The cell agrees with the store whenever it is full. */
    ghost predicate CoherentWith(db: Db)
      reads this, db
    {
      cached.None? || cached == db.config
    }

    /** `getConfig()`. */
    method GetConfig(db: Db) returns (c: Config)
      modifies this, db
      ensures cached == Some(c)
      ensures old(cached).Some? ==> c == old(cached).value && db.config == old(db.config) && db.writes == old(db.writes)
      ensures old(cached).None? && old(db.config).Some? ==>
        c == old(db.config).value && db.config == old(db.config) && db.writes == old(db.writes)
      ensures old(cached).None? && old(db.config).None? ==>
        c == DefaultConfig && db.config == Some(DefaultConfig) && db.writes == old(db.writes) + [ConfigCreated(DefaultConfig)]
      ensures old(CoherentWith(db)) ==> CoherentWith(db)
      ensures db.users == old(db.users) && db.licenses == old(db.licenses) && db.transactions == old(db.transactions)
    {
      if cached.Some? {
        return cached.value;
      }
      var stored := db.config;
      if stored.None? {
        db.config := Some(DefaultConfig);
        db.writes := db.writes + [ConfigCreated(DefaultConfig)];
        stored := Some(DefaultConfig);
      }
      cached := stored;
      c := stored.value;
    }

    /** `invalidateConfigCache()`. */
    method Invalidate()
      modifies this
      ensures cached == None
    {
      cached := None;
    }
  }
}

=== FILE: contact_controller.dfy ===
/**
 * The contact form (apps/backend/src/controllers/contact.controller.ts): the
 * field validators, and the order of the guards in `postContact` — honeypot,
 * validation, rate limit, captcha, then the email. The rate-limit slot is
 * taken before the captcha is checked. Email validation, captcha
 * verification and sending the email are parameters.
 */
module ContactController {
  import opened Wrappers
  import opened Text
  import opened RateLimiter

  /** The request body; `None` is a field that is absent. */
  datatype ContactBody = ContactBody(
    name: Option<string>,
    email: Option<string>,
    message: Option<string>,
    answer: Option<string>,
    token: Option<string>,
    gdpr: Option<string>,
    website: Option<string>,
    prefix: Option<string>,
    phone: Option<string>)

  /** express-validator reads an absent field as the empty string. */
  function Field(v: Option<string>): string {
    v.GetOr("")
  }

  function CountChar(s: string, c: char): nat {
    if s == [] then 0 else (if s[0] == c then 1 else 0) + CountChar(s[1..], c)
  }

  /** `[0-9]*[.]?[0-9]+` restricted as the `isNumeric` pattern has it: digits, at most one dot, ending in a digit. */
  predicate IsUnsignedDecimal(s: string) {
    && s != []
    && IsDigit(s[|s| - 1])
    && (forall i :: 0 <= i < |s| ==> IsDigit(s[i]) || s[i] == '.')
    && CountChar(s, '.') <= 1
  }

  /** validator's `isNumeric`: `^[+-]?([0-9]*[.])?[0-9]+$`. */
  predicate IsNumeric(s: string) {
    if s != [] && (s[0] == '+' || s[0] == '-') then IsUnsignedDecimal(s[1..]) else IsUnsignedDecimal(s)
  }

  lemma {:induction false} DigitsHaveNoDot(s: string)
    requires forall i :: 0 <= i < |s| ==> IsDigit(s[i])
    ensures CountChar(s, '.') == 0
  {
    if s != [] {
      assert IsDigit(s[0]);
      DigitsHaveNoDot(s[1..]);
    }
  }

  /** A captcha answer written as a natural number passes `isNumeric`. */
  lemma NaturalIsNumeric(n: nat)
    ensures IsNumeric(NatToString(n))
  {
    var s := NatToString(n);
    DigitsHaveNoDot(s);
  }

  /**
   * The messages of the failing rules of `validateContact`, in rule order. The
   * rule on `token` has no message of its own and reports the default one.
   */
  function ContactErrors(b: ContactBody, isEmail: string -> bool): (errs: seq<string>)
    ensures errs == [] <==>
      && Field(b.name) != "" && isEmail(Field(b.email)) && Field(b.message) != ""
      && IsNumeric(Field(b.answer)) && Field(b.token) != "" && Field(b.gdpr) == "true"
    ensures Field(b.name) == "" ==> errs[0] == "Name is required"
    ensures Field(b.name) != "" && !isEmail(Field(b.email)) ==> errs[0] == "Valid email required"
    ensures |errs| <= 6
  {
    (if Field(b.name) == "" then ["Name is required"] else [])
    + (if !isEmail(Field(b.email)) then ["Valid email required"] else [])
    + (if Field(b.message) == "" then ["Message is required"] else [])
    + (if !IsNumeric(Field(b.answer)) then ["Answer must be a number"] else [])
    + (if Field(b.token) == "" then ["Invalid value"] else [])
    + (if Field(b.gdpr) != "true" then ["GDPR consent required"] else [])
  }

  /** The email handed to the mailer. */
  datatype ContactEmail = ContactEmail(name: string, email: string, phone: Option<string>, message: string)

  /** `prefix ? \`${prefix} ${phone}\` : phone`; an absent phone prints as "undefined". */
  function PhoneLine(prefix: Option<string>, phone: Option<string>): (r: Option<string>)
    ensures prefix.Some? && prefix.value != "" ==> r == Some(prefix.value + " " + phone.GetOr("undefined"))
    ensures (prefix.None? || prefix.value == "") ==> r == phone
  {
    if prefix.Some? && prefix.value != "" then Some(prefix.value + " " + phone.GetOr("undefined")) else phone
  }

  function EmailOf(b: ContactBody): ContactEmail {
    ContactEmail(Field(b.name), Field(b.email), PhoneLine(b.prefix, b.phone), Field(b.message))
  }

  /** The answers of `postContact`: `{ ok: true }`, or a status with `{ error, wait? }`. */
  datatype ContactReply = Sent | Refused(status: nat, error: string, wait: Option<int>)

  /** How far a request gets: its reply, and whether it reached the rate limiter. */
  datatype ContactOutcome = ContactOutcome(reply: ContactReply, limited: bool, mailed: Option<ContactEmail>)

  /**
   * `postContact` given the rate limiter's verdict `verdict` (consulted only
   * when the request gets that far); `captcha` checks (token, answer) and
   * `send` reports whether the mailer succeeded.
   */
  function PostContactSpec(b: ContactBody, isEmail: string -> bool, verdict: Verdict,
                           captcha: (string, string) -> bool, send: ContactEmail -> bool): (o: ContactOutcome)
    ensures Field(b.website) != "" ==> o == ContactOutcome(Refused(400, "Spam detected", None), false, None)
    ensures Field(b.website) == "" && ContactErrors(b, isEmail) != [] ==>
      o == ContactOutcome(Refused(422, ContactErrors(b, isEmail)[0], None), false, None)
    ensures o.limited <==> Field(b.website) == "" && ContactErrors(b, isEmail) == []
    ensures o.limited && !verdict.allowed ==> o.reply == Refused(429, "Please wait", verdict.wait)
    ensures o.limited && verdict.allowed && !captcha(Field(b.token), b.answer.GetOr("0")) ==>
      o.reply == Refused(400, "Captcha failed", None)
    ensures o.reply == Sent <==> o.limited && verdict.allowed && captcha(Field(b.token), b.answer.GetOr("0")) && send(EmailOf(b))
    ensures o.mailed.Some? ==> o.mailed == Some(EmailOf(b)) && o.limited && verdict.allowed
  {
    if Field(b.website) != "" then ContactOutcome(Refused(400, "Spam detected", None), false, None)
    else
      var errs := ContactErrors(b, isEmail);
      if errs != [] then ContactOutcome(Refused(422, errs[0], None), false, None)
      else if !verdict.allowed then ContactOutcome(Refused(429, "Please wait", verdict.wait), true, None)
      else if !captcha(Field(b.token), b.answer.GetOr("0")) then ContactOutcome(Refused(400, "Captcha failed", None), true, None)
      else
        var mail := EmailOf(b);
        ContactOutcome(if send(mail) then Sent else Refused(500, "Failed to send email", None), true, Some(mail))
  }

  /** `postContact` from the client at `ip` at time `now`. */
  method PostContact(limiter: Limiter, ip: string, now: int, b: ContactBody, isEmail: string -> bool,
                     captcha: (string, string) -> bool, send: ContactEmail -> bool) returns (r: ContactReply)
    modifies limiter
    ensures var v := Decide(LastSubmission(old(limiter.submissions), ip), now);
      r == PostContactSpec(b, isEmail, v, captcha, send).reply
    ensures var v := Decide(LastSubmission(old(limiter.submissions), ip), now);
      var taken := PostContactSpec(b, isEmail, v, captcha, send).limited && v.allowed;
      limiter.submissions == if taken then old(limiter.submissions)[ip := now] else old(limiter.submissions)
  {
    if Field(b.website) != "" {
      return Refused(400, "Spam detected", None);
    }
    var errs := ContactErrors(b, isEmail);
    if errs != [] {
      return Refused(422, errs[0], None);
    }
    var v := limiter.CanSubmit(ip, now);
    if !v.allowed {
      return Refused(429, "Please wait", v.wait);
    }
    if !captcha(Field(b.token), b.answer.GetOr("0")) {
      return Refused(400, "Captcha failed", None);
    }
    if send(EmailOf(b)) {
      r := Sent;
    } else {
      r := Refused(500, "Failed to send email", None);
    }
  }

  /**
   * A request that passes validation but fails the captcha still uses up its
   * client's slot: a second, correct request within the window is refused.
   */
  lemma FailedCaptchaConsumesSlot(submissions: map<string, int>, ip: string, t: int, t2: int, b: ContactBody, isEmail: string -> bool,
                                  captcha: (string, string) -> bool, send: ContactEmail -> bool)
    requires Field(b.website) == "" && ContactErrors(b, isEmail) == []
    requires Decide(LastSubmission(submissions, ip), t).allowed
    requires !captcha(Field(b.token), b.answer.GetOr("0"))
    requires t <= t2 < t + Window
    ensures PostContactSpec(b, isEmail, Decide(LastSubmission(submissions, ip), t), captcha, send).reply == Refused(400, "Captcha failed", None)
    ensures PostContactSpec(b, isEmail, Decide(LastSubmission(submissions[ip := t], ip), t2), captcha, send).reply.status == 429
  {
  }
}

=== FILE: course_forms.dfy ===
/**
 * The course forms (apps/frontend/src/pages/CreateCourse.tsx and
 * EditCourse.tsx): the two zod schemas, which differ only in the minimum
 * description length and the minimum number of chapters; the payload each
 * page submits; how the edit page fills the form from the fetched course;
 * and the photo list edits. `z.string().url()` is the parameter `isUrl`.
 */
module CourseForms {
  import opened Wrappers
  import opened Slug

  datatype ChapterForm = ChapterForm(title: string, coverImage: string, id: Option<string>)

  /** The form values; `categoryId` is `None` until a category is chosen. */
  datatype CourseForm = CourseForm(
    title: string, coverImage: string, categoryId: Option<string>, description: string,
    photos: seq<string>, welcomeEmailBody: string, price: int, chapters: seq<ChapterForm>)

  /** Where a zod issue is reported. */
  datatype IssuePath = FieldPath(name: string) | ChapterPath(index: nat, name: string)

  /** A zod issue; `None` stands for zod's built-in message for the rule. */
  datatype Issue = Issue(path: IssuePath, message: Option<string>)

  /** The limits in which the two schemas differ. */
  datatype Limits = Limits(descriptionMin: nat, chaptersMin: nat)

  const CreateLimits := Limits(10, 1)
  const EditLimits := Limits(40, 0)

  function ChapterIssues(chapters: seq<ChapterForm>, isUrl: string -> bool, from: nat): (issues: seq<Issue>)
    requires from <= |chapters|
    ensures issues == [] <==> forall i :: from <= i < |chapters| ==> |chapters[i].title| >= 2 && isUrl(chapters[i].coverImage)
    decreases |chapters| - from
  {
    if from == |chapters| then []
    else
      var ch := chapters[from];
      (if |ch.title| < 2 then [Issue(ChapterPath(from, "title"), None)] else [])
      + (if !isUrl(ch.coverImage) then [Issue(ChapterPath(from, "coverImage"), Some("Missing field"))] else [])
      + ChapterIssues(chapters, isUrl, from + 1)
  }

  /** The issues the schema reports, in field order. */
  function Issues(f: CourseForm, limits: Limits, isUrl: string -> bool): seq<Issue> {
    (if |f.title| < 3 then [Issue(FieldPath("title"), Some("Too short"))] else [])
    + (if !isUrl(f.coverImage) then [Issue(FieldPath("coverImage"), Some("Missing field"))] else [])
    + (if f.categoryId.None? then [Issue(FieldPath("categoryId"), Some("Select category"))] else [])
    + (if |f.description| < limits.descriptionMin then [Issue(FieldPath("description"), None)] else [])
    + (if |f.photos| < 1 then [Issue(FieldPath("photos"), Some("Missing field"))] else [])
    + (if |f.welcomeEmailBody| < 10 then [Issue(FieldPath("welcomeEmailBody"), Some("Enter body"))] else [])
    + (if f.price < 0 then [Issue(FieldPath("price"), None)] else [])
    + (if |f.chapters| < limits.chaptersMin then [Issue(FieldPath("chapters"), None)] else [])
    + ChapterIssues(f.chapters, isUrl, 0)
  }

  /** The rules the schema states, one conjunct per rule. */
  predicate Satisfies(f: CourseForm, limits: Limits, isUrl: string -> bool) {
    && |f.title| >= 3 && isUrl(f.coverImage) && f.categoryId.Some?
    && |f.description| >= limits.descriptionMin && |f.photos| >= 1 && |f.welcomeEmailBody| >= 10
    && f.price >= 0 && |f.chapters| >= limits.chaptersMin
    && forall i :: 0 <= i < |f.chapters| ==> |f.chapters[i].title| >= 2 && isUrl(f.chapters[i].coverImage)
  }

  /** A form is submitted exactly when the schema reports no issue. */
  lemma IssuesEmptyIff(f: CourseForm, limits: Limits, isUrl: string -> bool)
    ensures Issues(f, limits, isUrl) == [] <==> Satisfies(f, limits, isUrl)
  {
  }

  /** The edit schema is the weaker one: a form the creation schema accepts, the edit schema accepts too, unless its description is under 40 characters. */
  lemma EditAcceptsCreated(f: CourseForm, isUrl: string -> bool)
    requires Satisfies(f, CreateLimits, isUrl) && |f.description| >= 40
    ensures Satisfies(f, EditLimits, isUrl)
  {
  }

  /** An edited course may have no chapters; a created one may not. */
  lemma ChaptersOptionalOnlyWhenEditing(f: CourseForm, isUrl: string -> bool)
    requires f.chapters == []
    ensures !Satisfies(f, CreateLimits, isUrl)
  {
  }

  /** The body `POST /courses` and `PUT /courses/:id` receive; `tutorId` is `None` when it is left out. */
  datatype CoursePayload = CoursePayload(form: CourseForm, tutorId: Option<string>, slug: string, welcomeEmailSubject: string)

  function WelcomeSubject(title: string): string {
    "Welcome {userName} on the course: " + title
  }

  /** The creation page's `onSubmit`: the current user becomes the tutor. */
  function CreatePayload(f: CourseForm, userId: Option<string>): (p: CoursePayload)
    ensures p.form == f && p.tutorId == userId
    ensures p.slug == Slugify(f.title) && IsSlug(p.slug)
    ensures p.welcomeEmailSubject == WelcomeSubject(f.title)
  {
    SlugifyIsSlug(f.title);
    CoursePayload(f, userId, Slugify(f.title), WelcomeSubject(f.title))
  }

  /** The edit page's `onSubmit`: the same derived fields and no tutor. */
  function EditPayload(f: CourseForm): (p: CoursePayload)
    ensures p.form == f && p.tutorId == None
    ensures p.slug == Slugify(f.title) && IsSlug(p.slug)
    ensures p.welcomeEmailSubject == WelcomeSubject(f.title)
  {
    SlugifyIsSlug(f.title);
    CoursePayload(f, None, Slugify(f.title), WelcomeSubject(f.title))
  }

  /** The two pages send the same body apart from the tutor. */
  lemma PayloadsDifferOnlyInTutor(f: CourseForm, userId: Option<string>)
    ensures EditPayload(f) == CreatePayload(f, userId).(tutorId := None)
  {
  }

  /** The fields of a fetched course the edit page reads; `None` is a missing field. */
  datatype ChapterDoc = ChapterDoc(title: Option<string>, coverImage: Option<string>, id: Option<string>)

  datatype CourseDoc = CourseDoc(
    title: Option<string>, coverImage: Option<string>, categoryId: Option<string>, description: Option<string>,
    photos: Option<seq<string>>, welcomeEmailBody: Option<string>, price: Option<int>, chapters: Option<seq<ChapterDoc>>)

  /** `s || ""`. */
  function OrEmpty(s: Option<string>): string {
    if s.Some? then s.value else ""
  }

  function ResetChapter(ch: ChapterDoc): ChapterForm {
    ChapterForm(OrEmpty(ch.title), OrEmpty(ch.coverImage), ch.id)
  }

  /** The values `reset` puts in the form once the course has loaded. */
  function ResetValues(c: CourseDoc): (f: CourseForm)
    ensures f.title == OrEmpty(c.title) && f.coverImage == OrEmpty(c.coverImage)
    ensures f.description == OrEmpty(c.description) && f.welcomeEmailBody == OrEmpty(c.welcomeEmailBody)
    ensures f.photos == (if c.photos.Some? then c.photos.value else [])
    ensures f.price == (if c.price.Some? then c.price.value else 0)
    ensures f.categoryId == Some(OrEmpty(c.categoryId))
    ensures c.chapters.Some? && c.chapters.value != [] ==>
      |f.chapters| == |c.chapters.value|
      && forall i :: 0 <= i < |f.chapters| ==> f.chapters[i] == ResetChapter(c.chapters.value[i])
    ensures c.chapters.None? || c.chapters.value == [] ==> f.chapters == [ChapterForm("", "", None)]
    ensures |f.chapters| >= 1
  {
    var chapters :=
      if c.chapters.Some? && |c.chapters.value| > 0 then
        seq(|c.chapters.value|, i requires 0 <= i < |c.chapters.value| => ResetChapter(c.chapters.value[i]))
      else [ChapterForm("", "", None)];
    CourseForm(
      OrEmpty(c.title), OrEmpty(c.coverImage), Some(OrEmpty(c.categoryId)), OrEmpty(c.description),
      if c.photos.Some? then c.photos.value else [], OrEmpty(c.welcomeEmailBody),
      if c.price.Some? then c.price.value else 0, chapters)
  }

  /** Every chapter the course had keeps its id in the form, so saving updates rather than recreates it. */
  lemma ResetKeepsChapterIds(c: CourseDoc)
    requires c.chapters.Some? && c.chapters.value != []
    ensures forall i :: 0 <= i < |c.chapters.value| ==> ResetValues(c).chapters[i].id == c.chapters.value[i].id
  {
  }

  /** A course fetched with every field filled in comes back unchanged through the form. */
  lemma ResetOfCompleteCourse(c: CourseDoc)
    requires c.title.Some? && c.coverImage.Some? && c.categoryId.Some? && c.description.Some?
    requires c.photos.Some? && c.welcomeEmailBody.Some? && c.price.Some?
    ensures ResetValues(c).title == c.title.value && ResetValues(c).description == c.description.value
    ensures ResetValues(c).categoryId == c.categoryId && ResetValues(c).photos == c.photos.value
    ensures ResetValues(c).price == c.price.value
    ensures ResetValues(c).coverImage == c.coverImage.value && ResetValues(c).welcomeEmailBody == c.welcomeEmailBody.value
  {
  }

  /** The upload callback: new urls go after the photos already there. */
  function AddPhotos(photos: seq<string>, urls: seq<string>): (r: seq<string>)
    ensures |r| == |photos| + |urls| && r[..|photos|] == photos && r[|photos|..] == urls
  {
    photos + urls
  }

  /** `current.filter((_, i) => i !== idx)`: only the photo at the clicked index goes. */
  function RemovePhoto(photos: seq<string>, idx: int): (r: seq<string>)
    ensures 0 <= idx < |photos| ==> |r| == |photos| - 1
    ensures 0 <= idx < |photos| ==> forall i :: 0 <= i < |r| ==> r[i] == if i < idx then photos[i] else photos[i + 1]
    ensures !(0 <= idx < |photos|) ==> r == photos
  {
    if 0 <= idx < |photos| then photos[..idx] + photos[idx + 1..] else photos
  }

  /** Removing a photo just uploaded leaves the earlier list. */
  lemma AddThenRemoveLast(photos: seq<string>, url: string)
    ensures RemovePhoto(AddPhotos(photos, [url]), |photos|) == photos
  {
  }
}

=== FILE: courses_page.dfy ===
/**
 * The course catalogue page (apps/frontend/src/pages/Courses.tsx): the
 * fetched course summaries grouped by category name, and the sections the
 * category sidebar lets through. `Object.keys` of the grouping record is
 * modelled as the order in which categories first appear.
 */
module CoursesPage {
  import opened Wrappers
  import opened Lists

  /** The fields of a course summary the grouping reads. */
  datatype CourseSummary = CourseSummary(id: string, title: string, categoryName: Option<string>)

  const Uncategorized := "Uncategorized"
  const AllCategories := "All"

  /** `course.categoryName || "Uncategorized"`. */
  function CategoryOf(c: CourseSummary): (k: string)
    ensures k != ""
    ensures c.categoryName.Some? && c.categoryName.value != "" ==> k == c.categoryName.value
    ensures c.categoryName.None? || c.categoryName.value == "" ==> k == Uncategorized
  {
    if c.categoryName.Some? && c.categoryName.value != "" then c.categoryName.value else Uncategorized
  }

  predicate Distinct(keys: seq<string>) {
    forall i, j :: 0 <= i < j < |keys| ==> keys[i] != keys[j]
  }

  /** The record's keys: each category once, in the order of its first course. */
  function GroupKeys(s: seq<CourseSummary>): (keys: seq<string>)
    ensures Distinct(keys)
    ensures forall i :: 0 <= i < |s| ==> CategoryOf(s[i]) in keys
    ensures |keys| <= |s|
    decreases |s|
  {
    if s == [] then []
    else
      var init := s[..|s| - 1];
      var keys := GroupKeys(init);
      assert forall j :: 0 <= j < |init| ==> s[j] == init[j];
      if CategoryOf(s[|s| - 1]) in keys then keys else keys + [CategoryOf(s[|s| - 1])]
  }

  predicate InCategory(k: string, c: CourseSummary) {
    CategoryOf(c) == k
  }

  /** The courses in category `k`, in the order they were fetched. */
  function Members(s: seq<CourseSummary>, k: string): seq<CourseSummary> {
    Filter(s, c => InCategory(k, c))
  }

  /** The `forEach` that fills `grouped`, with the record's key order kept beside it. */
  method Group(courses: seq<CourseSummary>) returns (keys: seq<string>, groups: map<string, seq<CourseSummary>>)
    ensures keys == GroupKeys(courses)
    ensures forall k :: k in groups <==> k in keys
    ensures forall k :: k in groups ==> groups[k] == Members(courses, k)
  {
    keys, groups := [], map[];
    for i := 0 to |courses|
      invariant keys == GroupKeys(courses[..i])
      invariant forall k :: k in groups <==> k in keys
      invariant forall k :: k in groups ==> groups[k] == Members(courses[..i], k)
    {
      var course := courses[i];
      var cat := CategoryOf(course);
      ghost var keys0, groups0 := keys, groups;
      if cat !in groups {
        keys := keys + [cat];
        groups := groups[cat := []];
      }
      groups := groups[cat := groups[cat] + [course]];
      GroupedStep(courses[..i], course, keys0, groups0);
      assert courses[..i + 1] == courses[..i] + [course];
    }
    assert courses[..|courses|] == courses;
  }

  /** One pass of the loop body keeps the loop's invariant. */
  lemma GroupedStep(done: seq<CourseSummary>, c: CourseSummary, keys: seq<string>, groups: map<string, seq<CourseSummary>>)
    requires keys == GroupKeys(done)
    requires forall k :: k in groups <==> k in keys
    requires forall k :: k in groups ==> groups[k] == Members(done, k)
    ensures var cat := CategoryOf(c);
      var keys' := if cat in groups then keys else keys + [cat];
      var groups' := groups[cat := (if cat in groups then groups[cat] else []) + [c]];
      && keys' == GroupKeys(done + [c])
      && (forall k :: k in groups' <==> k in keys')
      && (forall k :: k in groups' ==> groups'[k] == Members(done + [c], k))
  {
    var cat := CategoryOf(c);
    GroupStep(done, c);
    var prior: seq<CourseSummary> := if cat in groups then groups[cat] else [];
    assert prior == Members(done, cat);
    var keys' := if cat in groups then keys else keys + [cat];
    var groups' := groups[cat := prior + [c]];
    forall k ensures k in groups' <==> k in keys' {
      if cat !in groups {
        assert k in keys' <==> k in keys || k == cat;
      }
    }
    forall k | k in groups'
      ensures groups'[k] == Members(done + [c], k)
    {
      if k != cat {
        assert k in groups && groups'[k] == groups[k];
      }
    }
  }

  /** What one more course does to the keys and the groups. */
  lemma GroupStep(s: seq<CourseSummary>, c: CourseSummary)
    ensures GroupKeys(s + [c]) == if CategoryOf(c) in GroupKeys(s) then GroupKeys(s) else GroupKeys(s) + [CategoryOf(c)]
    ensures forall k :: Members(s + [c], k) == Members(s, k) + (if CategoryOf(c) == k then [c] else [])
    ensures Members(s, CategoryOf(c)) == [] || CategoryOf(c) in GroupKeys(s)
  {
    assert (s + [c])[..|s + [c]| - 1] == s;
    if CategoryOf(c) !in GroupKeys(s) {
      MembersOfAbsentKey(s, CategoryOf(c));
    }
  }

  /** Every key is the category of some fetched course. */
  lemma {:induction false} KeysComeFromCourses(s: seq<CourseSummary>, k: string)
    requires k in GroupKeys(s)
    ensures exists j :: 0 <= j < |s| && CategoryOf(s[j]) == k
    decreases |s|
  {
    var init := s[..|s| - 1];
    if k in GroupKeys(init) {
      KeysComeFromCourses(init, k);
      var j :| 0 <= j < |init| && CategoryOf(init[j]) == k;
      assert s[j] == init[j];
    } else {
      assert CategoryOf(s[|s| - 1]) == k;
    }
  }

  /** "No courses yet." appears exactly when nothing was fetched into any group. */
  lemma NoCoursesIff(s: seq<CourseSummary>)
    ensures GroupKeys(s) == [] <==> s == []
  {
    if s != [] {
      assert CategoryOf(s[0]) in GroupKeys(s);
    }
  }

  /** A course is listed in exactly the group of its own category. */
  lemma MemberIff(s: seq<CourseSummary>, k: string, c: CourseSummary)
    ensures c in Members(s, k) <==> c in s && CategoryOf(c) == k
  {
    FilterContains(s, c => InCategory(k, c), c);
  }

  /** The total size of the groups for `keys`. */
  function GroupedCount(s: seq<CourseSummary>, keys: seq<string>): nat {
    if keys == [] then 0 else |Members(s, keys[0])| + GroupedCount(s, keys[1..])
  }

  lemma {:induction false} GroupedCountAppend(s: seq<CourseSummary>, keys: seq<string>, k: string)
    ensures GroupedCount(s, keys + [k]) == GroupedCount(s, keys) + |Members(s, k)|
    decreases |keys|
  {
    if keys == [] {
      assert (keys + [k])[1..] == [];
    } else {
      assert (keys + [k])[1..] == keys[1..] + [k];
      GroupedCountAppend(s, keys[1..], k);
    }
  }

  lemma {:induction false} GroupedCountStep(s: seq<CourseSummary>, c: CourseSummary, keys: seq<string>)
    requires Distinct(keys)
    ensures GroupedCount(s + [c], keys) == GroupedCount(s, keys) + (if CategoryOf(c) in keys then 1 else 0)
    decreases |keys|
  {
    if keys != [] {
      assert (s + [c])[..|s + [c]| - 1] == s;
      assert Members(s + [c], keys[0]) == Members(s, keys[0]) + (if InCategory(keys[0], c) then [c] else []);
      assert CategoryOf(c) in keys <==> CategoryOf(c) == keys[0] || CategoryOf(c) in keys[1..];
      GroupedCountStep(s, c, keys[1..]);
    }
  }

  lemma MembersOfAbsentKey(s: seq<CourseSummary>, k: string)
    requires k !in GroupKeys(s)
    ensures Members(s, k) == []
  {
    var m := Members(s, k);
    if m != [] {
      FilterContains(s, c => InCategory(k, c), m[0]);
    }
  }

  /** The groups partition the courses: their sizes add up to the number fetched. */
  lemma {:induction false} GroupsPartition(s: seq<CourseSummary>)
    ensures GroupedCount(s, GroupKeys(s)) == |s|
    decreases |s|
  {
    if s != [] {
      var init := s[..|s| - 1];
      var c := s[|s| - 1];
      assert s == init + [c];
      GroupsPartition(init);
      var keys := GroupKeys(init);
      GroupedCountStep(init, c, keys);
      if CategoryOf(c) !in keys {
        GroupedCountAppend(s, keys, CategoryOf(c));
        MembersOfAbsentKey(init, CategoryOf(c));
        assert Members(s, CategoryOf(c)) == Members(init, CategoryOf(c)) + [c];
      }
    }
  }

  predicate Shown(selected: string, k: string) {
    selected == AllCategories || selected == k
  }

  /** `Object.entries(grouped).filter(([cat]) => selected === "All" || selected === cat)`. */
  function Sections(keys: seq<string>, selected: string): seq<string> {
    Filter(keys, k => Shown(selected, k))
  }

  /** "All Courses" shows every group. */
  lemma {:induction false} AllShowsEverything(keys: seq<string>)
    ensures Sections(keys, AllCategories) == keys
    decreases |keys|
  {
    if keys != [] {
      AllShowsEverything(keys[..|keys| - 1]);
      assert keys[..|keys| - 1] + [keys[|keys| - 1]] == keys;
    }
  }

  /** Any other choice shows that category's group alone, or nothing when it has no course. */
  lemma {:induction false} SelectedShowsOne(keys: seq<string>, selected: string)
    requires Distinct(keys) && selected != AllCategories
    ensures Sections(keys, selected) == if selected in keys then [selected] else []
    decreases |keys|
  {
    if keys != [] {
      var init := keys[..|keys| - 1];
      assert keys == init + [keys[|keys| - 1]];
      SelectedShowsOne(init, selected);
    }
  }
}

=== FILE: create_lesson.dfy ===
/**
 * The lesson editor (apps/frontend/src/pages/CreateLesson.tsx): the list of
 * content blocks and its edits — append, update by id, delete by id, move by
 * `splice` — the index a drop moves a block to, and the guard and lesson order
 * of `handleSave`. Block ids (`crypto.randomUUID()`) and the page's load time
 * (`Date.now()`) are parameters.
 */
module LessonEditor {
  import opened Wrappers
  import opened Text
  import opened Lists

  datatype BlockType = Subtitle | Description | CodeSnippet | UrlLink | Youtube | Image

  /** The `data` of a block, by the shape each block type uses. */
  datatype BlockData = TextData(text: string) | CodeData(code: string) | HrefData(href: string) | VideoData(url: string) | SrcData(src: string)

  datatype Block = Block(id: string, kind: BlockType, data: BlockData)

  /** `defaultData[type]`; the image placeholder embeds the time the page was loaded. */
  function DefaultData(t: BlockType, loadedAt: nat): BlockData {
    match t
    case Subtitle => TextData("")
    case Description => TextData("")
    case CodeSnippet => CodeData("")
    case UrlLink => HrefData("https://")
    case Youtube => VideoData("https://www.youtube.com/watch?v=")
    case Image => SrcData("https://cataas.com/cat?" + NatToString(loadedAt) + "&width=800&height=400")
  }

  predicate HasId(blocks: seq<Block>, id: string) {
    exists i :: 0 <= i < |blocks| && blocks[i].id == id
  }

  /** `addBlock(type)`: one new block at the end, holding a fresh copy of the type's default data. */
  function AddBlock(blocks: seq<Block>, t: BlockType, newId: string, loadedAt: nat): (r: seq<Block>)
    ensures |r| == |blocks| + 1 && r[..|blocks|] == blocks
    ensures r[|blocks|].id == newId && r[|blocks|].kind == t && r[|blocks|].data == DefaultData(t, loadedAt)
  {
    blocks + [Block(newId, t, DefaultData(t, loadedAt))]
  }

  /** `updateBlock(id, newData)`: every block with that id gets the new data and nothing else changes. */
  function UpdateBlock(blocks: seq<Block>, id: string, newData: BlockData): (r: seq<Block>)
    ensures |r| == |blocks|
    ensures forall i :: 0 <= i < |blocks| ==> r[i].id == blocks[i].id && r[i].kind == blocks[i].kind
    ensures forall i :: 0 <= i < |blocks| ==> r[i].data == if blocks[i].id == id then newData else blocks[i].data
  {
    seq(|blocks|, i requires 0 <= i < |blocks| => if blocks[i].id == id then blocks[i].(data := newData) else blocks[i])
  }

  /** `blocks.filter((b) => b.id !== id)`. */
  function DeleteBlock(blocks: seq<Block>, id: string): (r: seq<Block>)
    ensures |r| <= |blocks|
    ensures forall i :: 0 <= i < |r| ==> r[i].id != id
  {
    if blocks == [] then []
    else (if blocks[0].id == id then [] else [blocks[0]]) + DeleteBlock(blocks[1..], id)
  }

  /** Delete removes exactly the blocks with the id: every other block keeps its multiplicity. */
  lemma {:induction false} DeleteRemovesExactly(blocks: seq<Block>, id: string)
    ensures forall b :: multiset(DeleteBlock(blocks, id))[b] == if b.id == id then 0 else multiset(blocks)[b]
  {
    if blocks != [] {
      DeleteRemovesExactly(blocks[1..], id);
      assert blocks == [blocks[0]] + blocks[1..];
    }
  }

  /** Deleting an id nobody has changes nothing. */
  lemma {:induction false} DeleteAbsentId(blocks: seq<Block>, id: string)
    requires !HasId(blocks, id)
    ensures DeleteBlock(blocks, id) == blocks
  {
    if blocks != [] {
      assert blocks[0].id != id;
      assert !HasId(blocks[1..], id) by {
        forall i | 0 <= i < |blocks[1..]| ensures blocks[1..][i].id != id {
          assert blocks[1..][i] == blocks[i + 1];
        }
      }
      DeleteAbsentId(blocks[1..], id);
      assert blocks == [blocks[0]] + blocks[1..];
    }
  }

  lemma {:induction false} DeleteAppend(a: seq<Block>, b: seq<Block>, id: string)
    ensures DeleteBlock(a + b, id) == DeleteBlock(a, id) + DeleteBlock(b, id)
  {
    if a != [] {
      var ab := a + b;
      var head: seq<Block> := if a[0].id == id then [] else [a[0]];
      assert ab[0] == a[0];
      assert ab[1..] == a[1..] + b;
      DeleteAppend(a[1..], b, id);
      assert DeleteBlock(ab, id) == head + (DeleteBlock(a[1..], id) + DeleteBlock(b, id));
      assert DeleteBlock(a, id) == head + DeleteBlock(a[1..], id);
    } else {
      assert a + b == b;
    }
  }

  /** The callback `(b) => b.id !== id` of the delete. */
  function OtherThan(id: string): Block -> bool {
    (b: Block) => b.id != id
  }

  /** Delete is `filter`: the blocks without the id, in their order. */
  lemma {:induction false} DeleteIsFilter(blocks: seq<Block>, id: string)
    ensures DeleteBlock(blocks, id) == Filter(blocks, OtherThan(id))
    decreases |blocks|
  {
    if blocks != [] {
      var init := blocks[..|blocks| - 1];
      var last := blocks[|blocks| - 1];
      assert blocks == init + [last];
      DeleteAppend(init, [last], id);
      DeleteIsFilter(init, id);
      assert [last][1..] == [];
    }
  }

  /** Deleting the block just added with a fresh id gives back the list before. */
  lemma AddThenDelete(blocks: seq<Block>, t: BlockType, newId: string, loadedAt: nat)
    requires !HasId(blocks, newId)
    ensures DeleteBlock(AddBlock(blocks, t, newId, loadedAt), newId) == blocks
  {
    DeleteAppend(blocks, [Block(newId, t, DefaultData(t, loadedAt))], newId);
    DeleteAbsentId(blocks, newId);
  }

  /** Updating twice with the same data is updating once; deleting after an update is deleting. */
  lemma {:induction false} UpdateThenDelete(blocks: seq<Block>, id: string, newData: BlockData)
    ensures UpdateBlock(UpdateBlock(blocks, id, newData), id, newData) == UpdateBlock(blocks, id, newData)
    ensures DeleteBlock(UpdateBlock(blocks, id, newData), id) == DeleteBlock(blocks, id)
  {
    if blocks != [] {
      UpdateThenDelete(blocks[1..], id, newData);
      var u := UpdateBlock(blocks, id, newData);
      assert u[1..] == UpdateBlock(blocks[1..], id, newData);
    }
  }

  /** Where `splice(start, …)` starts in a list of length `len`: a negative start counts from the end. */
  function SpliceStart(start: int, len: nat): (k: nat)
    ensures k <= len
    ensures 0 <= start <= len ==> k == start
  {
    if start < 0 then (if len + start < 0 then 0 else len + start) else if start > len then len else start
  }

  /** `copy.splice(from, 1)`. */
  function Remove<T>(s: seq<T>, from: nat): (r: seq<T>)
    requires from < |s|
    ensures |r| == |s| - 1
    ensures forall i :: 0 <= i < from ==> r[i] == s[i]
    ensures forall i :: from <= i < |r| ==> r[i] == s[i + 1]
  {
    s[..from] + s[from + 1..]
  }

  /** `copy.splice(k, 0, x)`. */
  function Insert<T>(s: seq<T>, k: nat, x: T): (r: seq<T>)
    requires k <= |s|
    ensures |r| == |s| + 1 && r[k] == x
    ensures forall i :: 0 <= i < k ==> r[i] == s[i]
    ensures forall i :: k < i < |r| ==> r[i] == s[i - 1]
  {
    s[..k] + [x] + s[k..]
  }

  /** The list `moveBlock(from, to)` produces. */
  function Moved<T>(s: seq<T>, from: nat, to: int): seq<T>
    requires from < |s|
  {
    Insert(Remove(s, from), SpliceStart(to, |s| - 1), s[from])
  }

  /** A move is a permutation: same length, same blocks. */
  lemma MovePermutes<T>(s: seq<T>, from: nat, to: int)
    requires from < |s|
    ensures |Moved(s, from, to)| == |s|
    ensures multiset(Moved(s, from, to)) == multiset(s)
  {
    var rem := Remove(s, from);
    var k := SpliceStart(to, |s| - 1);
    var x := s[from];
    assert s == s[..from] + [x] + s[from + 1..];
    assert Moved(s, from, to) == rem[..k] + [x] + rem[k..];
    assert rem == rem[..k] + rem[k..];
    calc {
      multiset(Moved(s, from, to));
      multiset(rem[..k]) + multiset([x]) + multiset(rem[k..]);
      multiset(rem) + multiset([x]);
      multiset(s[..from]) + multiset(s[from + 1..]) + multiset([x]);
      multiset(s);
    }
  }

  /** The moved block lands at the splice position and the others keep their relative order. */
  lemma MovePlaces<T>(s: seq<T>, from: nat, to: int)
    requires from < |s|
    ensures Moved(s, from, to)[SpliceStart(to, |s| - 1)] == s[from]
    ensures Remove(Moved(s, from, to), SpliceStart(to, |s| - 1)) == Remove(s, from)
  {
    var k := SpliceStart(to, |s| - 1);
    var back := Remove(Moved(s, from, to), k);
    assert forall i :: 0 <= i < |back| ==> back[i] == Remove(s, from)[i];
  }

  /** `splice(from, 1)` in place: the blocks after `from` move one slot left; the last slot keeps its old block. */
  method CloseGap<T>(a: array<T>, from: nat)
    requires from < a.Length
    modifies a
    ensures forall i :: 0 <= i < from ==> a[i] == old(a[i])
    ensures forall i :: from <= i < a.Length - 1 ==> a[i] == old(a[i + 1])
  {
    ghost var before := a[..];
    var j := from;
    while j < a.Length - 1
      invariant from <= j <= a.Length - 1
      invariant forall i :: 0 <= i < from ==> a[i] == before[i]
      invariant forall i :: from <= i < j ==> a[i] == before[i + 1]
      invariant forall i :: j <= i < a.Length ==> a[i] == before[i]
    {
      a[j] := a[j + 1];
      j := j + 1;
    }
  }

  /** The room `splice(k, 0, x)` needs, made in place: the blocks from `k` on move one slot right, dropping the last. */
  method OpenGap<T>(a: array<T>, k: nat)
    requires k < a.Length
    modifies a
    ensures forall i :: 0 <= i <= k ==> a[i] == old(a[i])
    ensures forall i :: k < i < a.Length ==> a[i] == old(a[i - 1])
  {
    ghost var before := a[..];
    var j := a.Length - 1;
    while j > k
      invariant k <= j <= a.Length - 1
      invariant forall i :: 0 <= i <= j ==> a[i] == before[i]
      invariant forall i :: j < i < a.Length ==> a[i] == before[i - 1]
    {
      a[j] := a[j - 1];
      j := j - 1;
    }
  }

  /** `moveBlock(from, to)` on a copy of the list, with the two `splice` calls done by shifting in place. */
  method MoveBlock<T>(prev: seq<T>, from: nat, to: int) returns (r: seq<T>)
    requires from < |prev|
    ensures r == Moved(prev, from, to)
  {
    var n := |prev|;
    var copy := new T[n](i requires 0 <= i < n => prev[i]);
    ghost var rem := Remove(prev, from);
    var moved := copy[from];
    CloseGap(copy, from);
    assert forall i :: 0 <= i < n - 1 ==> copy[i] == rem[i];
    var k := SpliceStart(to, n - 1);
    OpenGap(copy, k);
    copy[k] := moved;
    ghost var target := Insert(rem, k, prev[from]);
    assert target == Moved(prev, from, to);
    assert forall i :: 0 <= i < n ==> copy[i] == target[i];
    r := copy[..];
  }

  datatype HoverPos = Above | Below

  /** `onDrop`'s target index, as written. */
  function DropTarget(from: int, index: int, pos: HoverPos): int {
    match pos
    case Below => index + (if from < index then 0 else 1)
    case Above => index + (if from < index then -1 else 0)
  }

  /** `onDrop`'s target index with the dragged block's own position treated as "above". */
  function DropTargetCorrected(from: int, index: int, pos: HoverPos): int {
    match pos
    case Below => index + (if from <= index then 0 else 1)
    case Above => index + (if from < index then -1 else 0)
  }

  /** The two agree except on a block dropped on its own lower half. */
  lemma DropTargetsAgree(from: int, index: int, pos: HoverPos)
    ensures DropTarget(from, index, pos) == DropTargetCorrected(from, index, pos) <==> !(from == index && pos == Below)
  {
  }

  /**
   * Dropping block `from` on another block `index` puts it right above the
   * target when hovering its upper half and right below when hovering its
   * lower half; `p` is where the pair starts in the new list.
   */
  lemma DropLandsNextToTarget<T>(s: seq<T>, from: nat, index: nat, pos: HoverPos)
    requires from < |s| && index < |s| && from != index
    ensures var r := Moved(s, from, DropTargetCorrected(from, index, pos));
      var p := if from < index then index - 1 else index;
      && p + 1 < |r|
      && (pos == Below ==> r[p] == s[index] && r[p + 1] == s[from])
      && (pos == Above ==> r[p] == s[from] && r[p + 1] == s[index])
  {
  }

  /** Dropping a block on its own upper half leaves the list as it was. */
  lemma DropOnOwnUpperHalf<T>(s: seq<T>, i: nat)
    requires i < |s|
    ensures Moved(s, i, DropTarget(i, i, Above)) == s
  {
    assert Moved(s, i, DropTarget(i, i, Above)) == s[..i] + [s[i]] + s[i + 1..];
    assert s == s[..i] + [s[i]] + s[i + 1..];
  }

  /** As written, dropping a block on its own lower half swaps it with the next block. */
  lemma DropOnOwnLowerHalfMoves<T>(s: seq<T>, i: nat)
    requires i + 1 < |s| && s[i] != s[i + 1]
    ensures Moved(s, i, DropTarget(i, i, Below)) != s
    ensures Moved(s, i, DropTarget(i, i, Below))[i] == s[i + 1] && Moved(s, i, DropTarget(i, i, Below))[i + 1] == s[i]
  {
  }

  /** With the corrected target, dropping a block on itself never changes the list. */
  lemma DropOnItselfCorrected<T>(s: seq<T>, i: nat, pos: HoverPos)
    requires i < |s|
    ensures Moved(s, i, DropTargetCorrected(i, i, pos)) == s
  {
    assert Moved(s, i, DropTargetCorrected(i, i, pos)) == s[..i] + [s[i]] + s[i + 1..];
    assert s == s[..i] + [s[i]] + s[i + 1..];
  }

  /** The loaded chapter, if the query has answered: its `lessons`, if present. */
  datatype ChapterInfo = ChapterInfo(lessons: Option<seq<string>>)

  /** `chapter ? (chapter.lessons?.length || 0) + 1 : 1`. */
  function NextOrder(chapter: Option<ChapterInfo>): (order: nat)
    ensures order >= 1
    ensures chapter.Some? && chapter.value.lessons.Some? ==> order == |chapter.value.lessons.value| + 1
    ensures chapter.None? || chapter.value.lessons.None? ==> order == 1
  {
    if chapter.None? then 1
    else if chapter.value.lessons.None? then 1
    else |chapter.value.lessons.value| + 1
  }

  /** The body posted to `/lessons`. */
  datatype LessonBody = LessonBody(title: string, chapterId: Option<string>, contentBlocks: seq<Block>, order: nat)

  datatype SaveAction = AlertMissingTitle | PostLesson(body: LessonBody)

  /** `handleSave`: a blank title raises the alert; otherwise the untrimmed title is sent. */
  function HandleSave(title: string, chapterId: Option<string>, blocks: seq<Block>, chapter: Option<ChapterInfo>): (a: SaveAction)
    ensures a.AlertMissingTitle? <==> forall i :: 0 <= i < |title| ==> IsJsWhitespace(title[i])
    ensures a.PostLesson? ==> a.body == LessonBody(title, chapterId, blocks, NextOrder(chapter))
  {
    TrimEmptyIff(title);
    if Trim(title) == [] then AlertMissingTitle
    else PostLesson(LessonBody(title, chapterId, blocks, NextOrder(chapter)))
  }
}

=== FILE: database.dfy ===
/**
 * The document store as the controllers use it: the users, licenses and
 * transactions collections and the configuration singleton, each kept in
 * natural (insertion) order, plus a journal of the writes in the order they
 * were persisted.
 */
module Database {
  import opened Wrappers
  import opened Text
  import opened Models
  import opened Http

  /** One persisted write. */
  datatype Write =
    | UserCreated(user: User)
    | UserSaved(user: User)
    | TxCreated(tx: Transaction)
    | ConfigCreated(config: Config)
    | ConfigSaved(config: Config)

  /** The transactions among a sequence of writes, in order. */
  function TxsOf(ws: seq<Write>): seq<Transaction> {
    if ws == [] then []
    else (if ws[0].TxCreated? then [ws[0].tx] else []) + TxsOf(ws[1..])
  }

  /** What a handler does: its reply, the users afterwards and the writes it persisted, in order. */
  datatype Outcome<T> = Outcome(reply: Reply<T>, users: seq<User>, writes: seq<Write>)

  class Db {
    var users: seq<User>
    var licenses: seq<License>
    var transactions: seq<Transaction>
    var config: Option<Config>
    var writes: seq<Write>

    /** The unique indexes and the schema rules every stored document satisfies. */
    ghost predicate Valid()
      reads this
    {
      ValidUsers(users) && UniqueSlugs(licenses)
    }

    /** A store holding only the given licenses. */
    constructor (licenses: seq<License>)
      requires UniqueSlugs(licenses)
      ensures Valid()
      ensures this.licenses == licenses
      ensures users == [] && transactions == [] && config == None && writes == []
    {
      this.licenses := licenses;
      users := [];
      transactions := [];
      config := None;
      writes := [];
    }

    /** `UserModel.create(...)`: the new document goes after the stored ones and the write is journaled. */
    method InsertUser(u: User)
      requires Valid() && WellFormedUser(u)
      requires forall j :: 0 <= j < |users| ==> users[j].id != u.id && users[j].email != u.email
      modifies this
      ensures Valid()
      ensures users == old(users) + [u] && writes == old(writes) + [UserCreated(u)]
      ensures licenses == old(licenses) && transactions == old(transactions) && config == old(config)
    {
      AppendKeepsValid(users, u);
      users := users + [u];
      writes := writes + [UserCreated(u)];
    }

    /** `user.save()` on the stored user at `i`: the document is replaced in place and the write is journaled. */
    method SaveUser(i: nat, u: User)
      requires Valid() && i < |users| && WellFormedUser(u)
      requires u.id == users[i].id && u.email == users[i].email
      modifies this
      ensures Valid()
      ensures users == old(users)[i := u] && writes == old(writes) + [UserSaved(u)]
      ensures licenses == old(licenses) && transactions == old(transactions) && config == old(config)
    {
      SaveKeepsValid(users, i, u);
      users := users[i := u];
      writes := writes + [UserSaved(u)];
    }
  }

  /** The unique indexes on users and the schema rules every stored user satisfies. */
  predicate ValidUsers(users: seq<User>) {
    && UniqueUserIds(users)
    && UniqueEmails(users)
    && (forall i :: 0 <= i < |users| ==> WellFormedUser(users[i]))
  }

  /** `UserModel.findById(id)`: the position of the user with that id. */
  function FindUserById(users: seq<User>, id: Id): (r: Option<nat>)
    ensures r.Some? ==> r.value < |users| && users[r.value].id == id
    ensures r.Some? ==> forall j :: 0 <= j < r.value ==> users[j].id != id
    ensures r.None? ==> forall j :: 0 <= j < |users| ==> users[j].id != id
  {
    if users == [] then None
    else if users[0].id == id then Some(0)
    else
      var rest := FindUserById(users[1..], id);
      if rest.None? then None else Some(rest.value + 1)
  }

  /** The position of the license with that id (the `$lookup` on `licenseId`). */
  function FindLicenseById(licenses: seq<License>, id: Id): (r: Option<nat>)
    ensures r.Some? ==> r.value < |licenses| && licenses[r.value].id == id
    ensures r.None? ==> forall j :: 0 <= j < |licenses| ==> licenses[j].id != id
  {
    if licenses == [] then None
    else if licenses[0].id == id then Some(0)
    else
      var rest := FindLicenseById(licenses[1..], id);
      if rest.None? then None else Some(rest.value + 1)
  }

  /**
   * `UserModel.findOne({ email })`: the `lowercase` setter also applies to the
   * query value, so the lookup is by the lower-cased address.
   */
  function FindUserByEmail(users: seq<User>, email: string): (r: Option<nat>)
    ensures r.Some? ==> r.value < |users| && users[r.value].email == Lower(email)
    ensures r.Some? ==> forall j :: 0 <= j < r.value ==> users[j].email != Lower(email)
    ensures r.None? ==> forall j :: 0 <= j < |users| ==> users[j].email != Lower(email)
  {
    if users == [] then None
    else if users[0].email == Lower(email) then Some(0)
    else
      var rest := FindUserByEmail(users[1..], email);
      if rest.None? then None else Some(rest.value + 1)
  }

  /**
   * `UserModel.findOne({ email })` on a request field that may be absent: an
   * undefined `email` leaves the filter empty, which matches the first stored
   * user (or none in an empty collection).
   */
  function EmailQuery(users: seq<User>, email: Option<string>): (r: Option<nat>)
    ensures email.None? ==> (r.Some? <==> users != []) && (r.Some? ==> r.value == 0)
    ensures email.Some? ==> r == FindUserByEmail(users, email.value)
  {
    if email.None? then (if users == [] then None else Some(0))
    else FindUserByEmail(users, email.value)
  }

  /** `LicenseModel.findOne({ slug })`, the query value lower-cased like the stored slugs. */
  function FindLicenseBySlug(licenses: seq<License>, slug: string): (r: Option<nat>)
    ensures r.Some? ==> r.value < |licenses| && licenses[r.value].slug == Lower(slug)
    ensures r.None? ==> forall j :: 0 <= j < |licenses| ==> licenses[j].slug != Lower(slug)
  {
    if licenses == [] then None
    else if licenses[0].slug == Lower(slug) then Some(0)
    else
      var rest := FindLicenseBySlug(licenses[1..], slug);
      if rest.None? then None else Some(rest.value + 1)
  }

  /** Saving a well-formed user in place keeps the users valid when id and email are unchanged. */
  lemma SaveKeepsValid(users: seq<User>, i: nat, u: User)
    requires i < |users| && ValidUsers(users) && WellFormedUser(u)
    requires u.id == users[i].id && u.email == users[i].email
    ensures ValidUsers(users[i := u])
  {
  }

  /** Appending a well-formed user with a fresh id and an unused address keeps the users valid. */
  lemma AppendKeepsValid(users: seq<User>, u: User)
    requires ValidUsers(users) && WellFormedUser(u)
    requires forall j :: 0 <= j < |users| ==> users[j].id != u.id && users[j].email != u.email
    ensures ValidUsers(users + [u])
  {
    var all := users + [u];
    assert forall j :: 0 <= j < |users| ==> all[j] == users[j];
  }
}

=== FILE: http.dfy ===
/**
 * What the request handlers see of HTTP: the `Authorization` header, the
 * verified token payload, and the two ways a handler ends (a JSON reply with a
 * status, or handing the request on with `next()`).
 */
module Http {
  import opened Wrappers
  import opened Text

  /** A middleware either passes the request on or answers with an error status. */
  datatype Decision = Next | Reject(status: nat, message: string)

  /** A handler's answer: a body with status 200 (or 201), or an error status and message. */
  datatype Reply<T> = Ok(body: T) | Error(status: nat, message: string)

  /**
   * The payload of a verified token, as far as the handlers read it: the `id`
   * and `role` claims, either of which may be absent.
   */
  datatype Claims = Claims(id: Option<string>, role: Option<string>)

  /** Token verification (signature and expiry) is opaque: it yields the payload or fails. */
  type Verifier = string -> Option<Claims>

  /** The text of `s` up to its first space. */
  function UpToSpace(s: string): (r: string)
    ensures |r| <= |s| && r == s[..|r|]
    ensures ' ' !in r
    ensures |r| < |s| ==> s[|r|] == ' '
  {
    if s == [] || s[0] == ' ' then [] else [s[0]] + UpToSpace(s[1..])
  }

  const BearerPrefix: string := "Bearer "

  /** A header passes the guard `auth && auth.startsWith("Bearer ")`. */
  predicate IsBearer(header: Option<string>) {
    header.Some? && StartsWith(header.value, BearerPrefix)
  }

  /**
   * `auth.split(" ")[1]` on a header that starts with "Bearer ": the field
   * between the first and the second space.
   */
  function BearerToken(header: string): (token: string)
    requires StartsWith(header, BearerPrefix)
    ensures ' ' !in token
    ensures |BearerPrefix| + |token| <= |header|
    ensures header == BearerPrefix + token + header[|BearerPrefix| + |token|..]
  {
    UpToSpace(header[|BearerPrefix|..])
  }

  /** A bearer header whose token is followed by nothing yields exactly that token. */
  lemma BearerTokenOfHeader(token: string)
    requires ' ' !in token
    ensures StartsWith(BearerPrefix + token, BearerPrefix)
    ensures BearerToken(BearerPrefix + token) == token
  {
    var h := BearerPrefix + token;
    assert h[..|BearerPrefix|] == BearerPrefix;
    assert h[|BearerPrefix|..] == token;
    UpToSpaceOfSpaceless(token);
  }

  lemma {:induction false} UpToSpaceOfSpaceless(s: string)
    requires ' ' !in s
    ensures UpToSpace(s) == s
  {
    if s != [] {
      assert s[0] in s;
      assert forall c :: c in s[1..] ==> c in s;
      UpToSpaceOfSpaceless(s[1..]);
    }
  }

  /** `req.user?.id` as the guards `!userId` read it: absent and "" are both falsy. */
  function UserIdOf(user: Option<Claims>): string {
    if user.Some? && user.value.id.Some? then user.value.id.value else ""
  }

  function RoleOf(user: Option<Claims>): Option<string> {
    if user.Some? then user.value.role else None
  }
}

=== FILE: image_processor.dfy ===
/**
 * Image validation and naming (apps/backend/src/utils/imageProcessor.ts) and
 * the upload configurations (apps/backend/src/config/storage.ts). The `sharp`
 * pipeline is the parameter `encode`, which maps the input bytes, the resize
 * mode and the quality to the output bytes; the uuid and today's date are
 * parameters too.
 */
module ImageProcessor {
  import opened Wrappers

  type Bytes = seq<bv8>

  const MaxImageSize: int := 10 * 1024 * 1024

  const AllowedTypes: seq<string> := ["image/jpeg", "image/jpg", "image/png", "image/webp"]

  const InvalidTypeMessage := "Invalid file type. Only JPEG, PNG, and WebP are allowed."
  const TooLargeMessage := "File too large. Maximum size is 10MB."

  /** `{ valid, error? }`. */
  datatype Validation = Validation(valid: bool, error: Option<string>)

  /** `validateImage`: the type is checked first, then the size against 10 MiB. */
  function ValidateImage(mimetype: string, size: int): (v: Validation)
    ensures v.valid <==> mimetype in AllowedTypes && size <= MaxImageSize
    ensures v.valid <==> v.error == None
    ensures mimetype !in AllowedTypes ==> v.error == Some(InvalidTypeMessage)
    ensures mimetype in AllowedTypes && size > MaxImageSize ==> v.error == Some(TooLargeMessage)
  {
    if mimetype !in AllowedTypes then Validation(false, Some(InvalidTypeMessage))
    else if size > MaxImageSize then Validation(false, Some(TooLargeMessage))
    else Validation(true, None)
  }

  /** A file of exactly 10 MiB passes; one byte more does not. */
  lemma SizeBoundary(mimetype: string)
    requires mimetype in AllowedTypes
    ensures ValidateImage(mimetype, MaxImageSize).valid
    ensures ValidateImage(mimetype, MaxImageSize + 1) == Validation(false, Some(TooLargeMessage))
  {
  }

  /** The keys of `UPLOAD_CONFIG`. */
  datatype UploadType = CourseCover | ChapterCover | CoursePhoto | LessonImage | ProfilePhoto

  datatype Thumb = Thumb(width: int, height: int, suffix: string)

  /** One entry of `UPLOAD_CONFIG`; `height` is `None` where the configuration has `null`. */
  datatype UploadConfig = UploadConfig(
    width: int, height: Option<int>, quality: nat, format: string, folder: string, thumbnails: seq<Thumb>)

  function ConfigOf(t: UploadType): UploadConfig {
    match t
    case CourseCover => UploadConfig(800, Some(450), 81, "webp", "courses/covers", [])
    case ChapterCover => UploadConfig(800, Some(400), 81, "webp", "chapters/covers", [])
    case CoursePhoto => UploadConfig(1200, Some(800), 81, "webp", "courses/photos", [])
    case LessonImage => UploadConfig(1200, None, 81, "webp", "lessons/images", [])
    case ProfilePhoto =>
      UploadConfig(400, Some(400), 85, "webp", "users/profiles",
                   [Thumb(64, 64, "_64"), Thumb(128, 128, "_128"), Thumb(200, 200, "_200")])
  }

  /** How `sharp` is asked to resize. */
  datatype ResizeMode = Cover(width: int, height: int) | InsideWithoutEnlargement(width: int) | Unresized

  /** A JavaScript number is truthy unless it is 0 (or `null`). */
  predicate Truthy(n: Option<int>) {
    n.Some? && n.value != 0
  }

  /** The resize branch of `processMainImage`. */
  function SelectResize(width: int, height: Option<int>): (m: ResizeMode)
    ensures m.Cover? <==> width != 0 && Truthy(height)
    ensures m.InsideWithoutEnlargement? <==> width != 0 && !Truthy(height)
    ensures m.Unresized? <==> width == 0
    ensures m.Cover? ==> m == Cover(width, height.value)
    ensures m.InsideWithoutEnlargement? ==> m.width == width
  {
    if width != 0 && Truthy(height) then Cover(width, height.value)
    else if width != 0 && !Truthy(height) then InsideWithoutEnlargement(width)
    else Unresized
  }

  /** Every upload type is cropped to its exact size except lesson images, which keep their aspect ratio. */
  lemma ResizeOfEachType(t: UploadType)
    ensures SelectResize(ConfigOf(t).width, ConfigOf(t).height).Cover? <==> t != LessonImage
    ensures t == LessonImage ==> SelectResize(ConfigOf(t).width, ConfigOf(t).height) == InsideWithoutEnlargement(1200)
  {
  }

  /** `{ buffer, filename, mimeType, size }`. */
  datatype ProcessedImage = ProcessedImage(buffer: Bytes, filename: string, mimeType: string, size: nat)

  /** The file `fileId + suffix + "." + format` holding `buffer`. */
  function ImageFile(buffer: Bytes, fileId: string, suffix: string, format: string): (p: ProcessedImage)
    ensures p.size == |p.buffer| && p.buffer == buffer
    ensures p.mimeType == "image/" + format
    ensures |p.filename| == |fileId| + |suffix| + 1 + |format|
    ensures p.filename[..|fileId|] == fileId && p.filename[|fileId|..|fileId| + |suffix|] == suffix
    ensures p.filename[|fileId| + |suffix|..] == "." + format
  {
    var name := fileId + suffix + "." + format;
    assert name[..|fileId|] == fileId && name[|fileId|..|fileId| + |suffix|] == suffix;
    assert name[|fileId| + |suffix|..] == "." + format;
    ProcessedImage(buffer, name, "image/" + format, |buffer|)
  }

  /** `processMainImage`. */
  function MainImage(input: Bytes, t: UploadType, fileId: string, encode: (Bytes, ResizeMode, nat) -> Bytes): ProcessedImage {
    var c := ConfigOf(t);
    ImageFile(encode(input, SelectResize(c.width, c.height), c.quality), fileId, "", c.format)
  }

  /** `processThumbnail`: always a cover crop to the thumbnail's size. */
  function ThumbnailImage(input: Bytes, t: UploadType, th: Thumb, fileId: string, encode: (Bytes, ResizeMode, nat) -> Bytes): ProcessedImage {
    var c := ConfigOf(t);
    ImageFile(encode(input, Cover(th.width, th.height), c.quality), fileId, th.suffix, c.format)
  }

  /** The suffix of the i-th result: none for the main image, then the thumbnails' own. */
  function SuffixAt(t: UploadType, i: nat): string
    requires i <= |ConfigOf(t).thumbnails|
  {
    if i == 0 then "" else ConfigOf(t).thumbnails[i - 1].suffix
  }

  /** What `processImage` returns: the main image, then one image per thumbnail in configuration order. */
  function ProcessedImages(input: Bytes, t: UploadType, fileId: string, encode: (Bytes, ResizeMode, nat) -> Bytes): (r: seq<ProcessedImage>)
    ensures |r| == 1 + |ConfigOf(t).thumbnails|
    ensures r[0] == MainImage(input, t, fileId, encode)
    ensures forall i :: 0 <= i < |ConfigOf(t).thumbnails| ==> r[i + 1] == ThumbnailImage(input, t, ConfigOf(t).thumbnails[i], fileId, encode)
    ensures forall i :: 0 <= i < |r| ==> r[i].mimeType == "image/" + ConfigOf(t).format && r[i].size == |r[i].buffer|
  {
    var ths := ConfigOf(t).thumbnails;
    [MainImage(input, t, fileId, encode)]
      + seq(|ths|, i requires 0 <= i < |ths| => ThumbnailImage(input, t, ths[i], fileId, encode))
  }

  /** `processImage`, pushing into `results` as the source does. */
  method ProcessImage(input: Bytes, t: UploadType, fileId: string, encode: (Bytes, ResizeMode, nat) -> Bytes) returns (results: seq<ProcessedImage>)
    ensures results == ProcessedImages(input, t, fileId, encode)
  {
    var ths := ConfigOf(t).thumbnails;
    var thumbs := ThumbnailImages(input, t, ths, fileId, encode);
    results := [MainImage(input, t, fileId, encode)] + thumbs;
    ghost var spec := ProcessedImages(input, t, fileId, encode);
    forall k | 1 <= k < |spec| ensures results[k] == spec[k] {
      assert results[k] == thumbs[k - 1];
      assert spec[(k - 1) + 1] == ThumbnailImage(input, t, ths[k - 1], fileId, encode);
    }
    assert results[0] == spec[0];
  }

  /** The `for (const thumbConfig of config.thumbnails)` loop: one thumbnail per entry, in order. */
  method ThumbnailImages(input: Bytes, t: UploadType, ths: seq<Thumb>, fileId: string, encode: (Bytes, ResizeMode, nat) -> Bytes)
    returns (rs: seq<ProcessedImage>)
    ensures |rs| == |ths|
    ensures forall k :: 0 <= k < |ths| ==> rs[k] == ThumbnailImage(input, t, ths[k], fileId, encode)
  {
    rs := [];
    for i := 0 to |ths|
      invariant |rs| == i
      invariant forall k :: 0 <= k < i ==> rs[k] == ThumbnailImage(input, t, ths[k], fileId, encode)
    {
      rs := rs + [ThumbnailImage(input, t, ths[i], fileId, encode)];
    }
  }

  /** The suffixes of one upload type are pairwise different. */
  lemma SuffixesDistinct(t: UploadType, i: nat, j: nat)
    requires i < j <= |ConfigOf(t).thumbnails|
    ensures SuffixAt(t, i) != SuffixAt(t, j)
  {
    var a := SuffixAt(t, i);
    var b := SuffixAt(t, j);
    assert t == ProfilePhoto;
    if i == 0 {
      assert |a| == 0 && |b| > 0;
    } else if j == 3 {
      assert b[1] == '2';
      assert a[1] != '2';
    } else {
      assert i == 1 && j == 2;
      assert |a| == 3 && |b| == 4;
    }
  }

  /** Two names built from the same file id and format are equal only when their suffixes are. */
  lemma SuffixDetermines(fileId: string, a: string, b: string, format: string)
    requires fileId + a + "." + format == fileId + b + "." + format
    ensures a == b
  {
    var n := fileId + a + "." + format;
    assert |a| == |b|;
    assert n[|fileId|..|fileId| + |a|] == a;
    assert (fileId + b + "." + format)[|fileId|..|fileId| + |b|] == b;
  }

  /** No two images of one `processImage` call share a file name, so no upload overwrites another. */
  lemma FilenamesDistinct(input: Bytes, t: UploadType, fileId: string, encode: (Bytes, ResizeMode, nat) -> Bytes)
    ensures var r := ProcessedImages(input, t, fileId, encode);
      forall i, j :: 0 <= i < j < |r| ==> r[i].filename != r[j].filename
  {
    var r := ProcessedImages(input, t, fileId, encode);
    var c := ConfigOf(t);
    forall i, j | 0 <= i < j < |r| ensures r[i].filename != r[j].filename {
      assert r[i].filename == fileId + SuffixAt(t, i) + "." + c.format;
      assert r[j].filename == fileId + SuffixAt(t, j) + "." + c.format;
      SuffixesDistinct(t, i, j);
      if r[i].filename == r[j].filename {
        SuffixDetermines(fileId, SuffixAt(t, i), SuffixAt(t, j), c.format);
      }
    }
  }

  /** `generateFilePath`: `folder/YYYY-MM-DD/filename`, `date` being the date part of the current ISO time. */
  function GenerateFilePath(t: UploadType, date: string, filename: string): (p: string)
    ensures |p| == |ConfigOf(t).folder| + |date| + |filename| + 2
    ensures p[..|ConfigOf(t).folder| + 1] == ConfigOf(t).folder + "/"
    ensures p[|ConfigOf(t).folder| + 1..|ConfigOf(t).folder| + 1 + |date|] == date
    ensures p[|ConfigOf(t).folder| + 1 + |date|] == '/'
    ensures p[|p| - |filename|..] == filename
  {
    var p := ConfigOf(t).folder + "/" + date + "/" + filename;
    assert p[..|ConfigOf(t).folder| + 1] == ConfigOf(t).folder + "/";
    assert p[|ConfigOf(t).folder| + 1..|ConfigOf(t).folder| + 1 + |date|] == date;
    assert p[|p| - |filename|..] == filename;
    p
  }

  /** Within one folder and day, the path determines the file name. */
  lemma FilePathInjective(t: UploadType, date: string, f1: string, f2: string)
    requires GenerateFilePath(t, date, f1) == GenerateFilePath(t, date, f2)
    ensures f1 == f2
  {
    var p := GenerateFilePath(t, date, f1);
    assert |f1| == |f2|;
    assert p[|p| - |f1|..] == f1;
    assert GenerateFilePath(t, date, f2)[|p| - |f2|..] == f2;
  }
}

=== FILE: image_upload.dfy ===
/**
 * The image upload widget (apps/frontend/src/components/ImageUpload.tsx): the
 * checks `handleFiles` makes before anything is sent, the request it builds,
 * how a response becomes the callbacks' arguments, and the crop editor's
 * state. The component's state is the fields of `Widget`; the two callbacks
 * are recorded as the sequences of their arguments. Object URLs are given by
 * the parameter `objectUrl`; progress percentages are not modelled.
 */
module ImageUploadWidget {
  import opened Wrappers
  import opened Text

  /** The `type` prop. */
  datatype WidgetType = CourseCoverWidget | ChapterCoverWidget | CoursePhotosWidget | LessonImageWidget | ProfilePhotoWidget

  function TypeName(t: WidgetType): string {
    match t
    case CourseCoverWidget => "course-cover"
    case ChapterCoverWidget => "chapter-cover"
    case CoursePhotosWidget => "course-photos"
    case LessonImageWidget => "lesson-image"
    case ProfilePhotoWidget => "profile-photo"
  }

  /** A browser `File`: its name, type and size. */
  datatype BrowserFile = BrowserFile(name: string, mimetype: string, size: int)

  const ValidTypes: seq<string> := ["image/jpeg", "image/jpg", "image/png", "image/webp"]
  const MaxSize: int := 10 * 1024 * 1024

  /** The complaint about one file, type first, then size. */
  function FileProblem(f: BrowserFile): (p: Option<string>)
    ensures p.None? <==> f.mimetype in ValidTypes && f.size <= MaxSize
    ensures f.mimetype !in ValidTypes ==> p == Some("Invalid file type: " + f.name + ". Only JPEG, PNG, and WebP are allowed.")
  {
    if f.mimetype !in ValidTypes then Some("Invalid file type: " + f.name + ". Only JPEG, PNG, and WebP are allowed.")
    else if f.size > MaxSize then Some("File too large: " + f.name + ". Maximum size is 10MB.")
    else None
  }

  /** The position of the first file with a complaint. */
  function FirstProblemIndex(files: seq<BrowserFile>): (r: Option<nat>)
    ensures r.None? <==> forall i :: 0 <= i < |files| ==> FileProblem(files[i]).None?
    ensures r.Some? ==> r.value < |files| && FileProblem(files[r.value]).Some?
    ensures r.Some? ==> forall k :: 0 <= k < r.value ==> FileProblem(files[k]).None?
  {
    if files == [] then None
    else if FileProblem(files[0]).Some? then Some(0)
    else
      var rest := FirstProblemIndex(files[1..]);
      assert forall i :: 1 <= i < |files| ==> files[i] == files[1..][i - 1];
      if rest.None? then None else Some(rest.value + 1)
  }

  /** The complaint about the first file that has one. */
  function FirstProblem(files: seq<BrowserFile>): Option<string> {
    match FirstProblemIndex(files)
    case None => None
    case Some(i) => FileProblem(files[i])
  }

  /** A multipart form: its fields in append order. */
  datatype UploadRequest = UploadRequest(endpoint: string, fields: seq<(string, BrowserFile)>)

  /** What `handleFiles` does with a selection. */
  datatype FilesDecision = Ignore | Reject(error: string) | OpenCrop(tempUrl: string) | Send(request: UploadRequest)

  /** `multiple` appends every file as "images"; otherwise only the first, as "image". */
  function FormFields(files: seq<BrowserFile>, multiple: bool): (fields: seq<(string, BrowserFile)>)
    requires files != []
    ensures multiple ==> |fields| == |files| && forall i :: 0 <= i < |files| ==> fields[i] == ("images", files[i])
    ensures !multiple ==> fields == [("image", files[0])]
  {
    if multiple then seq(|files|, i requires 0 <= i < |files| => ("images", files[i])) else [("image", files[0])]
  }

  function MaxFilesError(maxFiles: nat): string {
    "Maximum " + NatToString(maxFiles) + " file(s) allowed"
  }

  /** The decision `handleFiles` reaches. */
  function Decide(t: WidgetType, multiple: bool, maxFiles: nat, files: seq<BrowserFile>, objectUrl: BrowserFile -> string): (d: FilesDecision)
    ensures d.Ignore? <==> files == []
    ensures files != [] && |files| > maxFiles ==> d == Reject(MaxFilesError(maxFiles))
    ensures d.OpenCrop? ==> t == CourseCoverWidget && !multiple && d.tempUrl == objectUrl(files[0])
    ensures d.Send? <==>
      files != [] && |files| <= maxFiles && FirstProblem(files).None? && !(t == CourseCoverWidget && !multiple)
    ensures d.Send? ==> d.request == UploadRequest("/upload/" + TypeName(t), FormFields(files, multiple))
    ensures d.Reject? && |files| <= maxFiles ==> Some(d.error) == FirstProblem(files)
  {
    if |files| == 0 then Ignore
    else if |files| > maxFiles then Reject(MaxFilesError(maxFiles))
    else if FirstProblem(files).Some? then Reject(FirstProblem(files).value)
    else if t == CourseCoverWidget && !multiple then OpenCrop(objectUrl(files[0]))
    else Send(UploadRequest("/upload/" + TypeName(t), FormFields(files, multiple)))
  }

  /** The `data` of a reply from the upload endpoint, or an HTTP failure. */
  datatype ApiResponse =
    | Answered(success: bool, urls: Option<seq<string>>, url: string, thumbnails: Option<map<string, string>>, error: Option<string>)
    | HttpFailure(dataError: Option<string>, message: string)

  /** `Array.isArray(urls) ? urls : [url]`. */
  function NormaliseUrls(urls: Option<seq<string>>, url: string): (r: seq<string>)
    ensures urls.Some? ==> r == urls.value
    ensures urls.None? ==> r == [url]
  {
    if urls.Some? then urls.value else [url]
  }

  /** `a || b` on optional strings: the empty string is falsy. */
  function OrElse(a: Option<string>, b: string): string {
    if a.Some? && a.value != "" then a.value else b
  }

  /** The message of a failed upload: the server's error, the exception's message, or "Upload failed". */
  function FailureMessage(r: ApiResponse): (m: string)
    requires !(r.Answered? && r.success)
    ensures m != ""
  {
    match r
    case Answered(_, _, _, _, error) => OrElse(error, "Upload failed")
    case HttpFailure(dataError, message) => OrElse(dataError, OrElse(Some(message), "Upload failed"))
  }

  class Widget {
    const kind: WidgetType
    const multiple: bool
    const maxFiles: nat
    var uploading: bool
    var progress: int
    var error: Option<string>
    var showCropEditor: bool
    var tempImageUrl: Option<string>
    /** The arguments of every `onUploadError` call, in order: the optional prop is taken as supplied, so every failure is reported here. */
    var reportedErrors: seq<string>
    /** The arguments of every `onUploadSuccess` call, in order. */
    var delivered: seq<(seq<string>, Option<map<string, string>>)>
    /** Every object URL revoked, in order. */
    var revoked: seq<string>

    /** The initial state, with the props' defaults `multiple = false` and `maxFiles = 1` left to the caller. */
    constructor (kind: WidgetType, multiple: bool, maxFiles: nat)
      ensures this.kind == kind && this.multiple == multiple && this.maxFiles == maxFiles
      ensures !uploading && progress == 0 && error == None
      ensures !showCropEditor && tempImageUrl == None
      ensures reportedErrors == [] && delivered == [] && revoked == []
    {
      this.kind := kind;
      this.multiple := multiple;
      this.maxFiles := maxFiles;
      uploading := false;
      progress := 0;
      error := None;
      showCropEditor := false;
      tempImageUrl := None;
      reportedErrors := [];
      delivered := [];
      revoked := [];
    }

    /** The crop editor is closed exactly when it holds no temporary URL. */
    ghost predicate CropConsistent()
      reads this
    {
      showCropEditor <==> tempImageUrl.Some?
    }

    /** `setUploadProgress({ uploading: false, progress: 0, error })` followed by `onUploadError?.(error)`. */
    method Fail(message: string)
      modifies this
      ensures !uploading && progress == 0 && error == Some(message)
      ensures reportedErrors == old(reportedErrors) + [message]
      ensures showCropEditor == old(showCropEditor) && tempImageUrl == old(tempImageUrl)
      ensures delivered == old(delivered) && revoked == old(revoked)
    {
      uploading, progress, error := false, 0, Some(message);
      reportedErrors := reportedErrors + [message];
    }

    /** `handleFiles`: returns the request it sends, if it sends one. */
    method HandleFiles(files: seq<BrowserFile>, objectUrl: BrowserFile -> string) returns (sent: Option<UploadRequest>)
      modifies this
      ensures var d := Decide(kind, multiple, maxFiles, files, objectUrl);
        && (d.Send? <==> sent.Some?)
        && (d.Send? ==> sent.value == d.request && uploading && progress == 0 && error == None)
        && (d.Ignore? ==> unchanged(this))
        && (d.Reject? ==> !uploading && progress == 0 && error == Some(d.error) && reportedErrors == old(reportedErrors) + [d.error])
        && (d.OpenCrop? ==> showCropEditor && tempImageUrl == Some(d.tempUrl))
        && (!d.OpenCrop? ==> showCropEditor == old(showCropEditor) && tempImageUrl == old(tempImageUrl))
        && (!d.Reject? ==> reportedErrors == old(reportedErrors))
        && (d.OpenCrop? ==> uploading == old(uploading) && progress == old(progress) && error == old(error))
      ensures delivered == old(delivered) && revoked == old(revoked)
    {
      if |files| == 0 {
        return None;
      }
      if |files| > maxFiles {
        Fail(MaxFilesError(maxFiles));
        return None;
      }
      for i := 0 to |files|
        invariant forall k :: 0 <= k < i ==> FileProblem(files[k]).None?
        invariant unchanged(this)
      {
        var f := files[i];
        if f.mimetype !in ValidTypes {
          var message := "Invalid file type: " + f.name + ". Only JPEG, PNG, and WebP are allowed.";
          FirstProblemAt(files, i);
          Fail(message);
          return None;
        }
        if f.size > MaxSize {
          var message := "File too large: " + f.name + ". Maximum size is 10MB.";
          FirstProblemAt(files, i);
          Fail(message);
          return None;
        }
      }
      if kind == CourseCoverWidget && !multiple {
        showCropEditor, tempImageUrl := true, Some(objectUrl(files[0]));
        return None;
      }
      uploading, progress, error := true, 0, None;
      var fields: seq<(string, BrowserFile)>;
      if multiple {
        fields := seq(|files|, i requires 0 <= i < |files| => ("images", files[i]));
      } else {
        fields := [("image", files[0])];
      }
      sent := Some(UploadRequest("/upload/" + TypeName(kind), fields));
    }

    /** `handleDrop`: nothing happens while an upload is in flight. */
    method HandleDrop(files: seq<BrowserFile>, objectUrl: BrowserFile -> string) returns (sent: Option<UploadRequest>)
      modifies this
      ensures old(uploading) ==> sent == None && unchanged(this)
      ensures !old(uploading) ==>
        var d := Decide(kind, multiple, maxFiles, files, objectUrl);
        && (d.Send? <==> sent.Some?)
        && (d.Send? ==> sent.value == d.request && uploading && progress == 0 && error == None)
        && (d.Ignore? ==> unchanged(this))
        && (d.Reject? ==> !uploading && progress == 0 && error == Some(d.error) && reportedErrors == old(reportedErrors) + [d.error])
        && (d.OpenCrop? ==> showCropEditor && tempImageUrl == Some(d.tempUrl))
        && (!d.OpenCrop? ==> showCropEditor == old(showCropEditor) && tempImageUrl == old(tempImageUrl))
        && (!d.Reject? ==> reportedErrors == old(reportedErrors))
        && (d.OpenCrop? ==> uploading == old(uploading) && progress == old(progress) && error == old(error))
      ensures delivered == old(delivered) && revoked == old(revoked)
    {
      if uploading {
        return None;
      }
      sent := HandleFiles(files, objectUrl);
    }

    /** The `try`/`catch` after the request: deliver the normalised urls, or report the failure. */
    method Settle(r: ApiResponse)
      modifies this
      ensures !uploading
      ensures r.Answered? && r.success ==>
        && progress == 100 && error == None
        && delivered == old(delivered) + [(NormaliseUrls(r.urls, r.url), r.thumbnails)]
        && reportedErrors == old(reportedErrors)
      ensures !(r.Answered? && r.success) ==>
        && progress == 0 && error == Some(FailureMessage(r))
        && reportedErrors == old(reportedErrors) + [FailureMessage(r)]
        && delivered == old(delivered)
      ensures showCropEditor == old(showCropEditor) && tempImageUrl == old(tempImageUrl) && revoked == old(revoked)
    {
      if r.Answered? && r.success {
        uploading, progress, error := false, 100, None;
        delivered := delivered + [(NormaliseUrls(r.urls, r.url), r.thumbnails)];
      } else {
        Fail(FailureMessage(r));
      }
    }

    /** `handleCropSave`: the cropped blob is sent as "image"; `finally` closes the editor. */
    method CropSave(blob: BrowserFile, r: ApiResponse) returns (sent: UploadRequest)
      modifies this
      ensures sent == UploadRequest("/upload/" + TypeName(kind), [("image", blob)])
      ensures !showCropEditor && tempImageUrl == None && CropConsistent()
      ensures revoked == old(revoked) + (if old(tempImageUrl).Some? && old(tempImageUrl).value != "" then [old(tempImageUrl).value] else [])
      ensures !uploading
      ensures r.Answered? && r.success ==>
        && progress == 100 && error == None
        && delivered == old(delivered) + [(NormaliseUrls(r.urls, r.url), r.thumbnails)]
        && reportedErrors == old(reportedErrors)
      ensures !(r.Answered? && r.success) ==>
        && progress == 0 && error == Some(FailureMessage(r))
        && reportedErrors == old(reportedErrors) + [FailureMessage(r)]
        && delivered == old(delivered)
    {
      uploading, progress, error := true, 0, None;
      sent := UploadRequest("/upload/" + TypeName(kind), [("image", blob)]);
      Settle(r);
      CloseCrop();
    }

    /** `handleCropCancel`. */
    method CropCancel()
      modifies this
      ensures !showCropEditor && tempImageUrl == None && CropConsistent()
      ensures revoked == old(revoked) + (if old(tempImageUrl).Some? && old(tempImageUrl).value != "" then [old(tempImageUrl).value] else [])
      ensures uploading == old(uploading) && progress == old(progress) && error == old(error)
      ensures reportedErrors == old(reportedErrors) && delivered == old(delivered)
    {
      CloseCrop();
    }

    /** Revoke the temporary URL if there is one and close the editor. */
    method CloseCrop()
      modifies this
      ensures !showCropEditor && tempImageUrl == None
      ensures revoked == old(revoked) + (if old(tempImageUrl).Some? && old(tempImageUrl).value != "" then [old(tempImageUrl).value] else [])
      ensures uploading == old(uploading) && progress == old(progress) && error == old(error)
      ensures reportedErrors == old(reportedErrors) && delivered == old(delivered)
    {
      if tempImageUrl.Some? && tempImageUrl.value != "" {
        revoked := revoked + [tempImageUrl.value];
      }
      showCropEditor, tempImageUrl := false, None;
    }
  }

  /** When every file before `i` passes and file `i` does not, its complaint is the first one. */
  lemma {:induction false} FirstProblemAt(files: seq<BrowserFile>, i: nat)
    requires i < |files| && FileProblem(files[i]).Some?
    requires forall k :: 0 <= k < i ==> FileProblem(files[k]).None?
    ensures FirstProblemIndex(files) == Some(i)
    ensures FirstProblem(files) == FileProblem(files[i])
  {
    if i > 0 {
      assert FileProblem(files[0]).None?;
      assert forall k :: 0 <= k < i - 1 ==> files[1..][k] == files[k + 1];
      FirstProblemAt(files[1..], i - 1);
    }
  }

  /** The selection checks never open the crop editor for anything but a single course cover. */
  lemma CropOnlyForSingleCover(t: WidgetType, multiple: bool, maxFiles: nat, files: seq<BrowserFile>, objectUrl: BrowserFile -> string)
    requires Decide(t, multiple, maxFiles, files, objectUrl).OpenCrop?
    ensures t == CourseCoverWidget && !multiple && 0 < |files| <= maxFiles
    ensures forall i :: 0 <= i < |files| ==> files[i].mimetype in ValidTypes && files[i].size <= MaxSize
  {
  }
}

=== FILE: license_controller.dfy ===
/**
 * The license endpoints (apps/backend/src/controllers/license.controller.ts):
 * listing licenses by ascending price, and assigning a license to a user,
 * which charges a paid license against the user's balance, records the debit,
 * and makes the user a tutor holding that license.
 */
module LicenseController {
  import opened Wrappers
  import opened Text
  import opened Models
  import opened Http
  import opened Database

  // ----------------------------------------------------------- listLicenses

  predicate SortedByPrice(ls: seq<License>) {
    forall i, j :: 0 <= i < j < |ls| ==> ls[i].price <= ls[j].price
  }

  /** A license no dearer than any of a sorted list can go in front of it. */
  lemma ConsSorted(x: License, ls: seq<License>)
    requires SortedByPrice(ls)
    requires forall k :: 0 <= k < |ls| ==> x.price <= ls[k].price
    ensures SortedByPrice([x] + ls)
  {
    var r := [x] + ls;
    forall i, j | 0 <= i < j < |r| ensures r[i].price <= r[j].price {
      assert r[j] == ls[j - 1];
      if i > 0 {
        assert r[i] == ls[i - 1];
      }
    }
  }

  /** A bound that holds for `l` and for every license of `ls` holds for every license of a rearrangement of both. */
  lemma BoundCarries(p: int, l: License, ls: seq<License>, t: seq<License>)
    requires p <= l.price
    requires forall k :: 0 <= k < |ls| ==> p <= ls[k].price
    requires multiset(t) == multiset(ls) + multiset{l}
    ensures forall k :: 0 <= k < |t| ==> p <= t[k].price
  {
    forall k | 0 <= k < |t| ensures p <= t[k].price {
      assert t[k] in multiset(t);
      if t[k] != l {
        assert t[k] in multiset(ls);
        var j :| 0 <= j < |ls| && ls[j] == t[k];
      }
    }
  }

  /** Inserts `l` before the first license that costs at least as much. */
  function InsertByPrice(l: License, ls: seq<License>): (r: seq<License>)
    requires SortedByPrice(ls)
    ensures SortedByPrice(r)
    ensures multiset(r) == multiset(ls) + multiset{l}
  {
    if ls == [] || l.price <= ls[0].price then
      ConsSorted(l, ls);
      [l] + ls
    else
      var rest := ls[1..];
      assert ls == [ls[0]] + rest;
      var tail := InsertByPrice(l, rest);
      BoundCarries(ls[0].price, l, rest, tail);
      ConsSorted(ls[0], tail);
      [ls[0]] + tail
  }

  /** `LicenseModel.find().sort({ price: 1 })`: the same licenses, cheapest first. */
  function ListLicenses(ls: seq<License>): (r: seq<License>)
    ensures SortedByPrice(r)
    ensures multiset(r) == multiset(ls)
    ensures |r| == |ls|
  {
    if ls == [] then []
    else
      assert ls == [ls[0]] + ls[1..];
      var r := InsertByPrice(ls[0], ListLicenses(ls[1..]));
      assert |r| == |multiset(r)|;
      r
  }

  // ---------------------------------------------------------- assignLicense

  /** The success body `{ message: "upgraded", license, user }`; the user is the fetched document, without its password. */
  datatype Upgrade = Upgrade(message: string, license: License, user: UserJson)

  /** The debit a paid license is recorded with. */
  function LicenseDebit(u: User, lic: License, now: int): (t: Transaction)
    ensures t.userId == u.id && t.txType == Debit && t.category == LicenseTx
    ensures t.amount == lic.price && t.relatedId == Some(lic.id) && t.counterpartId == None
  {
    Transaction(u.id, Debit, LicenseTx, lic.price, Some(lic.id), None, Some("Purchased " + lic.slug + " license"), now)
  }

  /**
   * `LicenseModel.findOne({ slug: licenseSlug })`: an absent `licenseSlug`
   * leaves the filter empty, which matches the first stored license.
   */
  function LicenseOf(licenses: seq<License>, slug: Option<string>): (r: Option<nat>)
    ensures r.Some? ==> r.value < |licenses|
  {
    if slug.Some? then FindLicenseBySlug(licenses, slug.value)
    else if licenses == [] then None
    else Some(0)
  }

  /** `UserModel.findById(userId)`: an absent `userId` finds nothing. */
  function UserOf(users: seq<User>, userId: Option<Id>): Option<nat> {
    if userId.Some? then FindUserById(users, userId.value) else None
  }

  /** The amount a license costs to assign: its price when positive, nothing otherwise. */
  function Charge(lic: License): int {
    if lic.price > 0 then lic.price else 0
  }

  /** `assignLicense` on the collections before the call. */
  function AssignLicenseSpec(users: seq<User>, licenses: seq<License>, userId: Option<Id>, slug: Option<string>, now: int): (o: Outcome<Upgrade>)
    ensures o.reply.Error? ==> o.users == users && o.writes == []
    ensures LicenseOf(licenses, slug).None? ==> o.reply == Error(404, "License not found")
    ensures LicenseOf(licenses, slug).Some? && UserOf(users, userId).None? ==> o.reply == Error(404, "User not found")
    ensures LicenseOf(licenses, slug).Some? && UserOf(users, userId).Some? ==>
      var lic := licenses[LicenseOf(licenses, slug).value];
      var u := users[UserOf(users, userId).value];
      (o.reply.Ok? <==> lic.price <= 0 || u.balance >= lic.price)
      && (o.reply.Error? ==> o.reply == Error(400, "Insufficient balance"))
    ensures o.reply.Ok? ==>
      && LicenseOf(licenses, slug).Some? && UserOf(users, userId).Some?
      && var i := UserOf(users, userId).value;
         var lic := o.reply.body.license;
         var u := users[i].(balance := users[i].balance - Charge(lic), role := Tutor, licenseId := Some(lic.id));
         && o.reply.body.message == "upgraded"
         && lic == licenses[LicenseOf(licenses, slug).value]
         && o.reply.body.user == Sent(u, false)
         && o.users == users[i := u]
         && (lic.price > 0 ==> u.balance >= 0 && o.writes == [TxCreated(LicenseDebit(users[i], lic, now)), UserSaved(u)])
         && (lic.price <= 0 ==> o.writes == [UserSaved(u)])
  {
    var li := LicenseOf(licenses, slug);
    if li.None? then Outcome(Error(404, "License not found"), users, [])
    else
      var lic := licenses[li.value];
      var ui := UserOf(users, userId);
      if ui.None? then Outcome(Error(404, "User not found"), users, [])
      else
        var u := users[ui.value];
        if lic.price > 0 && u.balance < lic.price then Outcome(Error(400, "Insufficient balance"), users, [])
        else
          var upgraded := u.(balance := u.balance - Charge(lic), role := Tutor, licenseId := Some(lic.id));
          var debit := if lic.price > 0 then [TxCreated(LicenseDebit(u, lic, now))] else [];
          Outcome(Ok(Upgrade("upgraded", lic, Sent(upgraded, false))), users[ui.value := upgraded], debit + [UserSaved(upgraded)])
  }

  /** An assignment keeps every stored user well formed and the unique indexes intact. */
  lemma AssignKeepsUsersValid(users: seq<User>, licenses: seq<License>, userId: Option<Id>, slug: Option<string>, now: int)
    requires ValidUsers(users)
    ensures ValidUsers(AssignLicenseSpec(users, licenses, userId, slug, now).users)
  {
    var o := AssignLicenseSpec(users, licenses, userId, slug, now);
    if o.reply.Ok? {
      var i := UserOf(users, userId).value;
      assert WellFormedUser(users[i]);
      SaveKeepsValid(users, i, o.users[i]);
    }
  }

  /** A body without `licenseSlug` assigns the first stored license, charging it like any other. */
  lemma AssignWithoutSlug(users: seq<User>, licenses: seq<License>, userId: Option<Id>, now: int)
    requires licenses != [] && UserOf(users, userId).Some?
    requires licenses[0].price <= users[UserOf(users, userId).value].balance
    ensures var o := AssignLicenseSpec(users, licenses, userId, None, now);
      o.reply.Ok? && o.reply.body.license == licenses[0]
  {
  }

  /** Exactly the paid assignments record a transaction, and it is the license debit. */
  lemma {:induction false} AssignRecordsOneDebit(users: seq<User>, licenses: seq<License>, userId: Option<Id>, slug: Option<string>, now: int)
    ensures var o := AssignLicenseSpec(users, licenses, userId, slug, now);
      && (o.reply.Ok? && o.reply.body.license.price > 0 ==>
            TxsOf(o.writes) == [LicenseDebit(users[UserOf(users, userId).value], o.reply.body.license, now)])
      && (o.reply.Error? || o.reply.body.license.price <= 0 ==> TxsOf(o.writes) == [])
  {
    var o := AssignLicenseSpec(users, licenses, userId, slug, now);
    if o.reply.Ok? {
      var u := o.users[UserOf(users, userId).value];
      if o.reply.body.license.price > 0 {
        var t := LicenseDebit(users[UserOf(users, userId).value], o.reply.body.license, now);
        assert o.writes == [TxCreated(t), UserSaved(u)];
        assert o.writes[1..] == [UserSaved(u)];
        assert o.writes[1..][1..] == [];
        assert TxsOf(o.writes[1..]) == [];
      } else {
        assert o.writes == [UserSaved(u)];
        assert o.writes[1..] == [];
      }
    }
  }

  /**
   * `assignLicense`: looks the license up first and the user second, charges a
   * paid license (refusing an insufficient balance), records the debit before
   * saving the user, and answers "upgraded".
   */
  method AssignLicense(db: Db, userId: Option<Id>, slug: Option<string>, now: int) returns (r: Reply<Upgrade>)
    requires db.Valid()
    modifies db
    ensures ValidUsers(db.users) && UniqueSlugs(db.licenses)
    ensures db.Valid()
    ensures var o := AssignLicenseSpec(old(db.users), old(db.licenses), userId, slug, now);
      && r == o.reply
      && db.users == o.users
      && db.writes == old(db.writes) + o.writes
      && db.transactions == old(db.transactions) + TxsOf(o.writes)
    ensures db.licenses == old(db.licenses) && db.config == old(db.config)
  {
    ghost var o := AssignLicenseSpec(db.users, db.licenses, userId, slug, now);
    ghost var users0 := db.users;
    var li := LicenseOf(db.licenses, slug);
    if li.None? {
      return Error(404, "License not found");
    }
    var lic := db.licenses[li.value];
    var ui := UserOf(db.users, userId);
    if ui.None? {
      return Error(404, "User not found");
    }
    var user := db.users[ui.value];
    ghost var debit: seq<Write> := [];
    if lic.price > 0 {
      if user.balance < lic.price {
        return Error(400, "Insufficient balance");
      }
      user := user.(balance := user.balance - lic.price);
      var tx := LicenseDebit(user, lic, now);
      db.transactions := db.transactions + [tx];
      db.writes := db.writes + [TxCreated(tx)];
      debit := [TxCreated(tx)];
    }
    user := user.(role := Tutor, licenseId := Some(lic.id));
    assert user == o.users[ui.value];
    AssignRecordsOneDebit(users0, db.licenses, userId, slug, now);
    db.SaveUser(ui.value, user);
    assert o.writes == debit + [UserSaved(user)];
    r := Ok(Upgrade("upgraded", lic, Sent(user, false)));
  }
}

=== FILE: lists.dfy ===
/** `Array.prototype.filter` on sequences, shared by the course listings. */
module Lists {

  /** The elements of `s` that satisfy `p`, in their order in `s`. */
  function Filter<T>(s: seq<T>, p: T -> bool): (r: seq<T>)
    ensures |r| <= |s|
    decreases |s|
  {
    if s == [] then [] else Filter(s[..|s| - 1], p) + (if p(s[|s| - 1]) then [s[|s| - 1]] else [])
  }

  /** An element is kept exactly when it is in `s` and satisfies `p`. */
  lemma {:induction false} FilterContains<T>(s: seq<T>, p: T -> bool, x: T)
    ensures x in Filter(s, p) <==> x in s && p(x)
    decreases |s|
  {
    if s != [] {
      var init := s[..|s| - 1];
      assert s == init + [s[|s| - 1]];
      FilterContains(init, p, x);
    }
  }

  /** Filtering keeps the order: it distributes over concatenation. */
  lemma {:induction false} FilterAppend<T>(a: seq<T>, b: seq<T>, p: T -> bool)
    ensures Filter(a + b, p) == Filter(a, p) + Filter(b, p)
    decreases |b|
  {
    if b != [] {
      var b' := b[..|b| - 1];
      assert (a + b)[..|a + b| - 1] == a + b';
      FilterAppend(a, b', p);
    } else {
      assert a + b == a;
    }
  }

  /** Two predicates that agree on every element of `s` keep the same elements. */
  lemma {:induction false} FilterAgrees<T>(s: seq<T>, p: T -> bool, q: T -> bool)
    requires forall i :: 0 <= i < |s| ==> p(s[i]) == q(s[i])
    ensures Filter(s, p) == Filter(s, q)
    decreases |s|
  {
    if s != [] {
      FilterAgrees(s[..|s| - 1], p, q);
    }
  }
}

=== FILE: local_storage.dfy ===
/**
 * The browser's `localStorage` as the two Redux slices use it: a map from
 * key to string that `setItem` and `removeItem` update in place.
 */
module LocalStorage {
  import opened Wrappers

  class Storage {
    var items: map<string, string>

    constructor (items: map<string, string>)
      ensures this.items == items
    {
      this.items := items;
    }

    /** `getItem`: `None` is JavaScript's `null`. */
    function GetItem(key: string): (r: Option<string>)
      reads this
      ensures r.Some? <==> key in items
      ensures r.Some? ==> r.value == items[key]
    {
      if key in items then Some(items[key]) else None
    }

    method SetItem(key: string, value: string)
      modifies this
      ensures items == old(items)[key := value]
    {
      items := items[key := value];
    }

    method RemoveItem(key: string)
      modifies this
      ensures items == old(items) - {key}
    {
      items := items - {key};
    }
  }
}

=== FILE: models.dfy ===
/**
 * The document schemas of the backend: users, enrollments, transactions,
 * licenses and the configuration singleton, with the defaults, setters
 * (trim, lowercase), `required` validators, enums and unique indexes that
 * the document store applies when a document is created.
 */
module Models {
  import opened Wrappers
  import opened Text

  /** Document ids (ObjectIds) in their string form. */
  type Id = string

  /** A bcrypt hash: never empty. Hashing itself is opaque to the model. */
  type Digest = s: string | s != [] witness "$"

  // ---------------------------------------------------------------- users

  datatype Role = Admin | Tutor | Student

  function RoleName(r: Role): string {
    match r
    case Admin => "admin"
    case Tutor => "tutor"
    case Student => "student"
  }

  /** The `enum` validator on `role`: only the three role names are accepted. */
  function ParseRole(s: string): (r: Option<Role>)
    ensures r.Some? <==> s == "admin" || s == "tutor" || s == "student"
    ensures r.Some? ==> RoleName(r.value) == s
  {
    if s == "admin" then Some(Admin)
    else if s == "tutor" then Some(Tutor)
    else if s == "student" then Some(Student)
    else None
  }

  lemma RoleNameRoundTrip(r: Role)
    ensures ParseRole(RoleName(r)) == Some(r)
  {
  }

  datatype User = User(
    id: Id,
    name: string,
    email: string,
    password: string,
    role: Role,
    isActive: bool,
    isDeleted: bool,
    licenseId: Option<Id>,
    authorName: Option<string>,
    bio: Option<string>,
    categories: seq<Id>,
    balance: int)

  /**
   * A user document as `res.json` sends it after `findById`: `password` is
   * declared `select: false`, so the key is present only when the handler has
   * assigned a new hash to the fetched document.
   */
  datatype UserJson = UserJson(
    id: Id,
    name: string,
    email: string,
    password: Option<string>,
    role: Role,
    isActive: bool,
    isDeleted: bool,
    licenseId: Option<Id>,
    authorName: Option<string>,
    bio: Option<string>,
    categories: seq<Id>,
    balance: int)

  /** The JSON of a fetched user; `passwordAssigned` says whether the handler set `password`. */
  function Sent(u: User, passwordAssigned: bool): (j: UserJson)
    ensures j.password.Some? <==> passwordAssigned
    ensures passwordAssigned ==> j.password == Some(u.password)
    ensures Restored(j, u.password) == u
  {
    UserJson(u.id, u.name, u.email, if passwordAssigned then Some(u.password) else None,
      u.role, u.isActive, u.isDeleted, u.licenseId, u.authorName, u.bio, u.categories, u.balance)
  }

  /** The stored record a sent document came from, given the stored hash the document leaves out. */
  function Restored(j: UserJson, storedPassword: string): User {
    User(j.id, j.name, j.email, storedPassword, j.role, j.isActive, j.isDeleted,
      j.licenseId, j.authorName, j.bio, j.categories, j.balance)
  }

  /** Two users send the same document exactly when they differ at most in the hash the document leaves out. */
  lemma SentDeterminesAllButPassword(u: User, v: User, passwordAssigned: bool)
    ensures Sent(u, passwordAssigned) == Sent(v, passwordAssigned) <==>
      (if passwordAssigned then u == v else u == v.(password := u.password))
  {
    if Sent(u, passwordAssigned) == Sent(v, passwordAssigned) {
      assert Restored(Sent(u, passwordAssigned), u.password) == Restored(Sent(v, passwordAssigned), u.password);
    }
  }

  /** The schema default of `balance`. */
  const DefaultBalance: int := 100

  /** What every stored user satisfies: the setters and `required` validators of the schema. */
  predicate WellFormedUser(u: User) {
    && u.name != [] && Trim(u.name) == u.name
    && u.email != [] && IsLowerCased(u.email)
    && u.password != []
  }

  /** Trimming twice changes nothing: a trimmed name passes the setter unchanged. */
  lemma TrimIdempotent(s: string)
    ensures Trim(Trim(s)) == Trim(s)
  {
    var t := Trim(s);
    if t != [] {
      assert TrimStart(t) == t;
      assert TrimEnd(t) == t;
    }
  }

  /**
   * `UserModel.create`: the `trim` setter on `name` and the `lowercase` setter on
   * `email` run first, then the `required` validators (which refuse the empty
   * string); every other field takes its schema default.
   */
  function CreateUser(id: Id, name: string, email: string, password: string, role: Option<Role>): (r: Result<User, string>)
    ensures r.Success? <==> Trim(name) != [] && email != [] && password != []
    ensures r.Success? ==> WellFormedUser(r.value)
    ensures r.Success? ==> r.value.id == id && r.value.password == password
    ensures r.Success? ==> r.value.email == Lower(email) && r.value.name == Trim(name)
    ensures r.Success? ==> r.value.role == role.GetOr(Student) && r.value.balance == DefaultBalance
    ensures r.Success? ==> r.value.isActive && !r.value.isDeleted && r.value.licenseId == None
  {
    var n := Trim(name);
    var e := Lower(email);
    if n == [] || e == [] || password == [] then Failure("User validation failed")
    else
      TrimIdempotent(name);
      LowerIsLowerCased(email);
      Success(User(id, n, e, password, role.GetOr(Student), true, false, None, None, None, [], DefaultBalance))
  }

  /** The unique index on `email`. */
  predicate UniqueEmails(users: seq<User>) {
    forall i, j :: 0 <= i < j < |users| ==> users[i].email != users[j].email
  }

  predicate UniqueUserIds(users: seq<User>) {
    forall i, j :: 0 <= i < j < |users| ==> users[i].id != users[j].id
  }

  // ---------------------------------------------------------- enrollments

  datatype Progress = Progress(completedLessons: seq<Id>, completed: bool)

  datatype Enrollment = Enrollment(studentId: Id, courseId: Id, progress: Progress)

  /** The unique compound index on (studentId, courseId). */
  predicate UniquePairs(es: seq<Enrollment>) {
    forall i, j :: 0 <= i < j < |es| ==>
      (es[i].studentId, es[i].courseId) != (es[j].studentId, es[j].courseId)
  }

  predicate Enrolled(es: seq<Enrollment>, studentId: Id, courseId: Id) {
    exists i :: 0 <= i < |es| && es[i].studentId == studentId && es[i].courseId == courseId
  }

  /**
   * `EnrollmentModel.create`: both references are required, progress takes its
   * defaults, and the unique index refuses a second enrollment for the same pair.
   */
  function CreateEnrollment(existing: seq<Enrollment>, studentId: Option<Id>, courseId: Option<Id>): (r: Result<seq<Enrollment>, string>)
    ensures r.Success? <==> studentId.Some? && courseId.Some? && !Enrolled(existing, studentId.value, courseId.value)
    ensures r.Success? ==> r.value == existing + [Enrollment(studentId.value, courseId.value, Progress([], false))]
    ensures r.Success? && UniquePairs(existing) ==> UniquePairs(r.value)
  {
    if studentId.None? || courseId.None? then Failure("Enrollment validation failed")
    else if exists i :: 0 <= i < |existing| && existing[i].studentId == studentId.value && existing[i].courseId == courseId.value then
      Failure("E11000 duplicate key error")
    else
      Success(existing + [Enrollment(studentId.value, courseId.value, Progress([], false))])
  }

  // --------------------------------------------------------- transactions

  datatype TxType = Credit | Debit
  datatype TxCategory = LicenseTx | CourseTx | Topup

  function CategoryName(c: TxCategory): string {
    match c
    case LicenseTx => "license"
    case CourseTx => "course"
    case Topup => "topup"
  }

  /** The `enum` validator on `category`. */
  function ParseCategory(s: string): (r: Option<TxCategory>)
    ensures r.Some? <==> s == "license" || s == "course" || s == "topup"
    ensures r.Some? ==> CategoryName(r.value) == s
  {
    if s == "license" then Some(LicenseTx)
    else if s == "course" then Some(CourseTx)
    else if s == "topup" then Some(Topup)
    else None
  }

  /** `createdAt` is the creation time stamped by the store. */
  datatype Transaction = Transaction(
    userId: Id,
    txType: TxType,
    category: TxCategory,
    amount: int,
    relatedId: Option<Id>,
    counterpartId: Option<Id>,
    description: Option<string>,
    createdAt: int)

  // ------------------------------------------------------------- licenses

  /** A `None` limit is the stored `null`: no limit. */
  datatype License = License(
    id: Id,
    name: string,
    slug: string,
    price: int,
    courseLimit: Option<int>,
    chapterLimit: Option<int>,
    lessonLimit: Option<int>)

  /**
   * `LicenseModel.create`: `slug` is lower-cased, `name` and `slug` are required,
   * `price` defaults to 0 and every limit to null.
   */
  function CreateLicense(id: Id, name: string, slug: string, price: Option<int>): (r: Result<License, string>)
    ensures r.Success? <==> name != [] && slug != []
    ensures r.Success? ==> r.value.slug == Lower(slug) && IsLowerCased(r.value.slug)
    ensures r.Success? ==> r.value.price == price.GetOr(0)
    ensures r.Success? ==> r.value.courseLimit.None? && r.value.chapterLimit.None? && r.value.lessonLimit.None?
  {
    if name == [] || slug == [] then Failure("License validation failed")
    else
      LowerIsLowerCased(slug);
      Success(License(id, name, Lower(slug), price.GetOr(0), None, None, None))
  }

  /** The unique index on `slug`. */
  predicate UniqueSlugs(ls: seq<License>) {
    forall i, j :: 0 <= i < j < |ls| ==> ls[i].slug != ls[j].slug
  }

  /** The four licenses the server seeds into an empty collection (used as fixtures). */
  function SeedLicenses(): seq<License> {
    [ License("lic-free", "Free", "free", 0, Some(1), Some(3), Some(2)),
      License("lic-startup", "Startup", "startup", 9, Some(5), None, None),
      License("lic-advanced", "Advanced", "advanced", 16, Some(10), None, None),
      License("lic-pro", "Professional", "pro", 29, None, None, None) ]
  }

  // --------------------------------------------------------------- config

  datatype Config = Config(allowRegistration: bool, allowLogin: bool, defaultCredits: int)

  /** `ConfigModel.create({})`: every field takes its schema default. */
  const DefaultConfig: Config := Config(true, true, 100)
}

=== FILE: my_courses.dfy ===
/**
 * The "My Courses" page (apps/frontend/src/pages/MyCourses.tsx): which of the
 * fetched courses it lists for a student, and the "authored" and "enrolled"
 * lists it shows a tutor. The `/enrollments` endpoint answers every enrollment,
 * whoever the `studentId` parameter names, so the lists are computed here from
 * the whole collection. Both id forms the page accepts (an object id and a
 * string) are modelled as the string they render to.
 */
module MyCourses {
  import opened Wrappers
  import opened Lists

  /** The fields of a fetched course the page filters on. */
  datatype Course = Course(id: string, tutorId: Option<string>, title: string)

  datatype Enrollment = Enrollment(studentId: string, courseId: string)

  /** The signed-in user as the page reads it. */
  datatype PageUser = PageUser(id: string, role: string)

  /** `enrollments.map((e) => String(e.courseId))`. */
  function CourseIds(es: seq<Enrollment>): (ids: seq<string>)
    ensures |ids| == |es|
    ensures forall i :: 0 <= i < |es| ==> ids[i] == es[i].courseId
  {
    seq(|es|, i requires 0 <= i < |es| => es[i].courseId)
  }

  predicate OwnedBy(userId: string, e: Enrollment) {
    e.studentId == userId
  }

  predicate ListedIn(ids: seq<string>, c: Course) {
    c.id in ids
  }

  predicate WrittenBy(userId: string, c: Course) {
    c.tutorId == Some(userId)
  }

  /** `allCourses.filter((c) => myIds.includes(c._id))`. */
  function CoursesWithIds(all: seq<Course>, ids: seq<string>): seq<Course> {
    Filter(all, c => ListedIn(ids, c))
  }

  /** The student list as written: every course that appears in any enrollment. */
  function StudentCourses(all: Option<seq<Course>>, es: Option<seq<Enrollment>>): seq<Course> {
    if all.Some? && es.Some? then CoursesWithIds(all.value, CourseIds(es.value)) else []
  }

  /** The tutor's products: `allCourses.filter((c) => c.tutorId === user._id)`. */
  function Authored(u: PageUser, all: Option<seq<Course>>): seq<Course> {
    if all.Some? then Filter(all.value, c => WrittenBy(u.id, c)) else []
  }

  /** The tutor's own enrollments: only enrollments whose student is the user count. */
  function Enrolled(u: PageUser, all: Option<seq<Course>>, es: Option<seq<Enrollment>>): seq<Course> {
    if all.Some? && es.Some? then CoursesWithIds(all.value, CourseIds(Filter(es.value, e => OwnedBy(u.id, e)))) else []
  }

  /** What the page shows: nothing without a user, one list for a student, two for a tutor. */
  datatype Page = Blank | StudentPage(courses: seq<Course>) | TutorPage(authored: seq<Course>, enrolled: seq<Course>)

  /** The page as written. */
  function Render(user: Option<PageUser>, all: Option<seq<Course>>, es: Option<seq<Enrollment>>): (p: Page)
    ensures user.None? <==> p == Blank
    ensures user.Some? && user.value.role == "tutor" ==>
      p == TutorPage(Authored(user.value, all), Enrolled(user.value, all, es))
    ensures user.Some? && user.value.role != "tutor" ==> p == StudentPage(StudentCourses(all, es))
  {
    if user.None? then Blank
    else if user.value.role == "tutor" then TutorPage(Authored(user.value, all), Enrolled(user.value, all, es))
    else StudentPage(StudentCourses(all, es))
  }

  /** A course is among the tutor's enrolled courses exactly when one of the user's own enrollments names it. */
  lemma EnrolledIff(u: PageUser, all: seq<Course>, es: seq<Enrollment>, c: Course)
    ensures c in Enrolled(u, Some(all), Some(es)) <==>
      c in all && exists e :: e in es && e.studentId == u.id && e.courseId == c.id
  {
    var mine := Filter(es, e => OwnedBy(u.id, e));
    var ids := CourseIds(mine);
    FilterContains(all, c => ListedIn(ids, c), c);
    if c.id in ids {
      var i :| 0 <= i < |ids| && ids[i] == c.id;
      FilterContains(es, e => OwnedBy(u.id, e), mine[i]);
    }
    if exists e :: e in es && e.studentId == u.id && e.courseId == c.id {
      var e :| e in es && e.studentId == u.id && e.courseId == c.id;
      FilterContains(es, e => OwnedBy(u.id, e), e);
      var i :| 0 <= i < |mine| && mine[i] == e;
      assert ids[i] == c.id;
    }
  }

  /** A tutor's products are exactly the fetched courses whose tutor is the user. */
  lemma AuthoredIff(u: PageUser, all: seq<Course>, c: Course)
    ensures c in Authored(u, Some(all)) <==> c in all && c.tutorId == Some(u.id)
  {
    FilterContains(all, c => WrittenBy(u.id, c), c);
  }

  /**
   * The student list as written shows a course someone else enrolled in: a
   * student with no enrollment of their own sees another student's course.
   */
  lemma StudentSeesOthersCourses()
    ensures var u := PageUser("s1", "student");
      var c := Course("c1", Some("t1"), "Algebra");
      var es := [Enrollment("s2", "c1")];
      Render(Some(u), Some([c]), Some(es)) == StudentPage([c])
      && !exists e :: e in es && e.studentId == u.id
  {
    var u := PageUser("s1", "student");
    var c := Course("c1", Some("t1"), "Algebra");
    var es := [Enrollment("s2", "c1")];
    var ids := CourseIds(es);
    assert |ids| == 1 && ids[0] == c.id;
    assert ListedIn(ids, c);
    assert [c][..0] == [];
    assert Filter([c][..0], x => ListedIn(ids, x)) == [];
    assert CoursesWithIds([c], ids) == [c];
    assert u.role != "tutor" by {
      assert |u.role| != |"tutor"|;
    }
    assert es[0].studentId != u.id by {
      assert es[0].studentId[1] != u.id[1];
    }
  }

  /** The student list as evidently intended: the same filter by student the tutor's list applies. */
  function StudentCoursesCorrected(u: PageUser, all: Option<seq<Course>>, es: Option<seq<Enrollment>>): seq<Course> {
    Enrolled(u, all, es)
  }

  /** The corrected page: the student list is filtered by the user. */
  function RenderCorrected(user: Option<PageUser>, all: Option<seq<Course>>, es: Option<seq<Enrollment>>): (p: Page)
    ensures user.None? <==> p == Blank
    ensures user.Some? && user.value.role == "tutor" ==> p == Render(user, all, es)
    ensures user.Some? && user.value.role != "tutor" ==> p == StudentPage(StudentCoursesCorrected(user.value, all, es))
  {
    if user.None? then Blank
    else if user.value.role == "tutor" then TutorPage(Authored(user.value, all), Enrolled(user.value, all, es))
    else StudentPage(StudentCoursesCorrected(user.value, all, es))
  }

  /** With the correction a student sees exactly the fetched courses they are enrolled in. */
  lemma StudentSeesOwnCoursesCorrected(u: PageUser, all: seq<Course>, es: seq<Enrollment>, c: Course)
    requires u.role != "tutor"
    ensures var p := RenderCorrected(Some(u), Some(all), Some(es));
      p.StudentPage? &&
      (c in p.courses <==> c in all && exists e :: e in es && e.studentId == u.id && e.courseId == c.id)
  {
    EnrolledIff(u, all, es, c);
  }

  /** The two lists agree whenever every enrollment fetched is the user's own. */
  lemma ListsAgreeOnOwnEnrollments(u: PageUser, all: seq<Course>, es: seq<Enrollment>)
    requires forall i :: 0 <= i < |es| ==> es[i].studentId == u.id
    ensures StudentCourses(Some(all), Some(es)) == StudentCoursesCorrected(u, Some(all), Some(es))
  {
    OwnFilterIsIdentity(u, es);
  }

  lemma {:induction false} OwnFilterIsIdentity(u: PageUser, es: seq<Enrollment>)
    requires forall i :: 0 <= i < |es| ==> es[i].studentId == u.id
    ensures Filter(es, e => OwnedBy(u.id, e)) == es
    decreases |es|
  {
    if es != [] {
      var init := es[..|es| - 1];
      OwnFilterIsIdentity(u, init);
      assert init + [es[|es| - 1]] == es;
    }
  }

  /** Both lists keep the order in which the courses were fetched. */
  lemma ListsKeepFetchOrder(u: PageUser, a: seq<Course>, b: seq<Course>, es: seq<Enrollment>)
    ensures Enrolled(u, Some(a + b), Some(es)) == Enrolled(u, Some(a), Some(es)) + Enrolled(u, Some(b), Some(es))
    ensures Authored(u, Some(a + b)) == Authored(u, Some(a)) + Authored(u, Some(b))
  {
    var ids := CourseIds(Filter(es, e => OwnedBy(u.id, e)));
    FilterAppend(a, b, c => ListedIn(ids, c));
    FilterAppend(a, b, c => WrittenBy(u.id, c));
  }
}

=== FILE: rate_limiter.dfy ===
/**
 * The contact-form rate limiter (apps/backend/src/utils/rateLimiter.ts): a
 * table from client IP to the time (in milliseconds) of its last accepted
 * submission, and a 10-second window. The clock is a parameter.
 */
module RateLimiter {
  import opened Wrappers

  const Window: int := 10000

  /** `{ allowed, wait? }`. */
  datatype Verdict = Verdict(allowed: bool, wait: Option<int>)

  /** `submissions[ip] || 0`: an IP never seen counts as last submitting at time 0. */
  function LastSubmission(submissions: map<string, int>, ip: string): int {
    if ip in submissions then submissions[ip] else 0
  }

  /** The window test on the last accepted submission. */
  function Decide(last: int, now: int): (v: Verdict)
    ensures v.allowed <==> now - last >= Window
    ensures v.allowed ==> v.wait == None
    ensures !v.allowed ==> v.wait == Some(Window - (now - last))
    ensures !v.allowed && now >= last ==> 0 < v.wait.value <= Window
  {
    if now - last < Window then Verdict(false, Some(Window - (now - last)))
    else Verdict(true, None)
  }

  class Limiter {
    var submissions: map<string, int>

    constructor ()
      ensures submissions == map[]
    {
      submissions := map[];
    }

    /** `canSubmit(ip)` at time `now`: an accepted call records `now`, a refused one changes nothing. */
    method CanSubmit(ip: string, now: int) returns (v: Verdict)
      modifies this
      ensures v == Decide(LastSubmission(old(submissions), ip), now)
      ensures v.allowed ==> submissions == old(submissions)[ip := now]
      ensures !v.allowed ==> submissions == old(submissions)
    {
      var last := LastSubmission(submissions, ip);
      if now - last < Window {
        return Verdict(false, Some(Window - (now - last)));
      }
      submissions := submissions[ip := now];
      v := Verdict(true, None);
    }
  }

  /** An IP never seen is allowed exactly from time 10000 on. */
  lemma UnknownIpAllowedAfterWindow(submissions: map<string, int>, ip: string, now: int)
    requires ip !in submissions
    ensures Decide(LastSubmission(submissions, ip), now).allowed <==> now >= Window
  {
  }

  /**
   * After an accepted call at `t`, a call from the same IP at `t2` is allowed
   * exactly when the window has passed, and other IPs see no change.
   */
  lemma AcceptedCallOpensWindow(submissions: map<string, int>, ip: string, other: string, t: int, t2: int)
    requires other != ip
    ensures Decide(LastSubmission(submissions[ip := t], ip), t2).allowed <==> t2 - t >= Window
    ensures LastSubmission(submissions[ip := t], other) == LastSubmission(submissions, other)
  {
  }
}

=== FILE: register_page.dfy ===
/**
 * The registration page (apps/frontend/src/pages/Register.tsx): the zod
 * schema with its password-confirmation refinement, the role the page asks
 * for, and what it does with the thunk's outcome. `z.string().email()` is the
 * parameter `isEmail`.
 */
module RegisterPage {
  import opened Wrappers
  import opened Text

  /** The form values; `publishCourses` is `None` when the box was never touched. */
  datatype RegisterForm = RegisterForm(
    name: string, email: string, password: string, confirmPassword: string, publishCourses: Option<bool>)

  /** A zod issue on one field; `None` stands for zod's built-in message. */
  datatype FieldIssue = FieldIssue(field: string, message: Option<string>)

  const MismatchMessage := "Passwords do not match"

  /** The issues the schema reports: the field rules in field order, then the refinement on `confirmPassword`. */
  function Issues(f: RegisterForm, isEmail: string -> bool): seq<FieldIssue> {
    (if |f.name| < 2 then [FieldIssue("name", Some("Name too short"))] else [])
    + (if !isEmail(f.email) then [FieldIssue("email", None)] else [])
    + (if |f.password| < 6 then [FieldIssue("password", Some("Minimum 6 characters"))] else [])
    + (if f.password != f.confirmPassword then [FieldIssue("confirmPassword", Some(MismatchMessage))] else [])
  }

  /** The rules the schema states. */
  predicate Accepted(f: RegisterForm, isEmail: string -> bool) {
    |f.name| >= 2 && isEmail(f.email) && |f.password| >= 6 && f.password == f.confirmPassword
  }

  /** `handleSubmit` calls `onSubmit` exactly when the schema accepts the form. */
  lemma IssuesEmptyIff(f: RegisterForm, isEmail: string -> bool)
    ensures Issues(f, isEmail) == [] <==> Accepted(f, isEmail)
  {
  }

  /** A mismatched confirmation is reported on `confirmPassword` and nowhere else, whatever the other fields hold. */
  lemma MismatchReportedOnConfirm(f: RegisterForm, isEmail: string -> bool)
    requires f.password != f.confirmPassword
    ensures var issues := Issues(f, isEmail);
      issues != [] && issues[|issues| - 1] == FieldIssue("confirmPassword", Some(MismatchMessage))
  {
  }

  datatype Role = Student | Tutor

  /** `data.publishCourses ? "tutor" : "student"`. */
  function RoleOf(publishCourses: Option<bool>): (r: Role)
    ensures r == Tutor <==> publishCourses == Some(true)
  {
    if publishCourses.Some? && publishCourses.value then Tutor else Student
  }

  /** The body `registerThunk` posts to `/auth/register`. */
  datatype RegisterRequest = RegisterRequest(name: string, email: string, password: string, role: Role)

  /** What submitting the form sends: nothing while the schema reports an issue. */
  function Submission(f: RegisterForm, isEmail: string -> bool): (r: Option<RegisterRequest>)
    ensures r.Some? <==> Issues(f, isEmail) == []
    ensures r.Some? ==> r.value.name == f.name && r.value.email == f.email && r.value.password == f.password
    ensures r.Some? ==> (r.value.role == Tutor <==> f.publishCourses == Some(true))
  {
    IssuesEmptyIff(f, isEmail);
    if Accepted(f, isEmail) then Some(RegisterRequest(f.name, f.email, f.password, RoleOf(f.publishCourses))) else None
  }

  /** How the thunk settles: the new user's balance (`None` when absent) or the error's message. */
  datatype Settled = Fulfilled(balance: Option<int>) | Rejected(message: Option<string>)

  /** What the page does afterwards: an alert and a route, each optional. */
  datatype Effects = Effects(alert: Option<string>, navigate: Option<string>)

  /** A JavaScript template literal's rendering of a number or of `undefined`. */
  function Render(n: Option<int>): (r: string)
    ensures r != []
  {
    if n.None? then "undefined" else if n.value < 0 then "-" + NatToString(-n.value) else NatToString(n.value)
  }

  function CongratsMessage(balance: Option<int>): string {
    "Congrats! You've received $" + Render(balance) + " free credits"
  }

  const DisabledMessage := "Registration temporarily disabled, please contact admin"

  /** Where a new account lands: tutors on the pricing page, students on their courses. */
  function Destination(role: Role): string {
    if role == Tutor then "/pricing" else "/my-courses"
  }

  /** The rest of `onSubmit`, once the thunk has settled. */
  function AfterRegister(role: Role, s: Settled): (e: Effects)
    ensures s.Fulfilled? ==> e == Effects(Some(CongratsMessage(s.balance)), Some(Destination(role)))
    ensures s.Rejected? ==> e.navigate == None
    ensures s.Rejected? ==> (e.alert.Some? <==> s.message.Some? && IndexOf(s.message.value, "503").Some?)
    ensures e.alert.Some? && s.Rejected? ==> e.alert.value == DisabledMessage
  {
    match s
    case Fulfilled(balance) => Effects(Some(CongratsMessage(balance)), Some(Destination(role)))
    case Rejected(message) =>
      if message.Some? && IndexOf(message.value, "503").Some? then Effects(Some(DisabledMessage), None)
      else Effects(None, None)
  }

  /** The alert after a rejection is the "disabled" one exactly when the message mentions 503 somewhere. */
  lemma DisabledAlertIff(role: Role, message: string)
    ensures AfterRegister(role, Rejected(Some(message))).alert == Some(DisabledMessage)
      <==> exists k: nat :: OccursAt(message, "503", k)
  {
    var r := IndexOf(message, "503");
    if r.Some? {
      assert OccursAt(message, "503", r.value);
    }
  }

  /** A registration that fails for any other reason, such as a taken e-mail, changes nothing on the page. */
  lemma OtherRejectionsAreSilent(role: Role, message: Option<string>)
    requires message.None? || forall k: nat :: !OccursAt(message.value, "503", k)
    ensures AfterRegister(role, Rejected(message)) == Effects(None, None)
  {
  }

  /** A tutor's account is sent to pricing and a student's to their courses, each after the welcome alert. */
  lemma RoleDecidesDestination(f: RegisterForm, isEmail: string -> bool, balance: Option<int>)
    requires Accepted(f, isEmail)
    ensures var req := Submission(f, isEmail).value;
      AfterRegister(req.role, Fulfilled(balance)).navigate
        == Some(if f.publishCourses == Some(true) then "/pricing" else "/my-courses")
  {
    IssuesEmptyIff(f, isEmail);
  }
}

=== FILE: slug.dfy ===
/**
 * `slugify` as the course pages define it
 * (apps/frontend/src/pages/CreateCourse.tsx and EditCourse.tsx): lower-case,
 * trim, replace every maximal run of characters outside `[a-z0-9]` by one
 * hyphen, then strip the hyphens at both ends.
 */
module Slug {
  import opened Text

  predicate IsSlugChar(c: char) {
    IsAsciiLower(c) || IsDigit(c)
  }

  /** What a slug is made of: `[a-z0-9-]`, no hyphen at either end, never two in a row. */
  predicate IsSlug(s: string) {
    && (forall i :: 0 <= i < |s| ==> IsSlugChar(s[i]) || s[i] == '-')
    && (s != [] ==> s[0] != '-' && s[|s| - 1] != '-')
    && (forall i :: 0 <= i < |s| - 1 ==> !(s[i] == '-' && s[i + 1] == '-'))
  }

  /** The rest of `s` after its leading run of characters outside `[a-z0-9]`. */
  function DropRun(s: string): (r: string)
    ensures |r| <= |s| && r == s[|s| - |r|..]
    ensures r != [] ==> IsSlugChar(r[0])
    ensures forall i :: 0 <= i < |s| - |r| ==> !IsSlugChar(s[i])
  {
    if s != [] && !IsSlugChar(s[0]) then
      var r := DropRun(s[1..]);
      assert forall i :: 1 <= i < |s| - |r| ==> s[i] == s[1..][i - 1];
      assert s[1..][|s| - 1 - |r|..] == s[|s| - |r|..];
      r
    else s
  }

  /** `.replace(/[^a-z0-9]+/g, "-")`. */
  function CollapseRuns(s: string): (r: string)
    ensures forall i :: 0 <= i < |r| ==> IsSlugChar(r[i]) || r[i] == '-'
    ensures forall i :: 0 <= i < |r| - 1 ==> !(r[i] == '-' && r[i + 1] == '-')
    ensures s != [] && IsSlugChar(s[0]) ==> r != [] && r[0] == s[0]
    ensures s == [] <==> r == []
    decreases |s|
  {
    if s == [] then []
    else if IsSlugChar(s[0]) then [s[0]] + CollapseRuns(s[1..])
    else "-" + CollapseRuns(DropRun(s[1..]))
  }

  /** `.replace(/^-+/, "")`. */
  function StripLeading(s: string): (r: string)
    ensures |r| <= |s| && r == s[|s| - |r|..]
    ensures r != [] ==> r[0] != '-'
  {
    if s != [] && s[0] == '-' then StripLeading(s[1..]) else s
  }

  /** `.replace(/-+$/, "")`. */
  function StripTrailing(s: string): (r: string)
    ensures |r| <= |s| && r == s[..|r|]
    ensures r != [] ==> r[|r| - 1] != '-'
  {
    if s != [] && s[|s| - 1] == '-' then StripTrailing(s[..|s| - 1]) else s
  }

  function Slugify(s: string): string {
    StripTrailing(StripLeading(CollapseRuns(Trim(Lower(s)))))
  }

  /** Over `[a-z0-9-]` with no hyphen doubled: what the run collapse produces. */
  predicate Collapsed(s: string) {
    && (forall i :: 0 <= i < |s| ==> IsSlugChar(s[i]) || s[i] == '-')
    && (forall i :: 0 <= i < |s| - 1 ==> !(s[i] == '-' && s[i + 1] == '-'))
  }

  /** A suffix of a collapsed string is collapsed. */
  lemma SuffixKeepsShape(s: string, lo: nat)
    requires lo <= |s| && Collapsed(s)
    ensures Collapsed(s[lo..])
  {
    var t := s[lo..];
    assert forall i :: 0 <= i < |t| ==> t[i] == s[lo + i];
  }

  /** A prefix of a collapsed string is collapsed. */
  lemma PrefixKeepsShape(s: string, hi: nat)
    requires hi <= |s| && Collapsed(s)
    ensures Collapsed(s[..hi])
  {
    var t := s[..hi];
    assert forall i :: 0 <= i < |t| ==> t[i] == s[i];
  }

  /** Stripping the hyphens at both ends of a collapsed string leaves a slug. */
  lemma StripsMakeSlug(c: string)
    requires Collapsed(c)
    ensures IsSlug(StripTrailing(StripLeading(c)))
  {
    var a := StripLeading(c);
    SuffixKeepsShape(c, |c| - |a|);
    var r := StripTrailing(a);
    PrefixKeepsShape(a, |r|);
    assert Collapsed(r);
    if r != [] {
      assert r[0] == a[0];
    }
  }

  /** Every slugify output is a slug. */
  lemma SlugifyIsSlug(s: string)
    ensures IsSlug(Slugify(s))
  {
    var c := CollapseRuns(Trim(Lower(s)));
    assert Collapsed(c);
    StripsMakeSlug(c);
  }

  lemma {:induction false} LowerOfSlug(s: string)
    requires IsSlug(s)
    ensures Lower(s) == s
  {
    assert forall i :: 0 <= i < |s| ==> Lower(s)[i] == s[i];
  }

  lemma NotWhitespace(c: char)
    requires IsSlugChar(c) || c == '-'
    ensures !IsJsWhitespace(c)
  {
  }

  lemma TrimOfSlug(s: string)
    requires IsSlug(s)
    ensures Trim(s) == s
  {
    if s != [] {
      NotWhitespace(s[0]);
      NotWhitespace(s[|s| - 1]);
      var t := TrimStart(s);
      assert |s| - |t| == 0;
      assert t == s;
      var e := TrimEnd(t);
      assert |e| == |t|;
    }
  }

  lemma {:induction false} CollapseOfSlugChars(s: string)
    requires forall i :: 0 <= i < |s| ==> IsSlugChar(s[i]) || s[i] == '-'
    requires forall i :: 0 <= i < |s| - 1 ==> !(s[i] == '-' && s[i + 1] == '-')
    requires s != [] ==> s[0] != '-' || |s| == 1 || IsSlugChar(s[1])
    ensures CollapseRuns(s) == s
    decreases |s|
  {
    if s != [] {
      var rest := s[1..];
      if IsSlugChar(s[0]) {
        CollapseOfSlugChars(rest);
      } else {
        assert DropRun(rest) == rest;
        CollapseOfSlugChars(rest);
      }
    }
  }

  /** A slug is left unchanged. */
  lemma SlugifyOfSlug(s: string)
    requires IsSlug(s)
    ensures Slugify(s) == s
  {
    calc {
      Slugify(s);
      StripTrailing(StripLeading(CollapseRuns(Trim(Lower(s)))));
      { LowerOfSlug(s); }
      StripTrailing(StripLeading(CollapseRuns(Trim(s))));
      { TrimOfSlug(s); }
      StripTrailing(StripLeading(CollapseRuns(s)));
      { CollapseOfSlugChars(s); }
      StripTrailing(StripLeading(s));
      { StripOfSlug(s); }
      s;
    }
  }

  lemma StripOfSlug(s: string)
    requires IsSlug(s)
    ensures StripLeading(s) == s && StripTrailing(s) == s
  {
  }

  /** `slugify(slugify(s)) == slugify(s)`. */
  lemma SlugifyIdempotent(s: string)
    ensures Slugify(Slugify(s)) == Slugify(s)
  {
    SlugifyIsSlug(s);
    SlugifyOfSlug(Slugify(s));
  }
}

=== FILE: text.dfy ===
/**
 * The JavaScript string operations the source relies on, over `seq<char>`:
 * ASCII lower-casing, `trim()` with JavaScript's whitespace set, `startsWith`,
 * `replace` with a string pattern (first occurrence only) and the decimal
 * rendering of a natural number inside a template literal.
 */
module Text {
  import opened Wrappers

  predicate IsAsciiUpper(c: char) { 'A' <= c <= 'Z' }
  predicate IsAsciiLower(c: char) { 'a' <= c <= 'z' }
  predicate IsDigit(c: char) { '0' <= c <= '9' }

  /** `toLowerCase` restricted to the ASCII letters; every other character is kept. */
  function LowerChar(c: char): (r: char)
    ensures IsAsciiUpper(c) ==> IsAsciiLower(r)
    ensures !IsAsciiUpper(c) ==> r == c
  {
    if IsAsciiUpper(c) then (c as int - 'A' as int + 'a' as int) as char else c
  }

  function Lower(s: string): (r: string)
    ensures |r| == |s|
    ensures forall i :: 0 <= i < |s| ==> r[i] == LowerChar(s[i])
  {
    if s == [] then [] else [LowerChar(s[0])] + Lower(s[1..])
  }

  predicate IsLowerCased(s: string) {
    forall i :: 0 <= i < |s| ==> !IsAsciiUpper(s[i])
  }

  lemma LowerIsLowerCased(s: string)
    ensures IsLowerCased(Lower(s))
    ensures Lower(Lower(s)) == Lower(s)
  {
    var l := Lower(s);
    assert forall i :: 0 <= i < |l| ==> Lower(l)[i] == l[i];
  }

  /** The characters JavaScript's `String.prototype.trim` removes. */
  predicate IsJsWhitespace(c: char) {
    c == ' ' || c == '\t' || c == '\n' || c == '\r' || c == '\U{B}' || c == '\U{C}'
    || c == '\U{A0}' || c == '\U{1680}' || ('\U{2000}' <= c <= '\U{200A}')
    || c == '\U{2028}' || c == '\U{2029}' || c == '\U{202F}' || c == '\U{205F}'
    || c == '\U{3000}' || c == '\U{FEFF}'
  }

  function TrimStart(s: string): (r: string)
    ensures |r| <= |s| && r == s[|s| - |r|..]
    ensures r != [] ==> !IsJsWhitespace(r[0])
    ensures forall i :: 0 <= i < |s| - |r| ==> IsJsWhitespace(s[i])
  {
    if s != [] && IsJsWhitespace(s[0]) then TrimStart(s[1..]) else s
  }

  function TrimEnd(s: string): (r: string)
    ensures |r| <= |s| && r == s[..|r|]
    ensures r != [] ==> !IsJsWhitespace(r[|r| - 1])
    ensures forall i :: |r| <= i < |s| ==> IsJsWhitespace(s[i])
  {
    if s != [] && IsJsWhitespace(s[|s| - 1]) then TrimEnd(s[..|s| - 1]) else s
  }

  function Trim(s: string): string {
    TrimEnd(TrimStart(s))
  }

  /** `trim()` returns the empty string exactly for strings made only of whitespace. */
  lemma TrimEmptyIff(s: string)
    ensures Trim(s) == [] <==> forall i :: 0 <= i < |s| ==> IsJsWhitespace(s[i])
  {
    var t := TrimStart(s);
    if t != [] {
      assert t[0] == s[|s| - |t|];
    }
  }

  predicate StartsWith(s: string, prefix: string) {
    |prefix| <= |s| && s[..|prefix|] == prefix
  }

  /** `pat` occurs in `s` at position `k`. */
  predicate OccursAt(s: string, pat: string, k: nat) {
    k + |pat| <= |s| && s[k..k + |pat|] == pat
  }

  /** `s.indexOf(pat)`: the first position where `pat` occurs in `s`. */
  function IndexOf(s: string, pat: string): (r: Option<nat>)
    ensures r.Some? ==> OccursAt(s, pat, r.value)
    ensures r.Some? ==> forall k: nat :: k < r.value ==> !OccursAt(s, pat, k)
    ensures r.None? ==> forall k: nat :: !OccursAt(s, pat, k)
    decreases |s|
  {
    if |pat| > |s| then None
    else if s[..|pat|] == pat then Some(0)
    else
      var rest := IndexOf(s[1..], pat);
      OccursAtShift(s, pat);
      if rest.None? then None else Some(rest.value + 1)
  }

  lemma OccursAtShift(s: string, pat: string)
    requires |pat| <= |s| && s[..|pat|] != pat
    ensures !OccursAt(s, pat, 0)
    ensures forall k: nat :: 1 <= k ==> OccursAt(s, pat, k) == OccursAt(s[1..], pat, k - 1)
  {
    assert s[0..|pat|] == s[..|pat|];
    forall k: nat | 1 <= k ensures OccursAt(s, pat, k) == OccursAt(s[1..], pat, k - 1) {
      if k + |pat| <= |s| {
        SliceOfTail(s, |pat|, k - 1);
      }
    }
  }

  lemma SliceOfTail<T>(s: seq<T>, n: nat, k: nat)
    requires k + 1 + n <= |s|
    ensures s[k + 1..k + 1 + n] == s[1..][k..k + n]
  {
    var a := s[k + 1..k + 1 + n];
    var b := s[1..][k..k + n];
    assert forall i :: 0 <= i < n ==> a[i] == b[i];
  }

  /** `s.replace(pat, rep)` with a string pattern: only the first occurrence is replaced. */
  function ReplaceFirst(s: string, pat: string, rep: string): string {
    match IndexOf(s, pat)
    case None => s
    case Some(k) => s[..k] + rep + s[k + |pat|..]
  }

  /** A string that starts with the pattern loses exactly that prefix. */
  lemma ReplaceFirstOfPrefix(pat: string, rest: string)
    ensures ReplaceFirst(pat + rest, pat, "") == rest
  {
    var s := pat + rest;
    assert s[..|pat|] == pat;
    assert s[|pat|..] == rest;
  }

  function DigitChar(d: nat): (c: char)
    requires d < 10
    ensures IsDigit(c)
  {
    ('0' as int + d) as char
  }

  /** The decimal rendering JavaScript uses for a non-negative integer in a template literal. */
  function NatToString(n: nat): (r: string)
    ensures r != []
    ensures forall i :: 0 <= i < |r| ==> IsDigit(r[i])
  {
    if n < 10 then [DigitChar(n)] else NatToString(n / 10) + [DigitChar(n % 10)]
  }
}

=== FILE: ui_slice.dfy ===
/**
 * The interface slice (apps/frontend/src/store/uiSlice.ts): the colour theme,
 * read from `localStorage` at start-up and written back on every change. The
 * stored value is whatever string the key holds, so the state is a string and
 * the two themes are the two values the reducers write.
 */
module UiSlice {
  import opened Wrappers
  import opened LocalStorage

  const Light := "light"
  const Dark := "dark"
  const ThemeKey := "theme"

  predicate IsTheme(t: string) {
    t == Light || t == Dark
  }

  /** The initial theme: a non-empty stored value wins, otherwise the system preference. */
  function InitialTheme(stored: Option<string>, prefersDark: bool): (t: string)
    ensures stored.Some? && stored.value != "" ==> t == stored.value
    ensures stored.None? || stored.value == "" ==> IsTheme(t) && (t == Dark <==> prefersDark)
  {
    if stored.Some? && stored.value != "" then stored.value else if prefersDark then Dark else Light
  }

  /** `theme === "light" ? "dark" : "light"`. */
  function Toggled(t: string): (r: string)
    ensures IsTheme(r)
    ensures r == Dark <==> t == Light
  {
    if t == Light then Dark else Light
  }

  /** Toggling twice restores either theme. */
  lemma ToggleTwice(t: string)
    requires IsTheme(t)
    ensures Toggled(Toggled(t)) == t
  {
  }

  /** A stored value that is neither theme toggles to light, and is never restored. */
  lemma ToggleOfStrayValue(t: string)
    requires !IsTheme(t)
    ensures Toggled(t) == Light && Toggled(Toggled(t)) != t
  {
  }

  /** Whatever theme a reducer last wrote is the one the next start-up reads. */
  lemma ReloadKeepsTheme(items: map<string, string>, t: string, prefersDark: bool)
    requires IsTheme(t)
    ensures InitialTheme(Some(items[ThemeKey := t][ThemeKey]), prefersDark) == t
  {
  }

  class UiStore {
    const storage: Storage
    var theme: string

    constructor (storage: Storage, prefersDark: bool)
      ensures this.storage == storage
      ensures theme == InitialTheme(storage.GetItem(ThemeKey), prefersDark)
    {
      this.storage := storage;
      theme := InitialTheme(storage.GetItem(ThemeKey), prefersDark);
    }

    /** `setTheme`: the payload is typed `"light" | "dark"`. */
    method SetTheme(payload: string)
      requires IsTheme(payload)
      modifies this, storage
      ensures theme == payload
      ensures storage.items == old(storage.items)[ThemeKey := payload]
    {
      theme := payload;
      storage.SetItem(ThemeKey, payload);
    }

    /** `toggleTheme`. */
    method ToggleTheme()
      modifies this, storage
      ensures theme == Toggled(old(theme))
      ensures storage.items == old(storage.items)[ThemeKey := theme]
    {
      theme := if theme == Light then Dark else Light;
      storage.SetItem(ThemeKey, theme);
    }
  }
}

=== FILE: upload_service.dfy ===
/**
 * The upload service (apps/backend/src/utils/uploadService.ts): bulk
 * validation, the shape of an upload's result and the object key `deleteImage`
 * derives from a public URL. Whether storing an object succeeds is the
 * parameter `stored`; the public base URL and today's date are parameters.
 */
module UploadService {
  import opened Wrappers
  import opened Text
  import opened ImageProcessor

  const MaxTotalSize: int := 50 * 1024 * 1024
  const TotalTooLargeMessage := "Total file size exceeds 50MB limit"

  /** The two fields of a multer file the validators read. */
  datatype FileInfo = FileInfo(mimetype: string, size: int)

  /** `files.reduce((sum, file) => sum + file.size, 0)`. */
  function TotalSize(files: seq<FileInfo>): int {
    if files == [] then 0 else TotalSize(files[..|files| - 1]) + files[|files| - 1].size
  }

  /** "File {i+1}: {error}". */
  function FileError(i: nat, error: string): string {
    "File " + NatToString(i + 1) + ": " + error
  }

  function Check(f: FileInfo): Validation {
    ValidateImage(f.mimetype, f.size)
  }

  /** The error line the loop pushes for file `i`, if any. */
  function ErrorFor(files: seq<FileInfo>, i: nat): seq<string>
    requires i < |files|
  {
    var v := Check(files[i]);
    if !v.valid && v.error.Some? && v.error.value != "" then [FileError(i, v.error.value)] else []
  }

  /** The per-file errors of the first `n` files, in file order. */
  function FileErrors(files: seq<FileInfo>, n: nat): seq<string>
    requires n <= |files|
  {
    if n == 0 then [] else FileErrors(files, n - 1) + ErrorFor(files, n - 1)
  }

  /** The errors `validateFiles` reports. */
  function AllErrors(files: seq<FileInfo>): seq<string> {
    FileErrors(files, |files|) + (if TotalSize(files) > MaxTotalSize then [TotalTooLargeMessage] else [])
  }

  /** `validateFiles`. */
  method ValidateFiles(files: seq<FileInfo>) returns (valid: bool, errors: seq<string>)
    ensures errors == AllErrors(files)
    ensures valid <==> errors == []
  {
    errors := [];
    for i := 0 to |files|
      invariant errors == FileErrors(files, i)
    {
      var v := Check(files[i]);
      if !v.valid && v.error.Some? && v.error.value != "" {
        errors := errors + [FileError(i, v.error.value)];
      }
    }
    var total := TotalSize(files);
    if total > MaxTotalSize {
      errors := errors + [TotalTooLargeMessage];
    }
    valid := |errors| == 0;
  }

  /** The first `n` files yield no error exactly when each of them passes `validateImage`. */
  lemma {:induction false} FileErrorsEmptyIff(files: seq<FileInfo>, n: nat)
    requires n <= |files|
    ensures FileErrors(files, n) == [] <==> forall i :: 0 <= i < n ==> Check(files[i]).valid
  {
    if n > 0 {
      FileErrorsEmptyIff(files, n - 1);
    }
  }

  /** Each file contributes at most one line, and file `n - 1`'s line, if any, comes last. */
  lemma {:induction false} FileErrorsAtMostOnePerFile(files: seq<FileInfo>, n: nat)
    requires n <= |files|
    ensures |FileErrors(files, n)| <= n
    ensures n > 0 && !Check(files[n - 1]).valid ==>
      FileErrors(files, n)[|FileErrors(files, n)| - 1] == FileError(n - 1, Check(files[n - 1]).error.value)
  {
    if n > 0 {
      FileErrorsAtMostOnePerFile(files, n - 1);
    }
  }

  /** A batch is valid exactly when every file passes and the total is within 50 MiB. */
  lemma BatchValidIff(files: seq<FileInfo>)
    ensures AllErrors(files) == [] <==>
      (forall i :: 0 <= i < |files| ==> Check(files[i]).valid) && TotalSize(files) <= MaxTotalSize
  {
    FileErrorsEmptyIff(files, |files|);
  }

  /** The thumbnail keys of a profile photo, by thumbnail position. */
  const ThumbKeys: seq<string> := ["64", "128", "200"]

  /** What `uploadToR2` answers. */
  datatype R2Result = R2Result(success: bool, url: string)

  /** `${R2_PUBLIC_URL}/${filePath}`. */
  function PublicUrl(base: string, t: UploadType, date: string, filename: string): string {
    base + "/" + GenerateFilePath(t, date, filename)
  }

  /** `uploadToR2`: the public URL on success, an empty one on failure. */
  function UploadToR2(base: string, t: UploadType, date: string, image: ProcessedImage, stored: ProcessedImage -> bool): R2Result {
    if stored(image) then R2Result(true, PublicUrl(base, t, date, image.filename)) else R2Result(false, "")
  }

  /** The position of a failed upload, when there is one. */
  function FirstFailed(rs: seq<R2Result>): (i: nat)
    requires exists k :: 0 <= k < |rs| && !rs[k].success
    ensures i < |rs| && !rs[i].success
  {
    if !rs[0].success then 0 else FirstFailed(rs[1..]) + 1
  }

  function CountFailed(rs: seq<R2Result>): (n: nat)
    ensures n <= |rs|
    ensures n == 0 <==> forall i :: 0 <= i < |rs| ==> rs[i].success
  {
    if rs == [] then 0 else (if rs[0].success then 0 else 1) + CountFailed(rs[1..])
  }

  /** `{ success, urls, thumbnails?, error?, fileSize? }`. */
  datatype UploadResult = UploadResult(
    success: bool, urls: seq<string>, thumbnails: Option<map<string, string>>, error: Option<string>, fileSize: Option<int>)

  /** The `forEach` over the uploads after the main one: the i-th gets key `ThumbKeys[i]` while there is one. */
  method ThumbnailUrls(t: UploadType, uploads: seq<R2Result>) returns (m: map<string, string>)
    ensures t != ProfilePhoto || |uploads| <= 1 ==> m == map[]
    ensures t == ProfilePhoto ==>
      forall i :: 0 <= i < |ThumbKeys| && i + 1 < |uploads| ==> ThumbKeys[i] in m && m[ThumbKeys[i]] == uploads[i + 1].url
    ensures forall k :: k in m ==> exists i :: 0 <= i < |ThumbKeys| && i + 1 < |uploads| && k == ThumbKeys[i]
  {
    m := map[];
    if t == ProfilePhoto && |uploads| > 1 {
      var rest := uploads[1..];
      for index := 0 to |rest|
        invariant forall i :: 0 <= i < |ThumbKeys| && i < index ==> ThumbKeys[i] in m && m[ThumbKeys[i]] == rest[i].url
        invariant forall k :: k in m ==> exists i :: 0 <= i < |ThumbKeys| && i < index && k == ThumbKeys[i]
      {
        if index < |ThumbKeys| {
          m := m[ThumbKeys[index] := rest[index].url];
        }
      }
    }
  }

  /** `processedImages.map((image) => this.uploadToR2(image, options.type))`. */
  function UploadsOf(base: string, t: UploadType, date: string, images: seq<ProcessedImage>, stored: ProcessedImage -> bool): (rs: seq<R2Result>)
    ensures |rs| == |images|
    ensures forall i :: 0 <= i < |images| ==> rs[i] == UploadToR2(base, t, date, images[i], stored)
  {
    seq(|images|, i requires 0 <= i < |images| => UploadToR2(base, t, date, images[i], stored))
  }

  /** The failure result: no urls, and the number of failed uploads in the message. */
  function UploadFailure(failed: nat): UploadResult {
    UploadResult(false, [], None, Some("Failed to upload " + NatToString(failed) + " files"), None)
  }

  /** The success result of `uploadImage` for `images`, all of them stored. */
  predicate AssembledFrom(r: UploadResult, base: string, t: UploadType, date: string, images: seq<ProcessedImage>)
    requires |images| == 1 + |ConfigOf(t).thumbnails|
  {
    && r.urls == [PublicUrl(base, t, date, images[0].filename)]
    && r.fileSize == Some(images[0].size)
    && r.error == None
    && (r.thumbnails.Some? <==> t == ProfilePhoto)
    && (t == ProfilePhoto ==>
          && r.thumbnails.value.Keys == {"64", "128", "200"}
          && forall i :: 0 <= i < |ThumbKeys| ==> r.thumbnails.value[ThumbKeys[i]] == PublicUrl(base, t, date, images[i + 1].filename))
  }

  /** The map the loop builds for a profile photo's four uploads holds exactly the three thumbnail keys. */
  lemma ProfileThumbnailKeys(m: map<string, string>, uploads: seq<R2Result>)
    requires |uploads| == 4
    requires forall i :: 0 <= i < |ThumbKeys| && i + 1 < |uploads| ==> ThumbKeys[i] in m
    requires forall k :: k in m ==> exists i :: 0 <= i < |ThumbKeys| && i + 1 < |uploads| && k == ThumbKeys[i]
    ensures m.Keys == {"64", "128", "200"} && |m| > 0
  {
    assert ThumbKeys[0] == "64" && ThumbKeys[1] == "128" && ThumbKeys[2] == "200";
    assert "64" in m && "128" in m && "200" in m;
    forall k | k in m ensures k == "64" || k == "128" || k == "200" {
      var i :| 0 <= i < |ThumbKeys| && i + 1 < |uploads| && k == ThumbKeys[i];
    }
    assert m.Keys == {"64", "128", "200"};
    assert "64" in m.Keys;
  }

  /** Everything `uploadImage` does after processing: store each image, then assemble the result. */
  method StoreAndAssemble(base: string, date: string, t: UploadType, images: seq<ProcessedImage>, stored: ProcessedImage -> bool) returns (r: UploadResult)
    requires |images| == 1 + |ConfigOf(t).thumbnails|
    ensures r.success <==> forall i :: 0 <= i < |images| ==> stored(images[i])
    ensures !r.success ==> r == UploadFailure(CountFailed(UploadsOf(base, t, date, images, stored)))
    ensures r.success ==> AssembledFrom(r, base, t, date, images)
  {
    var uploads := UploadsOf(base, t, date, images, stored);
    var failed := CountFailed(uploads);
    if failed > 0 {
      assert !uploads[FirstFailed(uploads)].success;
      return UploadFailure(failed);
    }
    var mainUrl := uploads[0].url;
    var thumbnails := ThumbnailUrls(t, uploads);
    if t == ProfilePhoto {
      ProfileThumbnailKeys(thumbnails, uploads);
    }
    r := UploadResult(true, [mainUrl], if |thumbnails| > 0 then Some(thumbnails) else None, None, Some(images[0].size));
  }

  /** The `catch` result for an exception with that message. */
  function CaughtFailure(message: string): UploadResult {
    UploadResult(false, [], None, Some(message), None)
  }

  /**
   * `uploadImage`. `decodeError(input)` is the message sharp throws when it
   * cannot decode the input (a corrupt file with an allowed mime type), or
   * `None` when it can; the `catch` turns the exception into a failure result.
   */
  method UploadImage(base: string, date: string, input: Bytes, t: UploadType, fileId: string,
                     decodeError: Bytes -> Option<string>,
                     encode: (Bytes, ResizeMode, nat) -> Bytes, stored: ProcessedImage -> bool) returns (r: UploadResult)
    ensures decodeError(input).Some? ==> r == CaughtFailure(decodeError(input).value) && !r.success
    ensures decodeError(input).None? ==>
      var images := ProcessedImages(input, t, fileId, encode);
      && (r.success <==> forall i :: 0 <= i < |images| ==> stored(images[i]))
      && (!r.success ==> r == UploadFailure(CountFailed(UploadsOf(base, t, date, images, stored))))
      && (r.success ==> AssembledFrom(r, base, t, date, images))
  {
    var failure := decodeError(input);
    if failure.Some? {
      return CaughtFailure(failure.value);
    }
    var images := ProcessImage(input, t, fileId, encode);
    r := StoreAndAssemble(base, date, t, images, stored);
  }

  /** `imageUrl.replace(R2_PUBLIC_URL + "/", "")`: the key `deleteImage` removes. */
  function DeleteKey(base: string, imageUrl: string): string {
    ReplaceFirst(imageUrl, base + "/", "")
  }

  /** Deleting by the URL an upload returned removes the object that upload stored. */
  lemma DeleteKeyOfPublicUrl(base: string, t: UploadType, date: string, filename: string)
    ensures DeleteKey(base, PublicUrl(base, t, date, filename)) == GenerateFilePath(t, date, filename)
  {
    ReplaceFirstOfPrefix(base + "/", GenerateFilePath(t, date, filename));
  }

  /** A URL not containing the base leaves the key as the whole URL. */
  lemma DeleteKeyOfForeignUrl(base: string, imageUrl: string)
    requires forall k: nat :: !OccursAt(imageUrl, base + "/", k)
    ensures DeleteKey(base, imageUrl) == imageUrl
  {
  }
}

=== FILE: wrappers.dfy ===
/** Optional values and results with an error, used throughout the model. */
module Wrappers {

  datatype Option<+T> = None | Some(value: T) {
    /** The value, or `default` when there is none (JavaScript's `x ?? default`). */
    function GetOr(default: T): T {
      match this
      case Some(v) => v
      case None => default
    }
  }

  datatype Result<+R, +E> = Success(value: R) | Failure(error: E)
}
